=== FILE: README.md ===
# Weighted graphs, shortest paths and spanning trees

This project models the core of a small Java library for weighted undirected
graphs. The library has three layers, and the model keeps that structure:

- **`Graph`** (`Graphs`, with `Decimal` for vertex names). A vertex list
  keeps its own id allocator. An edge list holds undirected weighted edges.
  The `Graph` delegators forward to both.
  - A graph is an immutable value.
  - Every mutator returns the new graph, or the exception the Java method
    throws. When it throws, the object is unchanged.
  - The varargs removals can stop half-way, so they return the partial
    state together with the exception. The varargs `addVertex` returns a
    plain result, and it cannot fail on a valid graph.
  - `Valid` is the structural invariant that every operation keeps:
    - ids are positive and increasing;
    - every endpoint is a live vertex;
    - no two edges join the same pair of vertices.
- **`Dijkstra`** (`ShortestPaths`, `DijkstraEngine`). The result list holds
  a cost and a predecessor per vertex. The extract-min / relaxation loop of
  `calculateDijkstra` is proved to produce a shortest-path tree. The
  `calculated` cache flag is modelled together with the overrides that
  clear it.
- **`MinimalSpanningTree`** (`Walks`, `UnionFind`, `Kruskal`, `Prim`,
  `PrimProof`, `SpanningTree`).
  - `Kruskal.calculate` is modelled over a weight-ordered queue, with
    union-find `find` (path compression) and `union`.
  - `Prim.calculate` is modelled with its key and included arrays.
  - The `METHOD` tag caches the last computation, and the overrides reset
    it.
  - Both algorithms are proved to return a spanning forest:
    - its edges are edges of the graph;
    - it has no cycle;
    - it connects two vertices exactly when the graph does.

Representation choices:

- Weights are natural numbers. Costs and keys add an explicit `Inf`.
- Java exceptions become the `Error` constructors of `Wrappers`:
  - NoSuchElementException → `NotFound`;
  - IllegalArgumentException → `AlreadyExists`;
  - IllegalStateException → `InvalidState`;
  - UnsupportedOperationException → `Unsupported`;
  - ArrayIndexOutOfBoundsException → `OutOfBounds`.
- The id allocator is modelled as the code writes it: the next id is the
  last id in the list plus one, not a high-water mark. Removing the tail
  vertex therefore lets its id be handed out again. See
  `RemovingTailIdReusesIt`.
- `calculateDijkstra` builds the source entry with `create(id, name)`, which
  refuses a non-empty list. The computation therefore succeeds only when the
  source is the first vertex in list order. This is modelled as the
  `Unsupported` error path, and `SourceFirstIff` states it.
- In the Java code, Kruskal's `parent` array and Prim's loop indices treat
  array positions and vertex ids as the same thing. That only works when the
  ids are exactly 0 to n - 1 for n vertices, which `Valid` graphs (ids from 1) never are.
  - The engine models both algorithms over a vertex's id, for Kruskal, or
    its position in the id list, for Prim.
  - A missing edge weighs `Inf` in Prim.
  - The raw-index behaviour is modelled separately and recorded under
    Findings.

## Model

| member | source | states |
|---|---|---|
| Graphs.NextId | src/edu/tm1/krzyszof/jurkowski/zad1/Graph.java:559-564 | the allocated id is positive and above every id in the list |
| Graphs.NewVertex | src/edu/tm1/krzyszof/jurkowski/zad1/Graph.java:757-762 | constructing a vertex fails with IllegalArgumentException exactly when the id is taken; an unnamed vertex is named by its decimal id |
| Graphs.UnnamedNameReadsBackAsId | src/edu/tm1/krzyszof/jurkowski/zad1/Graph.java:757-762 | the default name is a well-formed decimal numeral that reads back as the id |
| Decimal.IntToStringRoundTrip | src/edu/tm1/krzyszof/jurkowski/zad1/Graph.java:761 | parsing the `toString` rendering of an id gives the id back |
| Decimal.ParseNatToString | src/edu/tm1/krzyszof/jurkowski/zad1/Graph.java:761 | parsing the decimal rendering of a natural number gives it back |
| Graphs.CreateVertex | src/edu/tm1/krzyszof/jurkowski/zad1/Graph.java:590-595 | exactly one vertex is appended, with a fresh id and the name asked for (the decimal id when none is given); edges are unchanged; on a valid graph it cannot fail and keeps the graph valid |
| Graphs.CreatedNameReadsBack | src/edu/tm1/krzyszof/jurkowski/zad1/Graph.java:590-595 | after creating a vertex, `getName` on the returned id reads the name asked for, or the decimal id for an unnamed vertex |
| Graphs.CreateVertices | src/edu/tm1/krzyszof/jurkowski/zad1/Graph.java:605-611 | one fresh id per argument, every returned id exists afterwards, and no other vertex appears; the new vertices are appended in argument order, the k-th with the k-th id and the k-th name (or its decimal id) |
| Graphs.CreateVerticesFromValid | src/edu/tm1/krzyszof/jurkowski/zad1/Graph.java:574-580 | on a valid graph the batch succeeds, and the ids come back in call order, strictly increasing and above every earlier id |
| Graphs.RemovingMiddleIdKeepsAllocation | src/edu/tm1/krzyszof/jurkowski/zad1/Graph.java:559-564 | removing any vertex but the last leaves the next id unchanged (ids 1, 2, 3 minus 2 still allocate 4) |
| Graphs.RemovingTailIdReusesIt | src/edu/tm1/krzyszof/jurkowski/zad1/Graph.java:559-564 | with ids 1..n, removing n and creating a vertex hands out n again |
| Graphs.RemoveVertex | src/edu/tm1/krzyszof/jurkowski/zad1/Graph.java:620-627 | NotFound exactly for an absent id; otherwise the id no longer exists, every other vertex stays with its name, and exactly the edges touching it are gone |
| Graphs.RemoveVertices | src/edu/tm1/krzyszof/jurkowski/zad1/Graph.java:636-640 | removes the ids one by one and stops at the first unknown or repeated id: exactly the vertices with an id before it are gone, with exactly their incident edges, and every other vertex and edge is kept as it was; NotFound exactly when such an id exists; validity is kept |
| Graphs.GetName | src/edu/tm1/krzyszof/jurkowski/zad1/Graph.java:718-720 | NotFound exactly for an absent id; otherwise the name of a vertex with that id |
| Graphs.SetName | src/edu/tm1/krzyszof/jurkowski/zad1/Graph.java:706-708 | NotFound exactly for an absent id; afterwards `getName` reads the new name, other names, the ids and the edges are unchanged |
| Graphs.SimpleHasNoParallelEdges | src/edu/tm1/krzyszof/jurkowski/zad1/Graph.java:894-900 | the duplicate check leaves no two edges with the same unordered endpoints |
| Graphs.EdgeIndexSymmetric | src/edu/tm1/krzyszof/jurkowski/zad1/Graph.java:1152-1154 | the first edge connecting a and b is the first connecting b and a |
| Graphs.ExistsEdge | src/edu/tm1/krzyszof/jurkowski/zad1/Graph.java:981-985 | NotFound when either vertex is missing; otherwise true exactly when some edge connects the pair |
| Graphs.ExistsAnyEdge | src/edu/tm1/krzyszof/jurkowski/zad1/Graph.java:995-999 | NotFound for an absent vertex; otherwise true exactly when some edge touches it |
| Graphs.EdgeQueriesSymmetric | src/edu/tm1/krzyszof/jurkowski/zad1/Graph.java:981-985 | `exists(v1, v2) == exists(v2, v1)` and `getWeight(v1, v2) == getWeight(v2, v1)` |
| Graphs.GetWeight | src/edu/tm1/krzyszof/jurkowski/zad1/Graph.java:1010-1012 | NotFound exactly when no edge connects the pair; otherwise the weight of a connecting edge |
| Graphs.CreateEdge | src/edu/tm1/krzyszof/jurkowski/zad1/Graph.java:894-900 | NotFound exactly when an endpoint is missing, AlreadyExists exactly when an edge already connects the pair in either order; otherwise exactly one edge is appended and `getWeight` reads its weight both ways |
| Graphs.RemoveEdge | src/edu/tm1/krzyszof/jurkowski/zad1/Graph.java:929-933 | NotFound unless both vertices exist and an edge connects them; afterwards exactly the connecting edges are gone |
| Graphs.RemoveIncidentEdges | src/edu/tm1/krzyszof/jurkowski/zad1/Graph.java:942-946 | NotFound for an absent vertex; afterwards no edge touches it and every other edge is kept |
| Graphs.RemoveIncidentEdgesOf | src/edu/tm1/krzyszof/jurkowski/zad1/Graph.java:948-952 | removes the edges of the ids one by one and stops at the first unknown id: exactly the edges touching an id before it are gone and all others are kept; NotFound exactly when some listed id is missing; vertices never change |
| Graphs.SetWeight | src/edu/tm1/krzyszof/jurkowski/zad1/Graph.java:1024-1026 | NotFound exactly when no edge connects the pair; otherwise the first connecting edge takes the new weight, every other edge stays exactly as it was, and `getWeight` reads the new weight both ways |
| Graphs.ReweightKeepsValid | src/edu/tm1/krzyszof/jurkowski/zad1/Graph.java:1024-1026 | changing weights without moving endpoints keeps a graph valid |
| Graphs.EditEdge | src/edu/tm1/krzyszof/jurkowski/zad1/Graph.java:914-919 | NotFound unless the edge exists; otherwise the connecting edge is replaced by one new edge appended at the end |
| Graphs.ReweightDropsEdge | src/edu/tm1/krzyszof/jurkowski/zad1/Graph.java:914-919 | editing an edge of a valid graph to a different weight succeeds, and the old weighted edge is gone from the graph |
| Graphs.Apply | src/edu/tm1/krzyszof/jurkowski/zad1/Graph.java:120-328 | every delegator keeps a valid graph valid, and a single-argument call that throws leaves the graph unchanged |
| ShortestPaths.GetCost | src/edu/tm1/krzyszof/jurkowski/zad2/Dijkstra.java:979-981 | NotFound exactly for an id without an entry |
| ShortestPaths.GetPrevious | src/edu/tm1/krzyszof/jurkowski/zad2/Dijkstra.java:1005-1007 | NotFound exactly for an id without an entry |
| ShortestPaths.SetCost | src/edu/tm1/krzyszof/jurkowski/zad2/Dijkstra.java:966-968 | NotFound for an unknown id; afterwards `getCost` reads the new cost and nothing else changes |
| ShortestPaths.SetPrevious | src/edu/tm1/krzyszof/jurkowski/zad2/Dijkstra.java:992-994 | NotFound for an unknown id; afterwards `getPrevious` reads the new predecessor and nothing else changes |
| ShortestPaths.CreateSource | src/edu/tm1/krzyszof/jurkowski/zad2/Dijkstra.java:782-787 | Unsupported exactly when the list is not empty; otherwise the source has cost 0 and no predecessor |
| ShortestPaths.CreateEntry | src/edu/tm1/krzyszof/jurkowski/zad2/Dijkstra.java:838-844 | AlreadyExists exactly for an id with an entry; otherwise one entry is appended with the given cost and predecessor |
| ShortestPaths.InitResultSpec | src/edu/tm1/krzyszof/jurkowski/zad2/Dijkstra.java:677-686 | the initial result fails with Unsupported exactly when the source is a later vertex; otherwise one entry per vertex, the source at 0, every other vertex at infinity, no predecessors |
| ShortestPaths.ExtractMin | src/edu/tm1/krzyszof/jurkowski/zad2/Dijkstra.java:280-286 | the vertex taken out of Q has the least cost in Q |
| ShortestPaths.RelaxOne | src/edu/tm1/krzyszof/jurkowski/zad2/Dijkstra.java:289-295 | v changes only on a strict improvement through an edge u-v, and then costs cost(u) + w with predecessor u; nothing else changes |
| ShortestPaths.RelaxFrom | src/edu/tm1/krzyszof/jurkowski/zad2/Dijkstra.java:288-296 | every vertex still in Q is relaxed from u, no other entry changes, and no cost increases |
| ShortestPaths.ExtractedIsFinal | src/edu/tm1/krzyszof/jurkowski/zad2/Dijkstra.java:280-286 | the extracted vertex's cost is at most the weight of every path to it |
| ShortestPaths.RoundKeepsInvariant | src/edu/tm1/krzyszof/jurkowski/zad2/Dijkstra.java:279-297 | one round keeps the loop invariant with Q shrunk by exactly the extracted vertex |
| ShortestPaths.Calculate | src/edu/tm1/krzyszof/jurkowski/zad2/Dijkstra.java:268-300 | fails with Unsupported exactly when the source is a later vertex; otherwise the result is a shortest-path tree: costs are path distances, predecessor links are tight, every reachable vertex but the source has a predecessor, and the links follow extraction order, so they cannot cycle; one round per vertex |
| ShortestPaths.CostsDetermined | src/edu/tm1/krzyszof/jurkowski/zad2/Dijkstra.java:268-300 | two shortest-path trees from the same source give every id the same cost |
| ShortestPaths.FiniteIffReachable | src/edu/tm1/krzyszof/jurkowski/zad2/Dijkstra.java:268-300 | a vertex has a finite cost exactly when a path reaches it, and then the cost is the least path weight |
| ShortestPaths.MissingSourceReachesNothing | src/edu/tm1/krzyszof/jurkowski/zad2/Dijkstra.java:268-300 | with a source that is not a vertex, every cost is infinity |
| ShortestPaths.PrevWalk | src/edu/tm1/krzyszof/jurkowski/zad2/Dijkstra.java:289-295 | in a shortest-path tree, following predecessor links back from a reachable vertex walks a graph path from the source whose weight is the vertex's cost |
| DijkstraEngine.FromGraph | src/edu/tm1/krzyszof/jurkowski/zad2/Dijkstra.java:71-75 | no source, nothing calculated, and the cache is coherent |
| DijkstraEngine.CalculateDijkstra | src/edu/tm1/krzyszof/jurkowski/zad2/Dijkstra.java:268-300 | returns at once while `calculated` holds; IllegalStateException with no source; otherwise a fresh shortest-path tree and a coherent cache |
| DijkstraEngine.GetVertexCost | src/edu/tm1/krzyszof/jurkowski/zad2/Dijkstra.java:455-459 | recomputes when needed; NotFound for a non-vertex; the cost is at most every path's weight and, when finite, some path's weight |
| DijkstraEngine.GetVertexPrevious | src/edu/tm1/krzyszof/jurkowski/zad2/Dijkstra.java:470-474 | recomputes when needed; NotFound for a non-vertex; the source has no predecessor, every other reachable vertex has one, and a predecessor is a neighbour through which the cost is exactly reached |
| DijkstraEngine.SetSourceAsWritten | src/edu/tm1/krzyszof/jurkowski/zad2/Dijkstra.java:556-561 | the guard as written throws exactly when the vertex exists |
| DijkstraEngine.AsWrittenSourceReachesNothing | src/edu/tm1/krzyszof/jurkowski/zad2/Dijkstra.java:556-561 | every source the written guard accepts is a non-vertex, so every computed cost is infinity |
| DijkstraEngine.AsWrittenRefusesExistingSource | src/edu/tm1/krzyszof/jurkowski/zad2/Dijkstra.java:556-561 | on the graph with vertex 1, `setSource(1)` throws and `setSource(7)` is accepted |
| DijkstraEngine.SetSource | src/edu/tm1/krzyszof/jurkowski/zad2/Dijkstra.java:550-561 | as documented: NotFound exactly for a non-vertex; otherwise the source is stored and the flag cleared |
| DijkstraEngine.CalculateFrom | src/edu/tm1/krzyszof/jurkowski/zad2/Dijkstra.java:313-316 | with the corrected `setSource`: NotFound for a non-vertex; Unsupported exactly when the source is not the first vertex; otherwise a shortest-path tree from it |
| DijkstraEngine.CalculateFromAsWritten | src/edu/tm1/krzyszof/jurkowski/zad2/Dijkstra.java:313-316 | as written, with the inverted guard: NoSuchElement exactly for a vertex; an id that is not a vertex is stored, and every computed cost is +infinity |
| DijkstraEngine.CopyEngine | src/edu/tm1/krzyszof/jurkowski/zad2/Dijkstra.java:84-91 | the copy keeps the graph and the unchecked source; it stays uncalculated when the original was, and otherwise recomputes, failing exactly when the source is a later vertex and else agreeing with the original on every cost |
| DijkstraEngine.SourceFirstIff | src/edu/tm1/krzyszof/jurkowski/zad2/Dijkstra.java:782-787 | for a vertex of a valid graph, the source-entry guard fires exactly when it is not the first vertex |
| DijkstraEngine.Delegate | src/edu/tm1/krzyszof/jurkowski/zad2/Dijkstra.java:573-576 | each override's delegate keeps a valid graph valid, and a single-argument call that throws leaves it unchanged |
| DijkstraEngine.MutateAsWritten | src/edu/tm1/krzyszof/jurkowski/zad2/Dijkstra.java:360-576 | vertex overrides clear the flag first, edge overrides only after success; a single-argument call keeps a coherent cache coherent |
| DijkstraEngine.PartialEdgeRemovalLeavesStaleResult | src/edu/tm1/krzyszof/jurkowski/zad2/Dijkstra.java:544-547 | `removeAllEdges(1, 3)` on edge 1-2 throws after removing the edge and leaves `calculated` set over a result that is no longer a shortest-path tree |
| DijkstraEngine.RemoveAllEdgesOfAsWritten | src/edu/tm1/krzyszof/jurkowski/zad2/Dijkstra.java:544-547 | as written, the varargs `removeAllEdges` keeps `calculated` set exactly when the delegate throws, with the edges removed before the throw gone |
| DijkstraEngine.AsWrittenStaleOnlyOnPartialBatch | src/edu/tm1/krzyszof/jurkowski/zad2/Dijkstra.java:544-547 | as written, only a throwing `removeAllEdges(ids...)` can make the cache incoherent |
| DijkstraEngine.Mutate | src/edu/tm1/krzyszof/jurkowski/zad2/Dijkstra.java:360-576 | every mutator clears the flag, whatever its outcome, so the engine stays coherent |
| UnionFind.Find | src/edu/tm1/krzyszof/jurkowski/zad3/MinimalSpanningTree.java:717-721 | returns the root of the element, a slot that is its own parent; compression keeps every root and every class |
| UnionFind.Union | src/edu/tm1/krzyszof/jurkowski/zad3/MinimalSpanningTree.java:730-734 | afterwards both elements share a root; exactly the two classes merge, all others are unchanged; the number of roots drops by one when they differed |
| UnionFind.SingletonsWf | src/edu/tm1/krzyszof/jurkowski/zad3/MinimalSpanningTree.java:691-693 | the initial `parent[i] = i` is well formed with every slot its own class |
| UnionFind.Singletons | src/edu/tm1/krzyszof/jurkowski/zad3/MinimalSpanningTree.java:691-693 | the initial forest has one slot per element, each its own parent and root |
| Kruskal.SortByWeight | src/edu/tm1/krzyszof/jurkowski/zad3/MinimalSpanningTree.java:688-689 | the drain order of the queue is a weight-sorted permutation of the edges |
| Kruskal.Insert | src/edu/tm1/krzyszof/jurkowski/zad3/MinimalSpanningTree.java:688-689 | adding an edge to the queue keeps its contents as a multiset plus the edge, and keeps the weight order |
| Kruskal.Scan | src/edu/tm1/krzyszof/jurkowski/zad3/MinimalSpanningTree.java:695-705 | for any weight-sorted queue, the kept edges are graph edges in non-decreasing weight, form a forest of at most one edge fewer than the graph has vertices, and connect exactly what the graph connects |
| Kruskal.Kruskal | src/edu/tm1/krzyszof/jurkowski/zad3/MinimalSpanningTree.java:682-708 | the result is a spanning forest of the graph in non-decreasing weight |
| Kruskal.KruskalAsWritten | src/edu/tm1/krzyszof/jurkowski/zad3/MinimalSpanningTree.java:691-693 | with `parent` indexed by raw id, the run throws exactly when some endpoint has no slot; otherwise its edges are graph edges forming a forest that connects exactly what the graph connects |
| Kruskal.LastVertexUnslotted | src/edu/tm1/krzyszof/jurkowski/zad3/MinimalSpanningTree.java:717-721 | on a valid graph, an edge at the last vertex makes the raw-id run throw |
| Prim.Start | src/edu/tm1/krzyszof/jurkowski/zad3/MinimalSpanningTree.java:772-777 | key 0 at the start vertex, the maximum elsewhere, nothing included |
| Prim.Lowest | src/edu/tm1/krzyszof/jurkowski/zad3/MinimalSpanningTree.java:780-783 | the selection returns an unincluded vertex of least key (the lowest such position), or none when all are included |
| Prim.StartPicksFirst | src/edu/tm1/krzyszof/jurkowski/zad3/MinimalSpanningTree.java:775-783 | with key 0 only at position 0, the first selection picks position 0 |
| Prim.ZeroKeyFirst | src/edu/tm1/krzyszof/jurkowski/zad3/MinimalSpanningTree.java:780-783 | while position 0 is not included and has key 0, the selection returns position 0 |
| Prim.RelaxUpTo | src/edu/tm1/krzyszof/jurkowski/zad3/MinimalSpanningTree.java:787-793 | exactly the unincluded vertices with a strictly lighter edge from u get that weight as key and u as parent; nothing else changes |
| Prim.Round | src/edu/tm1/krzyszof/jurkowski/zad3/MinimalSpanningTree.java:779-794 | one round includes the selected vertex and records its connector; keys only decrease |
| Prim.BetweenSymmetric | src/edu/tm1/krzyszof/jurkowski/zad3/MinimalSpanningTree.java:788 | the weight read between two positions does not depend on their order |
| Prim.PrimKeepingAllEdges | src/edu/tm1/krzyszof/jurkowski/zad3/MinimalSpanningTree.java:765-797 | fails with OutOfBounds exactly on the empty graph |
| Prim.TriangleKeepsSupersededEdge | src/edu/tm1/krzyszof/jurkowski/zad3/MinimalSpanningTree.java:789-791 | on the triangle 1-2 (5), 1-3 (1), 2-3 (1), with lookups by position but every improving edge kept as the code keeps it, the result is three edges with a cycle, while the corrected result is the two light edges |
| Prim.TriangleCycle | src/edu/tm1/krzyszof/jurkowski/zad3/MinimalSpanningTree.java:789-791 | the three edges the written loop hands over on the triangle contain a cycle |
| Prim.PrimAsWritten | src/edu/tm1/krzyszof/jurkowski/zad3/MinimalSpanningTree.java:777 | as written, the empty graph fails on `key[0]` and a one-vertex graph gives no edges |
| Prim.RelaxRawUpTo | src/edu/tm1/krzyszof/jurkowski/zad3/MinimalSpanningTree.java:787-793 | as written, the inner loop fails as soon as some position it looks up has no edge, the first lookup `getWeight(u, 0)` included; on success every lookup succeeded; `create` can add AlreadyExists |
| Prim.TriangleAtZeroAsWritten | src/edu/tm1/krzyszof/jurkowski/zad3/MinimalSpanningTree.java:789-791 | on ids 0, 1, 2 with edges 0-1 (5), 0-2 (1), 1-2 (1), a graph the library's own paths cannot build, the loop as written returns 0-1, 0-2 and 2-1: three edges, a cycle, more than a spanning tree has |
| Prim.Prim | src/edu/tm1/krzyszof/jurkowski/zad3/MinimalSpanningTree.java:765-797 | the corrected tree uses only edges of the graph, and the empty graph gets no edges; `PrimProof` proves it a spanning forest |
| Prim.PrimAsWrittenThrows | src/edu/tm1/krzyszof/jurkowski/zad3/MinimalSpanningTree.java:788 | as written, the first lookup `getWeight(0, 0)` throws NoSuchElement on every valid graph with two or more vertices |
| PrimProof.PrimForest | src/edu/tm1/krzyszof/jurkowski/zad3/MinimalSpanningTree.java:765-797 | the corrected result is a forest of graph edges with at most one edge fewer than the graph has vertices |
| PrimProof.PrimSpans | src/edu/tm1/krzyszof/jurkowski/zad3/MinimalSpanningTree.java:765-797 | the corrected result connects two ids exactly when the graph does |
| SpanningTree.FromEngine | src/edu/tm1/krzyszof/jurkowski/zad3/MinimalSpanningTree.java:73-76 | a new object has tag NOT_CALCULATED, so `mermaid()` throws IllegalStateException |
| SpanningTree.CalculateMST | src/edu/tm1/krzyszof/jurkowski/zad3/MinimalSpanningTree.java:332-339 | NOT_CALCULATED, or the method the tag already names, changes nothing; any other method sets the tag and stores a spanning forest of the current graph; coherence is kept |
| SpanningTree.WithMethod | src/edu/tm1/krzyszof/jurkowski/zad3/MinimalSpanningTree.java:127-131 | the tag is the requested method, and for Kruskal or Prim the stored edges span the graph |
| SpanningTree.Copy | src/edu/tm1/krzyszof/jurkowski/zad3/MinimalSpanningTree.java:98-103 | the copy carries the original's tag, with the tree recomputed on the copied graph |
| SpanningTree.MermaidEdges | src/edu/tm1/krzyszof/jurkowski/zad3/MinimalSpanningTree.java:371-375 | IllegalStateException exactly while the tag is NOT_CALCULATED; what is rendered of a coherent object spans its graph |
| SpanningTree.MermaidWith | src/edu/tm1/krzyszof/jurkowski/zad3/MinimalSpanningTree.java:386-389 | throws only for NOT_CALCULATED with nothing computed; a freshly computed tree spans the graph |
| SpanningTree.MutateAsWritten | src/edu/tm1/krzyszof/jurkowski/zad3/MinimalSpanningTree.java:429-570 | every overridden mutator resets the tag, even when the call throws; `setVertexName` and `editEdge` keep it; the stored edges are untouched; the `Dijkstra` part follows its own as-written override, so a varargs `removeAllEdges` that throws keeps the inherited flag |
| SpanningTree.AsWrittenStaleCases | src/edu/tm1/krzyszof/jurkowski/zad3/MinimalSpanningTree.java:429-570 | as written, only `editEdge`, or a varargs `removeAllEdges` that throws part-way, can leave a coherent object incoherent |
| SpanningTree.PartialEdgeRemovalLeavesStaleObject | src/edu/tm1/krzyszof/jurkowski/zad2/Dijkstra.java:544-547 | `removeAllEdges(1, 3)` on a coherent object with edge 1-2 throws after removing the edge, and the inherited `calculated` flag stays set over a stale result |
| SpanningTree.EditEdgeLeavesStaleTree | src/edu/tm1/krzyszof/jurkowski/zad3/MinimalSpanningTree.java:429-570 | reweighting a tree edge with `editEdge` succeeds and keeps the tag, and `mermaid()` then renders an edge the graph no longer has |
| SpanningTree.EditEdgeAfterKruskalAsWritten | src/edu/tm1/krzyszof/jurkowski/zad3/MinimalSpanningTree.java:429-570 | on vertices 1, 2, 3 with edge 1-2 (5), the Kruskal run keeps 1-2 (5); `editEdge(1, 2, 7)` then succeeds, keeps tag KRUSKAL, and `mermaid()` still renders 1-2 (5) |
| SpanningTree.Mutate | src/edu/tm1/krzyszof/jurkowski/zad3/MinimalSpanningTree.java:429-570 | with the tag reset on every mutation, the object stays coherent whatever the call |
| SpanningTree.MutateThenMermaid | src/edu/tm1/krzyszof/jurkowski/zad3/MinimalSpanningTree.java:386-389 | after any mutation, asking for a tree by a method recomputes it, and the result spans the mutated graph |

## Left out

- File `load`/`save` in all three classes is I/O and is not modelled. This covers line parsing, readers and writers, and logging.
- Mermaid rendering is string formatting and is not modelled. This covers every `mermaid()` text and the `MERMAID` converters. `SpanningTree.MermaidEdges` keeps only the not-calculated guard and the edges that would be rendered.
- Weights are non-negative integers. IEEE `Double` behaviour (NaN, negative weights, rounding) is not modelled, and `Double.MAX_VALUE` / `POSITIVE_INFINITY` are both `Inf`.
- `addVertex(int n)` with a negative `n` throws NegativeArraySizeException at `new Integer[n]` (Graph.java:575). `CreateVertices` takes the list of names, whose length cannot be negative, so that exception is not modelled.
- Ids are unbounded. The wrap-around of `ids.getLast() + 1` at 2^31 - 1 is not modelled.
- `HashSet` iteration order is not modelled. `ShortestPaths.ExtractMin` returns any vertex of least cost, and the relaxation visits Q in any order.
- The priority queue's order among equal weights is not modelled. `Kruskal.Scan` accepts every weight-sorted order of the edges, and `SortByWeight` supplies one.
- Shallow-copy aliasing in the copy constructors is not modelled: values are copied.
  - `SpanningTree.Copy` takes the `Dijkstra` part built by `super(MST)` as a parameter.
  - The `Dijkstra` copy constructor is `CopyEngine`: the source is copied unchecked, and the copy recomputes only when the original was calculated.
  - `Dijkstra(graph, src)` (Dijkstra.java:106-110) and `MinimalSpanningTree(graph, src)` are not separate members. As written they are `FromGraph` followed by `CalculateFromAsWritten`, so they throw for every vertex; the corrected counterpart is `FromGraph` followed by `CalculateFrom`.
- `ResultVertices` members that `calculateDijkstra` never calls are not modelled: the `create()` overloads, `remove`, `setName` and `getName`. Nor are the trivial accessors `getIds`, `getVertices` and `getEdges`.
- The partial `resultEdges` left by a Kruskal or Prim run that throws half-way is not modelled. `KruskalAsWritten` and `PrimAsWritten` return only the exception.
- SpanningTree.CalculateMST: states that the result is a spanning forest (forest, subset, same connectivity), not that its total weight is minimal; minimality is not proved.
- Kruskal.Kruskal: proves spanning forest and weight order, not minimal total weight.
- PrimProof.PrimSpans: proves a spanning forest, not minimal total weight.
- Prim.Prim: the corrected result records each vertex's connector when the vertex is included, so it runs one round per vertex instead of one fewer.
- SpanningTree.CalculateMST: runs the corrected `Kruskal.Kruskal` and `Prim.Prim`, and so do `WithMethod`, `Copy`, `MermaidWith` and `MutateThenMermaid`. As written, PRIM throws on every valid graph with two or more vertices (`Prim.PrimAsWrittenThrows`), and KRUSKAL throws whenever an edge touches an id that has no slot (`Kruskal.LastVertexUnslotted`); such a throw leaves the tag unchanged and `resultEdges` partly rebuilt, which these members do not model.
- DijkstraEngine.CalculateFrom: composes the corrected `SetSource`. As written, `calculateDijkstra(source)` reaches the inverted guard: it throws NoSuchElement for every vertex, and for an id that is not a vertex it computes a result where every cost is +infinity (`CalculateFromAsWritten`, `AsWrittenSourceReachesNothing`). `GetVertexCost` and `GetVertexPrevious` require a coherent cache, which the corrected `Mutate` keeps; after a varargs `removeAllEdges` that throws part-way under the as-written overrides, the Java getters return the stale cost, and that case is not modelled by them.
- Kruskal.Kruskal: one union-find slot per vertex id instead of an array with one slot per vertex indexed by raw id (see Findings).

## Findings

| source | as written | input that shows it | evidently intended | confidence | as-written member | corrected member |
|---|---|---|---|---|---|---|
| src/edu/tm1/krzyszof/jurkowski/zad2/Dijkstra.java:557 | `setSource` throws when the vertex exists | graph with vertex 1: `setSource(1)` throws, `setSource(7)` is accepted | throw when the vertex does not exist, as its doc comment says | not executed | DijkstraEngine.AsWrittenRefusesExistingSource | DijkstraEngine.SetSource |
| src/edu/tm1/krzyszof/jurkowski/zad2/Dijkstra.java:544-547 | the varargs `removeAllEdges` clears `calculated` only after the delegate returns | vertices 1, 2, edge 1-2 (5), source 1 computed; `removeAllEdges(1, 3)` removes the edge, then throws on 3 | clear the flag whatever the delegate does | not executed | DijkstraEngine.PartialEdgeRemovalLeavesStaleResult | DijkstraEngine.Mutate |
| src/edu/tm1/krzyszof/jurkowski/zad3/MinimalSpanningTree.java:691-693 | `parent` has one slot per vertex but is indexed by raw vertex id | vertices 1, 2 with edge 1-2: `find(2)` reads `parent[2]` of a 2-slot array | one union-find slot per vertex | not executed | Kruskal.LastVertexUnslotted | Kruskal.Kruskal |
| src/edu/tm1/krzyszof/jurkowski/zad3/MinimalSpanningTree.java:788 | loop positions are passed to the throwing `getWeight` as vertex ids | any valid graph with two vertices: `getWeight(0, 0)` throws NoSuchElement | look up the vertices at those positions, with "no edge" as infinite weight | not executed | Prim.PrimAsWrittenThrows | PrimProof.PrimSpans |
| src/edu/tm1/krzyszof/jurkowski/zad3/MinimalSpanningTree.java:789-791 | every key-improving edge is added to the result and never withdrawn | ids 0, 1, 2 with edges 0-1 (5), 0-2 (1), 1-2 (1): the loop as written returns 0-1, 0-2 and 2-1, a cycle. No public path builds this graph (`create` allocates from 1; `load` bypasses the `ids` list, so its edge lines are refused), and on every buildable graph line 788 throws first, so the defect is latent | keep only each vertex's final connector | not executed; latent behind line 788 | Prim.TriangleAtZeroAsWritten | PrimProof.PrimForest |
| src/edu/tm1/krzyszof/jurkowski/zad3/MinimalSpanningTree.java:777 | `key[0] = 0.0` on an array with one slot per vertex | the empty graph: ArrayIndexOutOfBoundsException | the empty graph has the empty tree | not executed | Prim.PrimAsWritten | PrimProof.PrimForest |
| src/edu/tm1/krzyszof/jurkowski/zad3/MinimalSpanningTree.java:429-570 | no override of `editEdge` (or `setVertexName`), so the tag survives them | vertices 1, 2, 3, edge 1-2 (5): `calculateMST(KRUSKAL)` keeps 1-2 (5); `editEdge(1, 2, 7)` keeps tag KRUSKAL and `mermaid()` still shows weight 5 | reset the tag on every mutation | not executed | SpanningTree.EditEdgeAfterKruskalAsWritten | SpanningTree.Mutate |

=== FILE: decimal.dfy ===
/** Decimal rendering of integer ids, as `Integer.toString` produces it: an
    optional minus sign followed by digits without leading zeros. An unnamed
    vertex is named by this rendering of its id. */
module Decimal {

  predicate IsDigit(c: char) {
    '0' <= c <= '9'
  }

  function DigitChar(d: nat): (c: char)
    requires d < 10
    ensures IsDigit(c)
    ensures c as int - '0' as int == d
  {
    ['0', '1', '2', '3', '4', '5', '6', '7', '8', '9'][d]
  }

  function DigitValue(c: char): nat
    requires IsDigit(c)
  {
    c as int - '0' as int
  }

  /** The canonical decimal digits of `n`. */
  function NatToString(n: nat): (s: string)
    ensures 1 <= |s|
    ensures forall i :: 0 <= i < |s| ==> IsDigit(s[i])
    ensures 1 < |s| ==> s[0] != '0'
    decreases n
  {
    if n < 10 then [DigitChar(n)] else NatToString(n / 10) + [DigitChar(n % 10)]
  }

  /** `Integer.toString(i)` on an unbounded integer. */
  function IntToString(i: int): (s: string)
    ensures 1 <= |s|
    ensures s[0] == '-' <==> i < 0
  {
    if i < 0 then "-" + NatToString(-i) else NatToString(i)
  }

  /** Reads a string of digits back as a number. */
  function ParseNat(s: string): nat
    requires forall i :: 0 <= i < |s| ==> IsDigit(s[i])
  {
    if |s| == 0 then 0 else ParseNat(s[..|s| - 1]) * 10 + DigitValue(s[|s| - 1])
  }

  /** Reads an optional minus sign followed by digits. */
  function ParseInt(s: string): int
    requires 1 <= |s|
    requires forall i :: (if s[0] == '-' then 1 else 0) <= i < |s| ==> IsDigit(s[i])
  {
    if s[0] == '-' then -(ParseNat(s[1..]) as int) else ParseNat(s)
  }

  lemma {:induction false} ParseNatToString(n: nat)
    ensures ParseNat(NatToString(n)) == n
    decreases n
  {
    var s := NatToString(n);
    if n >= 10 {
      ParseNatToString(n / 10);
      assert s[..|s| - 1] == NatToString(n / 10);
    }
  }

  /** Reading the rendering of an id gives the id back. */
  lemma IntToStringRoundTrip(i: int)
    ensures var s := IntToString(i);
      && (forall k :: (if s[0] == '-' then 1 else 0) <= k < |s| ==> IsDigit(s[k]))
      && ParseInt(s) == i
  {
    if i < 0 {
      NegativeRoundTrip(i);
    } else {
      ParseNatToString(i);
    }
  }

  /** A negative id renders as a minus sign before the digits of its
      magnitude, which read back as that magnitude. */
  lemma NegativeRoundTrip(i: int)
    requires i < 0
    ensures var s := IntToString(i);
      && s[0] == '-' && s[1..] == NatToString(-i)
      && ParseNat(s[1..]) == -i
  {
    var m: nat := -i;
    var t := NatToString(m);
    ParseNatToString(m);
    var s := IntToString(i);
    assert s == ['-'] + t;
    assert s[1..] == t;
  }
}

=== FILE: dijkstra.dfy ===
/** The `Dijkstra` object: a graph together with a source vertex, the last
    computed result list and the `calculated` cache flag. Every graph
    mutator is the `Graph` one plus the flag update of the override. */
module DijkstraEngine {
  import opened Wrappers
  import opened Graphs
  import opened ShortestPaths

  /** The fields of a `Dijkstra` object (`src` is null until set). */
  datatype Engine = Engine(graph: Graph, src: Option<Id>, result: seq<Entry>, calculated: bool)

  /** The `Dijkstra(graph)` constructor: no source, nothing calculated. */
  function FromGraph(g: Graph): (e: Engine)
    ensures e.graph == g && !e.calculated && e.src.None?
    ensures Valid(g) ==> Coherent(e)
  {
    Engine(g, None, [], false)
  }

  /** The cache is coherent: while `calculated` holds, the stored result is
      a shortest-path tree of the current graph from the current source. */
  ghost predicate Coherent(e: Engine) {
    Valid(e.graph) && (e.calculated ==> e.src.Some? && ShortestPathTree(e.graph, e.src.value, e.result))
  }

  /*************************************************************************
   * Computation and queries
   *************************************************************************/

  /** `calculateDijkstra()`: nothing to do while `calculated` holds; with no
      source it throws IllegalStateException; otherwise the result is
      rebuilt (Unsupported when the source is not the first vertex). */
  method CalculateDijkstra(e: Engine) returns (r: Result<Engine>)
    requires Valid(e.graph)
    ensures e.calculated ==> r == Ok(e)
    ensures !e.calculated && e.src.None? ==> r == Err(InvalidState)
    ensures !e.calculated && e.src.Some? ==> (
      && (r.Err? <==> SourceNotFirst(e.graph.vertices, e.src.value))
      && (r.Err? ==> r.error == Unsupported))
    ensures r.Ok? ==> r.value.graph == e.graph && r.value.src == e.src && r.value.calculated
    ensures r.Ok? && !e.calculated ==> ShortestPathTree(e.graph, e.src.value, r.value.result)
    ensures r.Ok? && Coherent(e) ==> Coherent(r.value)
  {
    if e.calculated {
      return Ok(e);
    }
    if e.src.None? {
      return Err(InvalidState);
    }
    var res, rounds := Calculate(e.graph, e.src.value);
    if res.Err? {
      return Err(res.error);
    }
    return Ok(e.(result := res.value, calculated := true));
  }

  /** `getVertexCost(id)`: computes first when needed, then reads the cost;
      NotFound for an id that is not a vertex. The cost read is the
      distance from the source: at most the weight of every path, and the
      weight of some path when finite. */
  method GetVertexCost(e: Engine, id: Id) returns (r: Result<(Engine, Cost)>)
    requires Coherent(e)
    ensures !e.calculated && e.src.None? ==> r == Err(InvalidState)
    ensures !e.calculated && e.src.Some? && SourceNotFirst(e.graph.vertices, e.src.value) ==> r == Err(Unsupported)
    ensures (e.calculated || (e.src.Some? && !SourceNotFirst(e.graph.vertices, e.src.value))) ==>
      (r.Err? <==> !ExistsVertex(e.graph, id)) && (r.Err? ==> r.error == NotFound)
    ensures r.Ok? ==> (
      var (e', c) := r.value;
      && Coherent(e') && e'.calculated && e'.graph == e.graph && e'.src == e.src
      && (e.calculated ==> e' == e)
      && ExistsVertex(e.graph, id)
      && (forall p :: PathFromTo(e.graph, p, e.src.value, id) ==> c.AtMost(Fin(PathWeight(e.graph, p))))
      && (c.Fin? ==> exists p :: PathFromTo(e.graph, p, e.src.value, id) && PathWeight(e.graph, p) == c.n))
  {
    var ce := CalculateDijkstra(e);
    if ce.Err? {
      return Err(ce.error);
    }
    var e' := ce.value;
    var c := GetCost(e'.result, id);
    if c.Err? {
      return Err(c.error);
    }
    assert id in Ids(e.graph.vertices);
    return Ok((e', c.value));
  }

  /** `getVertexPrevious(id)`: computes first when needed, then reads the
      predecessor; NotFound for an id that is not a vertex. Every reachable
      vertex other than the source has a predecessor, and a predecessor is a
      neighbour through which the vertex's cost is exactly reached. */
  method GetVertexPrevious(e: Engine, id: Id) returns (r: Result<(Engine, Option<Id>)>)
    requires Coherent(e)
    ensures !e.calculated && e.src.None? ==> r == Err(InvalidState)
    ensures !e.calculated && e.src.Some? && SourceNotFirst(e.graph.vertices, e.src.value) ==> r == Err(Unsupported)
    ensures (e.calculated || (e.src.Some? && !SourceNotFirst(e.graph.vertices, e.src.value))) ==>
      (r.Err? <==> !ExistsVertex(e.graph, id)) && (r.Err? ==> r.error == NotFound)
    ensures r.Ok? ==> (
      var (e', prev) := r.value;
      && Coherent(e') && e'.calculated && e'.graph == e.graph && e'.src == e.src
      && (e.calculated ==> e' == e)
      && (id == e.src.value ==> prev.None?)
      && (id != e.src.value && CostOf(e'.result, id).Fin? ==> prev.Some?)
      && (prev.Some? ==> (
        && ExistsVertex(e.graph, prev.value)
        && Weight(e.graph.edges, prev.value, id).Some?
        && CostOf(e'.result, id) == CostOf(e'.result, prev.value).Plus(Weight(e.graph.edges, prev.value, id).value))))
  {
    var ce := CalculateDijkstra(e);
    if ce.Err? {
      return Err(ce.error);
    }
    var e' := ce.value;
    var p := GetPrevious(e'.result, id);
    if p.Err? {
      return Err(p.error);
    }
    assert id in Ids(e.graph.vertices);
    return Ok((e', p.value));
  }

  /*************************************************************************
   * Setting the source
   *************************************************************************/

  /** `setSource(source)` as written: the guard throws NoSuchElement when
      the vertex EXISTS, and otherwise stores the source and clears the flag. */
  function SetSourceAsWritten(e: Engine, s: Id): (r: Result<Engine>)
    ensures r.Err? <==> ExistsVertex(e.graph, s)
    ensures r.Err? ==> r.error == NotFound
    ensures r.Ok? ==> r.value == e.(src := Some(s), calculated := false)
  {
    if ExistsVertex(e.graph, s) then Err(NotFound) else Ok(e.(src := Some(s), calculated := false))
  }

  /** What the inverted guard does: every vertex is refused as a source, and
      the only sources it accepts reach nothing, so every computed cost is
      +infinity. */
  lemma AsWrittenSourceReachesNothing(e: Engine, s: Id, rs: seq<Entry>)
    requires Valid(e.graph)
    requires SetSourceAsWritten(e, s).Ok?
    requires ShortestPathTree(e.graph, s, rs)
    ensures !ExistsVertex(e.graph, s)
    ensures forall v :: CostOf(rs, v) == Inf
  {
    MissingSourceReachesNothing(e.graph, s, rs);
  }

  /** A concrete case: on the graph with the single vertex 1, the as-written
      `setSource(1)` throws, and `setSource(7)` is accepted. */
  lemma AsWrittenRefusesExistingSource()
    ensures var e := FromGraph(Graph([Vertex(1, "1")], []));
      SetSourceAsWritten(e, 1) == Err(NotFound) && SetSourceAsWritten(e, 7).Ok?
  {
    var g := Graph([Vertex(1, "1")], []);
    assert Vertex(1, "1") in g.vertices;
    assert !ExistsVertex(g, 7);
  }

  /** `setSource(source)` as documented: NoSuchElement when the vertex does
      not exist; otherwise the source is stored and the flag cleared. */
  function SetSource(e: Engine, s: Id): (r: Result<Engine>)
    ensures r.Err? <==> !ExistsVertex(e.graph, s)
    ensures r.Err? ==> r.error == NotFound
    ensures r.Ok? ==> r.value.graph == e.graph && r.value.src == Some(s) && !r.value.calculated
    ensures r.Ok? && Valid(e.graph) ==> Coherent(r.value)
  {
    if !ExistsVertex(e.graph, s) then Err(NotFound) else Ok(e.(src := Some(s), calculated := false))
  }

  /** `calculateDijkstra(source)` with the corrected `setSource`:
      `SetSource` then `calculateDijkstra()`. With a vertex as source the
      computation succeeds exactly when that vertex is the first one in
      list order. */
  method CalculateFrom(e: Engine, s: Id) returns (r: Result<Engine>)
    requires Valid(e.graph)
    ensures !ExistsVertex(e.graph, s) ==> r == Err(NotFound)
    ensures ExistsVertex(e.graph, s) ==> (
      && (r.Err? <==> e.graph.vertices[0].id != s)
      && (r.Err? ==> r.error == Unsupported))
    ensures r.Ok? ==> (r.value.graph == e.graph && r.value.src == Some(s) && r.value.calculated
      && ShortestPathTree(e.graph, s, r.value.result))
  {
    var e1 := SetSource(e, s);
    if e1.Err? {
      return Err(e1.error);
    }
    if ExistsVertex(e.graph, s) {
      SourceFirstIff(e.graph, s);
    }
    r := CalculateDijkstra(e1.value);
  }

  /** `calculateDijkstra(source)` as written, with the inverted guard: every
      vertex is refused with NoSuchElement, and an id that is not a vertex
      is stored and yields a result where every cost is +infinity. The
      `Dijkstra(graph, src)` constructor is `FromGraph` followed by this. */
  method CalculateFromAsWritten(e: Engine, s: Id) returns (r: Result<Engine>)
    requires Valid(e.graph)
    ensures r.Err? <==> ExistsVertex(e.graph, s)
    ensures r.Err? ==> r.error == NotFound
    ensures r.Ok? ==> (r.value.graph == e.graph && r.value.src == Some(s) && r.value.calculated
      && Coherent(r.value) && forall v :: CostOf(r.value.result, v) == Inf)
  {
    var e1 := SetSourceAsWritten(e, s);
    if e1.Err? {
      return Err(e1.error);
    }
    r := CalculateDijkstra(e1.value);
    AsWrittenSourceReachesNothing(e, s, r.value.result);
  }

  /** The copy constructor `Dijkstra(dijkstra)`: the graph and the source
      are copied unchecked, with no result; the copy recomputes exactly
      when the original was calculated, and otherwise stays uncalculated. */
  method CopyEngine(e: Engine) returns (r: Result<Engine>)
    requires Coherent(e)
    ensures !e.calculated ==> r == Ok(Engine(e.graph, e.src, [], false))
    ensures e.calculated ==> (r.Err? <==> SourceNotFirst(e.graph.vertices, e.src.value))
    ensures e.calculated && r.Err? ==> r.error == Unsupported
    ensures e.calculated && r.Ok? ==> r.value.graph == e.graph && r.value.src == e.src && r.value.calculated
    ensures r.Ok? ==> Coherent(r.value)
    ensures e.calculated && r.Ok? ==> forall v :: CostOf(r.value.result, v) == CostOf(e.result, v)
  {
    var c := Engine(e.graph, e.src, [], false);
    if !e.calculated {
      return Ok(c);
    }
    r := CalculateDijkstra(c);
    if r.Ok? {
      forall v ensures CostOf(r.value.result, v) == CostOf(e.result, v) {
        CostsDetermined(e.graph, e.src.value, r.value.result, e.result, v);
      }
    }
  }

  /** For a vertex `s` of a valid graph, "not first" is exactly "some later
      vertex is `s`". */
  lemma SourceFirstIff(g: Graph, s: Id)
    requires Valid(g) && ExistsVertex(g, s)
    ensures SourceNotFirst(g.vertices, s) <==> g.vertices[0].id != s
  {
    var v :| v in g.vertices && v.id == s;
    var i :| 0 <= i < |g.vertices| && g.vertices[i] == v;
    if i > 0 {
      assert g.vertices[0].id < g.vertices[i].id;
    }
    if SourceNotFirst(g.vertices, s) {
      var j :| 0 < j < |g.vertices| && g.vertices[j].id == s;
      assert g.vertices[0].id < g.vertices[j].id;
    }
  }

  /*************************************************************************
   * Mutators
   *************************************************************************/

  /** A mutator on vertices (its override clears `calculated` before
      delegating) rather than on edges (cleared after the delegate returns). */
  predicate OnVertices(m: Mutation) {
    m.AddVertex? || m.AddVertices? || m.RemoveVertex? || m.RemoveVertices? || m.SetVertexName?
  }

  /** The graph operation each `Dijkstra` override delegates to: the
      `Graph` one, except that `setEdgeWeight` calls `Edges.setWeight`
      (the `Graph` delegator calls `edit`). */
  function Delegate(g: Graph, m: Mutation): (out: Outcome)
    ensures Valid(g) ==> Valid(out.graph)
    ensures out.failure.Some? && !m.IsBatch() ==> out.graph == g
  {
    if m.SetEdgeWeight? then FromResult(g, SetWeight(g, m.v1, m.v2, m.weight)) else Apply(g, m)
  }

  /** What a mutating call returns: the object afterwards, the ids it
      created and the exception it threw, if any. */
  datatype Reply = Reply(engine: Engine, created: seq<Id>, failure: Option<Error>)

  /** The overrides as written: a vertex mutator clears the flag first, an
      edge mutator only once the delegate has returned normally. */
  function MutateAsWritten(e: Engine, m: Mutation): (r: Reply)
    ensures r.engine.graph == Delegate(e.graph, m).graph && r.engine.src == e.src && r.engine.result == e.result
    ensures OnVertices(m) || r.failure.None? ==> !r.engine.calculated
    ensures r.failure.Some? && !OnVertices(m) ==> r.engine.calculated == e.calculated
    ensures !m.IsBatch() && Coherent(e) ==> Coherent(r.engine)
  {
    var out := Delegate(e.graph, m);
    var calculated := if OnVertices(m) || out.failure.None? then false else e.calculated;
    Reply(e.(graph := out.graph, calculated := calculated), out.created, out.failure)
  }

  /** The as-written varargs `removeAllEdges(ids...)` can leave a stale
      result: with edge 1-2 of weight 5 and source 1, `removeAllEdges(1, 3)`
      removes the edge, then throws on 3, and `calculated` stays true while
      the stored cost of 2 is still 5 although 2 is now unreachable. */
  lemma PartialEdgeRemovalLeavesStaleResult()
    ensures var g := Graph([Vertex(1, "1"), Vertex(2, "2")], [Edge(1, 2, 5)]);
      var rs := [Entry(1, "1", Fin(0), None), Entry(2, "2", Fin(5), Some(1))];
      var e := Engine(g, Some(1), rs, true);
      && Coherent(e)
      && var r := MutateAsWritten(e, RemoveAllEdgesOf([1, 3]));
      && r.failure == Some(NotFound)
      && r.engine.calculated
      && !Coherent(r.engine)
  {
    var g := Graph([Vertex(1, "1"), Vertex(2, "2")], [Edge(1, 2, 5)]);
    var rs := [Entry(1, "1", Fin(0), None), Entry(2, "2", Fin(5), Some(1))];
    ExampleRemoval(g);
    CoherentExample(g, rs);
    var g1 := Graph(g.vertices, []);
    StaleExample(g1, rs);
    var e := Engine(g, Some(1), rs, true);
    var m := RemoveAllEdgesOf([1, 3]);
    RemoveAllEdgesOfAsWritten(e, [1, 3]);
  }

  /** The varargs `removeAllEdges(ids...)` keeps the flag exactly when the
      delegate throws. */
  lemma RemoveAllEdgesOfAsWritten(e: Engine, ids: seq<Id>)
    ensures var p := RemoveIncidentEdgesOf(e.graph, ids);
      MutateAsWritten(e, RemoveAllEdgesOf(ids))
        == Reply(e.(graph := p.state, calculated := e.calculated && p.failure.Some?), [], p.failure)
  {
  }

  /** `removeAllEdges(1, 3)` on edge 1-2 drops the edge, then throws on 3. */
  lemma ExampleRemoval(g: Graph)
    requires g == Graph([Vertex(1, "1"), Vertex(2, "2")], [Edge(1, 2, 5)])
    ensures Valid(g)
    ensures RemoveIncidentEdgesOf(g, [1, 3]) == Partial(Graph(g.vertices, []), Some(NotFound))
  {
    assert g.vertices[0] in g.vertices && g.vertices[1] in g.vertices;
    var g1 := RemoveIncidentEdges(g, 1).value;
    assert g1.edges == [] by {
      assert forall f :: f in g1.edges ==> f in g.edges && !f.Touches(1);
    }
    assert !ExistsVertex(g1, 3);
    assert [1, 3][1..] == [3];
  }

  /** Once the edge is gone, the stored cost 5 of vertex 2 is not the
      weight of any path. */
  lemma StaleExample(g: Graph, rs: seq<Entry>)
    requires g == Graph([Vertex(1, "1"), Vertex(2, "2")], [])
    requires rs == [Entry(1, "1", Fin(0), None), Entry(2, "2", Fin(5), Some(1))]
    ensures !ShortestPathTree(g, 1, rs)
  {
    assert Find(rs, 2) == Some(1);
    assert ExistsVertex(g, 2) by {
      assert g.vertices[1] in g.vertices;
    }
  }

  /** The example result is the shortest-path tree of edge 1-2 from 1. */
  lemma CoherentExample(g: Graph, rs: seq<Entry>)
    requires g == Graph([Vertex(1, "1"), Vertex(2, "2")], [Edge(1, 2, 5)]) && Valid(g)
    requires rs == [Entry(1, "1", Fin(0), None), Entry(2, "2", Fin(5), Some(1))]
    ensures ShortestPathTree(g, 1, rs)
  {
    ExampleLookups(g, rs);
    assert EntryIds(rs) == Ids(g.vertices);
    ExampleBound(g, rs);
    ExampleAchieved(g, rs);
    ExampleLinks(g, rs);
  }

  /** Both finite costs of the example are path weights. */
  lemma ExampleAchieved(g: Graph, rs: seq<Entry>)
    requires g == Graph([Vertex(1, "1"), Vertex(2, "2")], [Edge(1, 2, 5)])
    requires rs == [Entry(1, "1", Fin(0), None), Entry(2, "2", Fin(5), Some(1))]
    ensures Achieved(g, 1, rs)
  {
    ExampleLookups(g, rs);
    assert PathFromTo(g, [1], 1, 1) && PathWeight(g, [1]) == 0;
    assert PathFromTo(g, [1, 2], 1, 2) && PathWeight(g, [1, 2]) == 5 by {
      assert [1, 2][..1] == [1];
    }
  }

  /** The example's one predecessor link, 1 before 2. */
  lemma ExampleLinks(g: Graph, rs: seq<Entry>)
    requires g == Graph([Vertex(1, "1"), Vertex(2, "2")], [Edge(1, 2, 5)])
    requires rs == [Entry(1, "1", Fin(0), None), Entry(2, "2", Fin(5), Some(1))]
    ensures TightLinks(g, rs, {}) && SourceAtZero(g, 1, rs) && Parented(g, 1, rs)
    ensures exists rank: map<Id, nat> :: rank.Keys == IdSet(g) && RankedLinks(g, rs, rank)
  {
    ExampleLookups(g, rs);
    var rank := map[1 := 0, 2 := 1];
    assert rank.Keys == IdSet(g) && RankedLinks(g, rs, rank);
  }

  /** What the example's lookups read. */
  lemma ExampleLookups(g: Graph, rs: seq<Entry>)
    requires g == Graph([Vertex(1, "1"), Vertex(2, "2")], [Edge(1, 2, 5)])
    requires rs == [Entry(1, "1", Fin(0), None), Entry(2, "2", Fin(5), Some(1))]
    ensures Find(rs, 1) == Some(0) && Find(rs, 2) == Some(1)
    ensures forall x :: ExistsVertex(g, x) <==> x == 1 || x == 2
    ensures IdSet(g) == {1, 2}
    ensures Weight(g.edges, 1, 2) == Some(5)
  {
    assert g.vertices[0] in g.vertices && g.vertices[1] in g.vertices;
  }

  /** No path from 1 to 2 in the example weighs less than 5. */
  lemma ExampleBound(g: Graph, rs: seq<Entry>)
    requires g == Graph([Vertex(1, "1"), Vertex(2, "2")], [Edge(1, 2, 5)])
    requires rs == [Entry(1, "1", Fin(0), None), Entry(2, "2", Fin(5), Some(1))]
    ensures LowerBound(g, 1, rs, IdSet(g))
  {
    ExampleLookups(g, rs);
    forall x, p | x in IdSet(g) && PathFromTo(g, p, 1, x)
      ensures CostOf(rs, x).AtMost(Fin(PathWeight(g, p)))
    {
      if x == 2 {
        var n := |p|;
        assert p[0] != p[n - 1];
        assert Weight(g.edges, p[n - 2], p[n - 1]).Some?;
        assert Hop(g, p[n - 2], p[n - 1]) == 5;
        assert PathWeight(g, p) >= 5;
      }
    }
  }

  /** The overrides with the flag cleared on every mutation, including an
      edge mutation that throws part-way. */
  function Mutate(e: Engine, m: Mutation): (r: Reply)
    ensures r.engine.graph == Delegate(e.graph, m).graph && r.engine.src == e.src
    ensures r.failure == Delegate(e.graph, m).failure && r.created == Delegate(e.graph, m).created
    ensures !r.engine.calculated
    ensures Valid(e.graph) ==> Coherent(r.engine)
  {
    var out := Delegate(e.graph, m);
    Reply(e.(graph := out.graph, calculated := false), out.created, out.failure)
  }

  /** As written, the flag is stale only after a batch edge mutation that
      throws: every other call keeps the cache coherent. */
  lemma AsWrittenStaleOnlyOnPartialBatch(e: Engine, m: Mutation)
    requires Coherent(e) && !Coherent(MutateAsWritten(e, m).engine)
    ensures m.RemoveAllEdgesOf? && MutateAsWritten(e, m).failure.Some?
  {
    var r := MutateAsWritten(e, m);
    assert Valid(r.engine.graph);
  }
}

=== FILE: graph.dfy ===
/** The graph store of `Graph.java`: the `Vertices` list with its id
    allocator, the `Edges` list of undirected weighted edges, and the `Graph`
    delegators over both. A graph is a value; every mutator returns the new
    graph or the exception the Java method throws (in which case the Java
    object is left as it was). */
module Graphs {
  import opened Wrappers
  import Decimal

  type Id = int

  /** `Vertices.Vertex`: an id and a display name. */
  datatype Vertex = Vertex(id: Id, name: string)

  /** `Edges.Edge`: two endpoint ids and a non-negative weight. */
  datatype Edge = Edge(v1: Id, v2: Id, weight: nat) {

    /** `Edge.connects(id)`: `id` is one of the endpoints. */
    predicate Touches(id: Id) {
      v1 == id || v2 == id
    }

    /** `Edge.connects(a, b)`: the edge touches both `a` and `b`. As in the
        Java, an edge (a, b) also "connects" (a, a). */
    predicate Connects(a: Id, b: Id) {
      Touches(a) && Touches(b)
    }
  }

  /** A graph: its vertices in creation order and its edges in insertion order. */
  datatype Graph = Graph(vertices: seq<Vertex>, edges: seq<Edge>)

  /*************************************************************************
   * Invariants
   *************************************************************************/

  /** The id list, in list order (the Java `ids` field). */
  function Ids(vs: seq<Vertex>): (ids: seq<Id>)
    ensures |ids| == |vs|
    ensures forall i :: 0 <= i < |vs| ==> ids[i] == vs[i].id
  {
    seq(|vs|, i requires 0 <= i < |vs| => vs[i].id)
  }

  /** `Vertices.exists(id)`. */
  predicate ExistsVertex(g: Graph, id: Id) {
    exists v :: v in g.vertices && v.id == id
  }

  /** The set of vertex ids of a graph. */
  function IdSet(g: Graph): (s: set<Id>)
    ensures forall x :: x in s <==> ExistsVertex(g, x)
  {
    set v | v in g.vertices :: v.id
  }

  /** Ids are positive and strictly increasing in list order: every id is
      allocated as the last id plus one and removal keeps the order. */
  predicate IdsIncreasing(vs: seq<Vertex>) {
    && (forall i :: 0 <= i < |vs| ==> 1 <= vs[i].id)
    && (forall i, j :: 0 <= i < j < |vs| ==> vs[i].id < vs[j].id)
  }

  /** Every edge endpoint is a live vertex. */
  predicate EndpointsExist(g: Graph) {
    forall e :: e in g.edges ==> ExistsVertex(g, e.v1) && ExistsVertex(g, e.v2)
  }

  /** No edge "connects" the endpoints of a later edge: this is what the
      duplicate check of `Edges.create` guarantees at every insertion. */
  predicate Simple(es: seq<Edge>) {
    forall i, j :: 0 <= i < j < |es| ==> !es[i].Connects(es[j].v1, es[j].v2)
  }

  /** The structural invariant every graph reachable through the API keeps. */
  predicate Valid(g: Graph) {
    IdsIncreasing(g.vertices) && EndpointsExist(g) && Simple(g.edges)
  }

  /** Two edges with the same unordered endpoint pair (parallel edges). */
  predicate SameEnds(e: Edge, f: Edge) {
    (e.v1 == f.v1 && e.v2 == f.v2) || (e.v1 == f.v2 && e.v2 == f.v1)
  }

  /** A valid graph has no parallel edges. */
  lemma SimpleHasNoParallelEdges(es: seq<Edge>)
    requires Simple(es)
    ensures forall i, j :: 0 <= i < |es| && 0 <= j < |es| && i != j ==> !SameEnds(es[i], es[j])
  {
    forall i, j | 0 <= i < |es| && 0 <= j < |es| && i != j
      ensures !SameEnds(es[i], es[j])
    {
      if i < j {
        assert !es[i].Connects(es[j].v1, es[j].v2);
      } else {
        assert !es[j].Connects(es[i].v1, es[i].v2);
      }
    }
  }

  /*************************************************************************
   * Sequence filtering (the Java `removeIf`)
   *************************************************************************/

  /** The elements of `s` that satisfy `keep`, in their original order. */
  function Filter<T(!new)>(s: seq<T>, keep: T -> bool): (r: seq<T>)
    ensures |r| <= |s|
    ensures forall x :: x in r <==> x in s && keep(x)
  {
    if |s| == 0 then [] else (if keep(s[0]) then [s[0]] else []) + Filter(s[1..], keep)
  }

  /** Filtering keeps every relation that held between earlier and later elements. */
  lemma {:induction false} FilterPairwise<T(!new)>(s: seq<T>, keep: T -> bool, rel: (T, T) -> bool)
    requires forall i, j :: 0 <= i < j < |s| ==> rel(s[i], s[j])
    ensures forall i, j :: 0 <= i < j < |Filter(s, keep)| ==> rel(Filter(s, keep)[i], Filter(s, keep)[j])
  {
    if |s| > 0 {
      var tail := Filter(s[1..], keep);
      assert forall i, j :: 0 <= i < j < |s[1..]| ==> rel(s[1..][i], s[1..][j]) by {
        forall i, j | 0 <= i < j < |s[1..]| ensures rel(s[1..][i], s[1..][j]) {
          assert s[1..][i] == s[i + 1] && s[1..][j] == s[j + 1];
        }
      }
      FilterPairwise(s[1..], keep, rel);
      var r := Filter(s, keep);
      if keep(s[0]) {
        assert r == [s[0]] + tail;
        forall i, j | 0 <= i < j < |r|
          ensures rel(r[i], r[j])
        {
          if i == 0 {
            assert r[0] == s[0];
            assert r[j] == tail[j - 1];
            assert r[j] in s[1..];
            var k :| 0 <= k < |s[1..]| && s[1..][k] == r[j];
            assert s[1..][k] == s[k + 1];
          } else {
            assert r[i] == tail[i - 1] && r[j] == tail[j - 1];
          }
        }
      } else {
        assert r == tail;
      }
    }
  }

  lemma FilterKeepsSimple(es: seq<Edge>, keep: Edge -> bool)
    requires Simple(es)
    ensures Simple(Filter(es, keep))
  {
    var rel := (a: Edge, b: Edge) => !a.Connects(b.v1, b.v2);
    FilterPairwise(es, keep, rel);
    var r := Filter(es, keep);
    forall i, j | 0 <= i < j < |r| ensures !r[i].Connects(r[j].v1, r[j].v2) {
      assert rel(r[i], r[j]);
    }
  }

  lemma FilterKeepsIdsIncreasing(vs: seq<Vertex>, keep: Vertex -> bool)
    requires IdsIncreasing(vs)
    ensures IdsIncreasing(Filter(vs, keep))
  {
    var rel := (a: Vertex, b: Vertex) => a.id < b.id;
    FilterPairwise(vs, keep, rel);
    var r := Filter(vs, keep);
    forall i, j | 0 <= i < j < |r| ensures r[i].id < r[j].id {
      assert rel(r[i], r[j]);
    }
    forall i | 0 <= i < |r| ensures 1 <= r[i].id {
      assert r[i] in vs;
    }
  }

  /*************************************************************************
   * Vertices
   *************************************************************************/

  /** The id `Vertices.create` allocates: 1 for an empty list, otherwise the
      LAST id of the list plus one (not a high-water mark). */
  function NextId(g: Graph): (id: Id)
    ensures IdsIncreasing(g.vertices) ==> 1 <= id && forall v :: v in g.vertices ==> v.id < id
  {
    if |g.vertices| == 0 then 1 else g.vertices[|g.vertices| - 1].id + 1
  }

  /** The name a new vertex gets: the one given, or its decimal id. */
  function NameFor(name: Option<string>, id: Id): string {
    if name.Some? then name.value else Decimal.IntToString(id)
  }

  /** The `Vertex(id)` / `Vertex(id, name)` constructors: refuse an id that
      is already taken; an unnamed vertex is named by its decimal id. */
  function NewVertex(g: Graph, id: Id, name: Option<string>): (r: Result<Vertex>)
    ensures r.Err? <==> ExistsVertex(g, id)
    ensures r.Err? ==> r.error == AlreadyExists
    ensures r.Ok? ==> r.value.id == id
    ensures r.Ok? && name.Some? ==> r.value.name == name.value
    ensures r.Ok? && name.None? ==> r.value.name == Decimal.IntToString(id)
  {
    if exists v :: v in g.vertices && v.id == id then Err(AlreadyExists)
    else Ok(Vertex(id, NameFor(name, id)))
  }

  /** An unnamed vertex's name reads back as its id. */
  lemma UnnamedNameReadsBackAsId(g: Graph, id: Id)
    requires !ExistsVertex(g, id)
    ensures NewVertex(g, id, None).Ok?
    ensures var s := NewVertex(g, id, None).value.name;
      && (forall k :: (if s[0] == '-' then 1 else 0) <= k < |s| ==> Decimal.IsDigit(s[k]))
      && Decimal.ParseInt(s) == id
  {
    Decimal.IntToStringRoundTrip(id);
  }

  /** `Vertices.create()` (name None) and `Vertices.create(name)`. */
  function CreateVertex(g: Graph, name: Option<string>): (r: Result<(Graph, Id)>)
    ensures r.Err? <==> ExistsVertex(g, NextId(g))
    ensures r.Err? ==> r.error == AlreadyExists
    ensures r.Ok? ==> var (g', id) := r.value;
      && g'.edges == g.edges
      && |g'.vertices| == |g.vertices| + 1
      && g'.vertices[..|g.vertices|] == g.vertices
      && g'.vertices[|g.vertices|].id == id
      && g'.vertices[|g.vertices|].name == NameFor(name, id)
      && !ExistsVertex(g, id)
      && ExistsVertex(g', id)
      && (forall x :: ExistsVertex(g', x) <==> ExistsVertex(g, x) || x == id)
    ensures Valid(g) ==> r.Ok? && Valid(r.value.0) && forall v :: v in g.vertices ==> v.id < r.value.1
  {
    var id := NextId(g);
    var v :- NewVertex(g, id, name);
    AppendVertex(g, v);
    Ok((Graph(g.vertices + [v], g.edges), id))
  }

  /** After `create(name)` (or `create()`), `getName` on the returned id
      reads the name asked for (or the decimal id). */
  lemma CreatedNameReadsBack(g: Graph, name: Option<string>)
    requires CreateVertex(g, name).Ok?
    ensures var (g', id) := CreateVertex(g, name).value;
      GetName(g', id) == Ok(NameFor(name, id))
  {
    var (g', id) := CreateVertex(g, name).value;
    assert g'.vertices == g.vertices + [g'.vertices[|g.vertices|]];
    VertexIndexAppend(g.vertices, g'.vertices[|g.vertices|]);
  }

  /** A fresh id appended at the end is found at the end. */
  lemma {:induction false} VertexIndexAppend(vs: seq<Vertex>, v: Vertex)
    requires forall w :: w in vs ==> w.id != v.id
    ensures VertexIndex(vs + [v], v.id) == Some(|vs|)
  {
    if |vs| > 0 {
      assert (vs + [v])[1..] == vs[1..] + [v];
      VertexIndexAppend(vs[1..], v);
    }
  }

  /** Appending a vertex with a fresh id adds exactly that id, and keeps a
      valid graph valid when the id is above every other. */
  lemma AppendVertex(g: Graph, v: Vertex)
    requires !ExistsVertex(g, v.id)
    ensures var g' := Graph(g.vertices + [v], g.edges);
      && g'.vertices[..|g.vertices|] == g.vertices
      && ExistsVertex(g', v.id)
      && (forall x :: ExistsVertex(g', x) <==> ExistsVertex(g, x) || x == v.id)
      && (Valid(g) && v.id == NextId(g) ==> Valid(g'))
  {
    var g' := Graph(g.vertices + [v], g.edges);
    assert g'.vertices[..|g.vertices|] == g.vertices;
    assert v in g'.vertices;
    forall x ensures ExistsVertex(g', x) <==> ExistsVertex(g, x) || x == v.id {
      if ExistsVertex(g', x) && x != v.id {
        var w :| w in g'.vertices && w.id == x;
        assert w in g.vertices;
      }
      if ExistsVertex(g, x) {
        var w :| w in g.vertices && w.id == x;
        assert w in g'.vertices;
      }
    }
    if Valid(g) && v.id == NextId(g) {
      AppendIncreasing(g.vertices, v);
    }
  }

  /** Appending an id above every other keeps the ids increasing. */
  lemma AppendIncreasing(vs: seq<Vertex>, v: Vertex)
    requires IdsIncreasing(vs) && 1 <= v.id && forall w :: w in vs ==> w.id < v.id
    ensures IdsIncreasing(vs + [v])
  {
    var vs' := vs + [v];
    forall i, j | 0 <= i < j < |vs'| ensures vs'[i].id < vs'[j].id {
      if j == |vs| {
        assert vs'[i] in vs;
      }
    }
  }

  /** `Vertices.create(n)` (n times None) and `Vertices.create(names...)`:
      one `create` per argument, in argument order. */
  function CreateVertices(g: Graph, names: seq<Option<string>>): (r: Result<(Graph, seq<Id>)>)
    ensures r.Ok? ==> r.value.0.edges == g.edges && |r.value.1| == |names|
    ensures r.Ok? ==> forall k :: 0 <= k < |r.value.1| ==>
      ExistsVertex(r.value.0, r.value.1[k]) && !ExistsVertex(g, r.value.1[k])
    ensures r.Ok? ==> forall x :: ExistsVertex(r.value.0, x) <==> ExistsVertex(g, x) || x in r.value.1
    ensures r.Ok? ==> AppendedNamed(r.value.0.vertices, |g.vertices|, r.value.1, names) && r.value.0.vertices[..|g.vertices|] == g.vertices
    decreases |names|
  {
    if |names| == 0 then Ok((g, []))
    else match CreateVertex(g, names[0])
      case Err(e) => Err(e)
      case Ok(first) =>
        match CreateVertices(first.0, names[1..])
        case Err(e) => Err(e)
        case Ok(more) =>
          assert first.0.vertices == g.vertices + [Vertex(first.1, NameFor(names[0], first.1))];
          BatchStep(g, names, first.0, first.1, more.0, more.1);
          Ok((more.0, [first.1] + more.1))
  }

  /** One vertex created, then the rest of the batch, is the batch. */
  lemma BatchStep(g: Graph, names: seq<Option<string>>, g1: Graph, id: Id, g2: Graph, more: seq<Id>)
    requires |names| > 0 && g1.edges == g.edges && g1.vertices == g.vertices + [Vertex(id, NameFor(names[0], id))]
    requires !ExistsVertex(g, id) && forall x :: ExistsVertex(g1, x) <==> ExistsVertex(g, x) || x == id
    requires g2.edges == g1.edges && |more| == |names| - 1
    requires forall k :: 0 <= k < |more| ==> ExistsVertex(g2, more[k]) && !ExistsVertex(g1, more[k])
    requires forall x :: ExistsVertex(g2, x) <==> ExistsVertex(g1, x) || x in more
    requires AppendedNamed(g2.vertices, |g1.vertices|, more, names[1..]) && g2.vertices[..|g1.vertices|] == g1.vertices
    ensures var ids := [id] + more;
      && g2.edges == g.edges && |ids| == |names|
      && (forall k :: 0 <= k < |ids| ==> ExistsVertex(g2, ids[k]) && !ExistsVertex(g, ids[k]))
      && (forall x :: ExistsVertex(g2, x) <==> ExistsVertex(g, x) || x in ids)
      && AppendedNamed(g2.vertices, |g.vertices|, ids, names) && g2.vertices[..|g.vertices|] == g.vertices
  {
    var ids := [id] + more;
    forall k | 0 <= k < |ids| ensures ExistsVertex(g2, ids[k]) && !ExistsVertex(g, ids[k]) {
      if k > 0 {
        assert ids[k] == more[k - 1];
      }
    }
    CreatedInOrder(g.vertices, g1.vertices, id, names, g2.vertices, more);
  }

  /** The vertices after the first `n` are one per name, in order, each
      with its id and its name. */
  predicate AppendedNamed(vs: seq<Vertex>, n: nat, ids: seq<Id>, names: seq<Option<string>>) {
    && |vs| == n + |names| && |ids| == |names|
    && forall k :: 0 <= k < |names| ==> vs[n + k] == Vertex(ids[k], NameFor(names[k], ids[k]))
  }

  /** One vertex created, then the rest of the batch: the new vertices are
      appended in argument order, each with its own name. */
  lemma CreatedInOrder(vs: seq<Vertex>, vs1: seq<Vertex>, id: Id, names: seq<Option<string>>, ws: seq<Vertex>, more: seq<Id>)
    requires |names| > 0 && vs1 == vs + [Vertex(id, NameFor(names[0], id))]
    requires AppendedNamed(ws, |vs1|, more, names[1..]) && ws[..|vs1|] == vs1
    ensures AppendedNamed(ws, |vs|, [id] + more, names) && ws[..|vs|] == vs
  {
    var n := |vs|;
    var ids := [id] + more;
    assert ws[..n] == vs by {
      assert ws[..n] == ws[..|vs1|][..n];
    }
    forall k | 0 <= k < |names|
      ensures ws[n + k] == Vertex(ids[k], NameFor(names[k], ids[k]))
    {
      if k == 0 {
        assert ws[n] == ws[..|vs1|][n];
      } else {
        NamedAt(ws, |vs1|, more, names, k);
        assert ids[k] == more[k - 1];
      }
    }
  }

  /** The k-th name of a batch, once the first is created, sits at its
      place among the rest. */
  lemma NamedAt(ws: seq<Vertex>, m: nat, more: seq<Id>, names: seq<Option<string>>, k: nat)
    requires |names| > 0 && AppendedNamed(ws, m, more, names[1..]) && 0 < k < |names|
    ensures ws[m + (k - 1)] == Vertex(more[k - 1], NameFor(names[k], more[k - 1]))
  {
    assert names[k] == names[1..][k - 1];
  }

  /** From a valid graph the batch cannot fail, keeps the graph valid and
      returns ids in call order, each above every id that existed before. */
  lemma {:induction false} CreateVerticesFromValid(g: Graph, names: seq<Option<string>>)
    requires Valid(g)
    ensures CreateVertices(g, names).Ok?
    ensures var (g', ids) := CreateVertices(g, names).value;
      && Valid(g')
      && Increasing(ids)
      && (forall v, k :: v in g.vertices && 0 <= k < |ids| ==> v.id < ids[k])
    decreases |names|
  {
    if |names| > 0 {
      var first := CreateVertex(g, names[0]).value;
      CreateVerticesFromValid(first.0, names[1..]);
      var more := CreateVertices(first.0, names[1..]).value;
      assert CreateVertices(g, names) == Ok((more.0, [first.1] + more.1));
      FromValidStep(g, first, more);
    }
  }

  /** The ids of a batch from a valid graph: the first created id, then
      the later ones above every vertex it left, increase throughout. */
  lemma FromValidStep(g: Graph, first: (Graph, Id), more: (Graph, seq<Id>))
    requires |first.0.vertices| == |g.vertices| + 1 && first.0.vertices[..|g.vertices|] == g.vertices
    requires first.0.vertices[|g.vertices|].id == first.1
    requires forall v :: v in g.vertices ==> v.id < first.1
    requires Increasing(more.1) && forall v, k :: v in first.0.vertices && 0 <= k < |more.1| ==> v.id < more.1[k]
    ensures Increasing([first.1] + more.1)
    ensures forall v, k :: v in g.vertices && 0 <= k < |more.1| + 1 ==> v.id < ([first.1] + more.1)[k]
  {
    var w := first.0.vertices[|g.vertices|];
    assert w in first.0.vertices;
    PrependIncreasing(first.1, more.1);
    forall v | v in g.vertices ensures v in first.0.vertices {
      assert v in first.0.vertices[..|g.vertices|];
    }
  }

  predicate Increasing(s: seq<int>) {
    forall i, j :: 0 <= i < j < |s| ==> s[i] < s[j]
  }

  lemma PrependIncreasing(x: int, s: seq<int>)
    requires Increasing(s) && forall k :: 0 <= k < |s| ==> x < s[k]
    ensures Increasing([x] + s)
  {
    var t := [x] + s;
    forall i, j | 0 <= i < j < |t| ensures t[i] < t[j] {
      assert t[j] == s[j - 1];
      if i > 0 {
        assert t[i] == s[i - 1];
      }
    }
  }

  /** The filter `Vertices.remove` keeps: every vertex but `id`. */
  function OtherVertex(id: Id): Vertex -> bool {
    (v: Vertex) => v.id != id
  }

  /** `Vertices.remove(id)`: refuses an unknown id; otherwise removes every
      edge touching the vertex, then the vertex itself. */
  function RemoveVertex(g: Graph, id: Id): (r: Result<Graph>)
    ensures r.Err? <==> !ExistsVertex(g, id)
    ensures r.Err? ==> r.error == NotFound
    ensures r.Ok? ==>
      && !ExistsVertex(r.value, id)
      && (forall x :: x != id ==> (ExistsVertex(r.value, x) <==> ExistsVertex(g, x)))
      && (forall v :: v in r.value.vertices <==> v in g.vertices && v.id != id)
      && (forall e :: e in r.value.edges ==> !e.Touches(id))
      && (forall e :: e in r.value.edges <==> e in g.edges && !e.Touches(id))
    ensures r.Ok? && Valid(g) ==> Valid(r.value)
  {
    if !ExistsVertex(g, id) then Err(NotFound)
    else
      var keepVertex := OtherVertex(id);
      var keepEdge := (e: Edge) => !e.Touches(id);
      var vs := Filter(g.vertices, keepVertex);
      var es := Filter(g.edges, keepEdge);
      var g' := Graph(vs, es);
      assert forall x :: x != id && ExistsVertex(g, x) ==> ExistsVertex(g', x) by {
        forall x | x != id && ExistsVertex(g, x) ensures ExistsVertex(g', x) {
          var v :| v in g.vertices && v.id == x;
          assert v in vs;
        }
      }
      assert Valid(g) ==> Valid(g') by {
        if Valid(g) {
          FilterKeepsIdsIncreasing(g.vertices, keepVertex);
          FilterKeepsSimple(g.edges, keepEdge);
        }
      }
      Ok(g')
  }

  /** The batch `remove(ids...)` gets through the first `n` ids: each of
      them is a live id not listed before it, and the next one, if any, is
      unknown or a repeat (removed already, so unknown by then). */
  ghost predicate RemovalStop(g: Graph, ids: seq<Id>, n: nat) {
    && n <= |ids|
    && (forall k :: 0 <= k < n ==> ExistsVertex(g, ids[k]) && ids[k] !in ids[..k])
    && (n < |ids| ==> !ExistsVertex(g, ids[n]) || ids[n] in ids[..n])
  }

  /** The graph a batch removal leaves after its first `n` ids: those
      vertices and every edge touching one of them are gone, the rest stays. */
  ghost predicate RemovedFirst(g: Graph, ids: seq<Id>, n: nat, h: Graph)
    requires n <= |ids|
  {
    && (forall x :: ExistsVertex(h, x) <==> ExistsVertex(g, x) && x !in ids[..n])
    && (forall v :: v in h.vertices <==> v in g.vertices && v.id !in ids[..n])
    && (forall e :: e in h.edges <==> e in g.edges && e.v1 !in ids[..n] && e.v2 !in ids[..n])
  }

  /** What `Vertices.remove(ids...)` promises as a whole. */
  ghost predicate RemovesVertices(g: Graph, ids: seq<Id>, r: Partial<Graph>) {
    exists n: nat :: RemovalStop(g, ids, n) && (r.failure.None? <==> n == |ids|) && RemovedFirst(g, ids, n, r.state)
  }

  /** `Vertices.remove(ids...)`: removes one id after the other and stops at
      the first unknown id, keeping the removals made before it. */
  function RemoveVertices(g: Graph, ids: seq<Id>): (r: Partial<Graph>)
    ensures RemovesVertices(g, ids, r)
    ensures r.failure.Some? <==> exists k :: 0 <= k < |ids| && (!ExistsVertex(g, ids[k]) || ids[k] in ids[..k])
    ensures r.failure.None? ==> forall k :: 0 <= k < |ids| ==> !ExistsVertex(r.state, ids[k])
    ensures r.failure.Some? ==> r.failure == Some(NotFound) && exists k :: 0 <= k < |ids| && !ExistsVertex(r.state, ids[k])
    ensures forall x :: ExistsVertex(r.state, x) ==> ExistsVertex(g, x)
    ensures forall x :: x !in ids && ExistsVertex(g, x) ==> ExistsVertex(r.state, x)
    ensures Valid(g) ==> Valid(r.state)
    decreases |ids|
  {
    if |ids| == 0 then
      assert RemovalStop(g, ids, 0) && RemovedFirst(g, ids, 0, g);
      Partial(g, None)
    else match RemoveVertex(g, ids[0])
      case Err(e) =>
        assert RemovalStop(g, ids, 0) && RemovedFirst(g, ids, 0, g);
        Partial(g, Some(e))
      case Ok(g1) =>
        var rest := RemoveVertices(g1, ids[1..]);
        RemoveVerticesStep(g, g1, ids, rest);
        RemovesVerticesFacts(g, ids, rest);
        rest
  }

  /** What follows from where a batch removal stops: a complete batch
      leaves none of its ids, an incomplete one stops at an id that is gone,
      and exactly the vertices not listed before the stop survive. */
  lemma RemovesVerticesFacts(g: Graph, ids: seq<Id>, r: Partial<Graph>)
    requires RemovesVertices(g, ids, r)
    ensures r.failure.Some? <==> exists k :: 0 <= k < |ids| && (!ExistsVertex(g, ids[k]) || ids[k] in ids[..k])
    ensures r.failure.None? ==> forall k :: 0 <= k < |ids| ==> !ExistsVertex(r.state, ids[k])
    ensures r.failure.Some? ==> exists k :: 0 <= k < |ids| && !ExistsVertex(r.state, ids[k])
    ensures forall x :: ExistsVertex(r.state, x) ==> ExistsVertex(g, x)
    ensures forall x :: x !in ids && ExistsVertex(g, x) ==> ExistsVertex(r.state, x)
  {
    var n: nat :| RemovalStop(g, ids, n) && (r.failure.None? <==> n == |ids|) && RemovedFirst(g, ids, n, r.state);
    RemovalStopFails(g, ids, n);
    if n == |ids| {
      assert ids[..n] == ids;
    } else {
      assert !ExistsVertex(r.state, ids[n]);
    }
    forall x | x !in ids && ExistsVertex(g, x) ensures ExistsVertex(r.state, x) {
      assert x !in ids[..n];
    }
  }

  /** Removing the first id, then the rest as a batch, is the batch. */
  lemma RemoveVerticesStep(g: Graph, g1: Graph, ids: seq<Id>, rest: Partial<Graph>)
    requires |ids| > 0 && RemoveVertex(g, ids[0]) == Ok(g1)
    requires RemovesVertices(g1, ids[1..], rest)
    ensures RemovesVertices(g, ids, rest)
  {
    var n: nat :| RemovalStop(g1, ids[1..], n) && (rest.failure.None? <==> n == |ids[1..]|) && RemovedFirst(g1, ids[1..], n, rest.state);
    RemovalStopStep(g, g1, ids, n);
    RemovedFirstStep(g, g1, ids, n, rest.state);
  }

  /** A batch that gets through `n` ids after a first removable id gets
      through `n + 1` ids with it. */
  lemma RemovalStopStep(g: Graph, g1: Graph, ids: seq<Id>, n: nat)
    requires |ids| > 0 && ExistsVertex(g, ids[0]) && !ExistsVertex(g1, ids[0])
    requires forall x :: x != ids[0] ==> (ExistsVertex(g1, x) <==> ExistsVertex(g, x))
    requires RemovalStop(g1, ids[1..], n)
    ensures RemovalStop(g, ids, n + 1)
  {
    forall k | 0 <= k < n + 1 ensures ExistsVertex(g, ids[k]) && ids[k] !in ids[..k] {
      if k > 0 {
        assert ids[k] == ids[1..][k - 1] && ExistsVertex(g1, ids[1..][k - 1]);
        assert ids[..k] == [ids[0]] + ids[1..][..k - 1];
      }
    }
    if n + 1 < |ids| {
      assert ids[n + 1] == ids[1..][n];
      assert ids[..n + 1] == [ids[0]] + ids[1..][..n];
    }
  }

  /** What is left after `n` more ids, once the first is removed, is what
      is left after `n + 1` ids. */
  lemma RemovedFirstStep(g: Graph, g1: Graph, ids: seq<Id>, n: nat, h: Graph)
    requires n < |ids| && !ExistsVertex(g1, ids[0])
    requires forall x :: x != ids[0] ==> (ExistsVertex(g1, x) <==> ExistsVertex(g, x))
    requires forall v :: v in g1.vertices <==> v in g.vertices && v.id != ids[0]
    requires forall e :: e in g1.edges <==> e in g.edges && !e.Touches(ids[0])
    requires RemovedFirst(g1, ids[1..], n, h)
    ensures RemovedFirst(g, ids, n + 1, h)
  {
    assert ids[..n + 1] == [ids[0]] + ids[1..][..n];
  }

  /** A batch stops early exactly when some id is unknown or repeated. */
  lemma RemovalStopFails(g: Graph, ids: seq<Id>, n: nat)
    requires RemovalStop(g, ids, n)
    ensures n < |ids| <==> exists k :: 0 <= k < |ids| && (!ExistsVertex(g, ids[k]) || ids[k] in ids[..k])
  {
    if n < |ids| {
      assert !ExistsVertex(g, ids[n]) || ids[n] in ids[..n];
    }
  }

  /** `Vertices.getName(id)`: the name of the first vertex with that id. */
  function GetName(g: Graph, id: Id): (r: Result<string>)
    ensures r.Err? <==> !ExistsVertex(g, id)
    ensures r.Err? ==> r.error == NotFound
    ensures r.Ok? ==> Vertex(id, r.value) in g.vertices
  {
    match VertexIndex(g.vertices, id)
    case None => Err(NotFound)
    case Some(k) => Ok(g.vertices[k].name)
  }

  /** Position of the first vertex with the given id. */
  function VertexIndex(vs: seq<Vertex>, id: Id): (r: Option<nat>)
    ensures r.None? <==> forall v :: v in vs ==> v.id != id
    ensures r.Some? ==> (r.value < |vs| && vs[r.value].id == id
      && forall j :: 0 <= j < r.value ==> vs[j].id != id)
  {
    if |vs| == 0 then None
    else if vs[0].id == id then Some(0)
    else match VertexIndex(vs[1..], id)
      case None => None
      case Some(k) => Some(k + 1)
  }

  /** `Vertices.setName(id, name)`: renames the first vertex with that id;
      ids, edges and every other vertex stay as they were. */
  function SetName(g: Graph, id: Id, name: string): (r: Result<Graph>)
    ensures r.Err? <==> !ExistsVertex(g, id)
    ensures r.Err? ==> r.error == NotFound
    ensures r.Ok? ==> GetName(r.value, id) == Ok(name)
    ensures r.Ok? ==> r.value.edges == g.edges && Ids(r.value.vertices) == Ids(g.vertices)
    ensures r.Ok? ==> forall x :: x != id ==> GetName(r.value, x) == GetName(g, x)
    ensures r.Ok? && Valid(g) ==> Valid(r.value)
  {
    match VertexIndex(g.vertices, id)
    case None => Err(NotFound)
    case Some(k) =>
      var g' := Graph(g.vertices[k := Vertex(id, name)], g.edges);
      RenameAt(g, g', id, name, k);
      Ok(g')
  }

  /** Renaming the vertex at position `k`, the first with its id: the ids
      and so every lookup position stay, and only that name changes. */
  lemma RenameAt(g: Graph, g': Graph, id: Id, name: string, k: nat)
    requires VertexIndex(g.vertices, id) == Some(k)
    requires g' == Graph(g.vertices[k := Vertex(id, name)], g.edges)
    ensures GetName(g', id) == Ok(name)
    ensures Ids(g'.vertices) == Ids(g.vertices)
    ensures forall x :: x != id ==> GetName(g', x) == GetName(g, x)
    ensures Valid(g) ==> Valid(g')
  {
    assert Ids(g'.vertices) == Ids(g.vertices);
    forall x ensures VertexIndex(g'.vertices, x) == VertexIndex(g.vertices, x) {
      SameIdsSameIndex(g'.vertices, g.vertices, x);
    }
    RenameKeepsIds(g, g', k, name);
  }

  /** Renaming keeps the set of live ids. */
  lemma RenameKeepsIds(g: Graph, g': Graph, k: nat, name: string)
    requires k < |g.vertices| && g' == Graph(g.vertices[k := Vertex(g.vertices[k].id, name)], g.edges)
    ensures forall x :: ExistsVertex(g', x) <==> ExistsVertex(g, x)
  {
    forall x ensures ExistsVertex(g', x) <==> ExistsVertex(g, x) {
      if ExistsVertex(g, x) {
        var v :| v in g.vertices && v.id == x;
        var i :| 0 <= i < |g.vertices| && g.vertices[i] == v;
        assert g'.vertices[i].id == x;
      }
      if ExistsVertex(g', x) {
        var v :| v in g'.vertices && v.id == x;
        var i :| 0 <= i < |g'.vertices| && g'.vertices[i] == v;
        assert g.vertices[i].id == x;
      }
    }
  }

  lemma {:induction false} SameIdsSameIndex(a: seq<Vertex>, b: seq<Vertex>, id: Id)
    requires Ids(a) == Ids(b)
    ensures VertexIndex(a, id) == VertexIndex(b, id)
    decreases |a|
  {
    if |a| > 0 {
      assert a[0].id == Ids(a)[0] == Ids(b)[0] == b[0].id;
      assert Ids(a[1..]) == Ids(a)[1..];
      assert Ids(b[1..]) == Ids(b)[1..];
      SameIdsSameIndex(a[1..], b[1..], id);
    }
  }

  /*************************************************************************
   * Edges
   *************************************************************************/

  /** Position of the first edge that connects `a` and `b` (the edge every
      Java stream `filter(connects).findFirst()` selects). */
  function EdgeIndex(es: seq<Edge>, a: Id, b: Id): (r: Option<nat>)
    ensures r.None? <==> forall e :: e in es ==> !e.Connects(a, b)
    ensures r.Some? ==> (r.value < |es| && es[r.value].Connects(a, b)
      && forall j :: 0 <= j < r.value ==> !es[j].Connects(a, b))
  {
    if |es| == 0 then None
    else if es[0].Connects(a, b) then Some(0)
    else match EdgeIndex(es[1..], a, b)
      case None => None
      case Some(k) => Some(k + 1)
  }

  /** The weight `getWeight(a, b)` reads, if any edge connects `a` and `b`. */
  function Weight(es: seq<Edge>, a: Id, b: Id): (w: Option<nat>)
    ensures w.None? <==> forall e :: e in es ==> !e.Connects(a, b)
    ensures w.Some? ==> exists e :: e in es && e.Connects(a, b) && e.weight == w.value
  {
    match EdgeIndex(es, a, b)
    case None => None
    case Some(k) => Some(es[k].weight)
  }

  /** Lookup does not depend on the order of the two ids. */
  lemma {:induction false} EdgeIndexSymmetric(es: seq<Edge>, a: Id, b: Id)
    ensures EdgeIndex(es, a, b) == EdgeIndex(es, b, a)
  {
    if |es| > 0 {
      EdgeIndexSymmetric(es[1..], a, b);
    }
  }

  /** `Edges.exists(v1, v2)`: both vertices must exist. */
  function ExistsEdge(g: Graph, v1: Id, v2: Id): (r: Result<bool>)
    ensures r.Err? <==> !ExistsVertex(g, v1) || !ExistsVertex(g, v2)
    ensures r.Err? ==> r.error == NotFound
    ensures r.Ok? ==> (r.value <==> Weight(g.edges, v1, v2).Some?)
  {
    if !ExistsVertex(g, v1) || !ExistsVertex(g, v2) then Err(NotFound)
    else Ok(exists e :: e in g.edges && e.Connects(v1, v2))
  }

  /** `Edges.exists(id)`: the vertex must exist; true when any edge touches it. */
  function ExistsAnyEdge(g: Graph, id: Id): (r: Result<bool>)
    ensures r.Err? <==> !ExistsVertex(g, id)
    ensures r.Err? ==> r.error == NotFound
    ensures r.Ok? ==> (r.value <==> exists e :: e in g.edges && e.Touches(id))
  {
    if !ExistsVertex(g, id) then Err(NotFound)
    else Ok(exists e :: e in g.edges && e.Touches(id))
  }

  /** `exists(v1, v2) == exists(v2, v1)` and `getWeight` is symmetric. */
  lemma EdgeQueriesSymmetric(g: Graph, v1: Id, v2: Id)
    ensures ExistsEdge(g, v1, v2) == ExistsEdge(g, v2, v1)
    ensures GetWeight(g, v1, v2) == GetWeight(g, v2, v1)
  {
    EdgeIndexSymmetric(g.edges, v1, v2);
  }

  /** `Edges.getWeight(v1, v2)`: the weight of the first connecting edge. */
  function GetWeight(g: Graph, v1: Id, v2: Id): (r: Result<nat>)
    ensures r.Err? <==> forall e :: e in g.edges ==> !e.Connects(v1, v2)
    ensures r.Err? ==> r.error == NotFound
    ensures r.Ok? ==> exists e :: e in g.edges && e.Connects(v1, v2) && e.weight == r.value
  {
    match Weight(g.edges, v1, v2)
    case None => Err(NotFound)
    case Some(w) => Ok(w)
  }

  /** `Edges.create(v1, v2, weight)`: an unknown endpoint is NotFound (the
      duplicate test itself checks the vertices first); an existing edge
      between the two ids, in either order, is AlreadyExists; otherwise
      exactly one edge is appended and the others are left unchanged. */
  function CreateEdge(g: Graph, v1: Id, v2: Id, weight: nat): (r: Result<Graph>)
    ensures r == Err(NotFound) <==> !ExistsVertex(g, v1) || !ExistsVertex(g, v2)
    ensures r == Err(AlreadyExists) <==>
      ExistsVertex(g, v1) && ExistsVertex(g, v2) && exists e :: e in g.edges && e.Connects(v1, v2)
    ensures r.Err? ==> r.error in {NotFound, AlreadyExists}
    ensures r.Ok? ==> r.value.vertices == g.vertices && r.value.edges == g.edges + [Edge(v1, v2, weight)]
    ensures r.Ok? ==> GetWeight(r.value, v1, v2) == Ok(weight) && GetWeight(r.value, v2, v1) == Ok(weight)
    ensures r.Ok? && Valid(g) ==> Valid(r.value)
  {
    var found :- ExistsEdge(g, v1, v2);
    if found then Err(AlreadyExists)
    else
      AppendEdge(g, v1, v2, weight);
      Ok(Graph(g.vertices, g.edges + [Edge(v1, v2, weight)]))
  }

  /** Appending an edge between two vertices no edge connects yet: the
      new edge is the one `getWeight` reads in both orders, and a valid
      graph stays valid. */
  lemma AppendEdge(g: Graph, v1: Id, v2: Id, weight: nat)
    requires ExistsVertex(g, v1) && ExistsVertex(g, v2)
    requires forall e :: e in g.edges ==> !e.Connects(v1, v2)
    ensures var g' := Graph(g.vertices, g.edges + [Edge(v1, v2, weight)]);
      && GetWeight(g', v1, v2) == Ok(weight) && GetWeight(g', v2, v1) == Ok(weight)
      && (Valid(g) ==> Valid(g'))
  {
    var g' := Graph(g.vertices, g.edges + [Edge(v1, v2, weight)]);
    EdgeIndexAppend(g.edges, Edge(v1, v2, weight), v1, v2);
    EdgeIndexSymmetric(g'.edges, v1, v2);
    if Valid(g) {
      AppendKeepsValid(g, Edge(v1, v2, weight));
    }
  }

  /** A valid graph stays valid when an edge between existing vertices,
      connecting no pair an earlier edge connects, is appended. */
  lemma AppendKeepsValid(g: Graph, e: Edge)
    requires Valid(g) && ExistsVertex(g, e.v1) && ExistsVertex(g, e.v2)
    requires forall f :: f in g.edges ==> !f.Connects(e.v1, e.v2)
    ensures Valid(Graph(g.vertices, g.edges + [e]))
  {
    var es := g.edges + [e];
    forall i, j | 0 <= i < j < |es| ensures !es[i].Connects(es[j].v1, es[j].v2) {
      if j == |g.edges| {
        assert es[i] in g.edges;
      }
    }
  }

  lemma {:induction false} EdgeIndexAppend(es: seq<Edge>, e: Edge, a: Id, b: Id)
    requires forall f :: f in es ==> !f.Connects(a, b)
    requires e.Connects(a, b)
    ensures EdgeIndex(es + [e], a, b) == Some(|es|)
  {
    if |es| > 0 {
      assert (es + [e])[1..] == es[1..] + [e];
      EdgeIndexAppend(es[1..], e, a, b);
    }
  }

  /** `Edges.remove(v1, v2)`: NotFound unless both vertices exist and an
      edge connects them; then every connecting edge is dropped. */
  function RemoveEdge(g: Graph, v1: Id, v2: Id): (r: Result<Graph>)
    ensures r.Err? <==> !ExistsVertex(g, v1) || !ExistsVertex(g, v2) || Weight(g.edges, v1, v2).None?
    ensures r.Err? ==> r.error == NotFound
    ensures r.Ok? ==> (r.value.vertices == g.vertices
      && Weight(r.value.edges, v1, v2).None?
      && (forall e :: e in r.value.edges <==> e in g.edges && !e.Connects(v1, v2)))
    ensures r.Ok? && Valid(g) ==> Valid(r.value)
  {
    var found :- ExistsEdge(g, v1, v2);
    if !found then Err(NotFound)
    else
      var keep := (e: Edge) => !e.Connects(v1, v2);
      var g' := Graph(g.vertices, Filter(g.edges, keep));
      assert Valid(g) ==> Valid(g') by {
        if Valid(g) {
          FilterKeepsSimple(g.edges, keep);
        }
      }
      Ok(g')
  }

  /** `Edges.removeAll(id)`: the vertex must exist; every edge touching it is
      dropped, every other edge is kept. */
  function RemoveIncidentEdges(g: Graph, id: Id): (r: Result<Graph>)
    ensures r.Err? <==> !ExistsVertex(g, id)
    ensures r.Err? ==> r.error == NotFound
    ensures r.Ok? ==> (r.value.vertices == g.vertices
      && ExistsAnyEdge(r.value, id) == Ok(false)
      && (forall e :: e in r.value.edges <==> e in g.edges && !e.Touches(id)))
    ensures r.Ok? && Valid(g) ==> Valid(r.value)
  {
    if !ExistsVertex(g, id) then Err(NotFound)
    else
      var keep := (e: Edge) => !e.Touches(id);
      var g' := Graph(g.vertices, Filter(g.edges, keep));
      assert Valid(g) ==> Valid(g') by {
        if Valid(g) {
          FilterKeepsSimple(g.edges, keep);
        }
      }
      Ok(g')
  }

  /** The batch `removeAll(ids...)` gets through the first `n` ids: each
      of them is a live id, and the next one, if any, is unknown. */
  ghost predicate UnknownStop(g: Graph, ids: seq<Id>, n: nat) {
    && n <= |ids|
    && (forall k :: 0 <= k < n ==> ExistsVertex(g, ids[k]))
    && (n < |ids| ==> !ExistsVertex(g, ids[n]))
  }

  /** What `Edges.removeAll(ids...)` promises as a whole: the vertices stay,
      and an edge survives exactly when it touches none of the ids handled
      before the stop. */
  ghost predicate RemovesIncident(g: Graph, ids: seq<Id>, r: Partial<Graph>) {
    && r.state.vertices == g.vertices
    && exists n: nat :: (UnknownStop(g, ids, n) && (r.failure.None? <==> n == |ids|)
      && forall e :: e in r.state.edges <==> e in g.edges && e.v1 !in ids[..n] && e.v2 !in ids[..n])
  }

  /** `Edges.removeAll(ids...)`: one `removeAll` per id, stopping at the
      first unknown id and keeping the removals made before it. */
  function RemoveIncidentEdgesOf(g: Graph, ids: seq<Id>): (r: Partial<Graph>)
    ensures RemovesIncident(g, ids, r)
    ensures r.state.vertices == g.vertices
    ensures forall e :: e in r.state.edges ==> e in g.edges
    ensures r.failure.None? <==> forall k :: 0 <= k < |ids| ==> ExistsVertex(g, ids[k])
    ensures r.failure.Some? ==> r.failure == Some(NotFound)
    ensures r.failure.None? ==> forall e, k :: e in r.state.edges && 0 <= k < |ids| ==> !e.Touches(ids[k])
    ensures Valid(g) ==> Valid(r.state)
    decreases |ids|
  {
    if |ids| == 0 then
      assert UnknownStop(g, ids, 0);
      Partial(g, None)
    else match RemoveIncidentEdges(g, ids[0])
      case Err(e) =>
        assert UnknownStop(g, ids, 0);
        Partial(g, Some(e))
      case Ok(g1) =>
        var rest := RemoveIncidentEdgesOf(g1, ids[1..]);
        RemoveIncidentStep(g, g1, ids, rest);
        assert forall k :: 1 <= k < |ids| ==> ids[k] == ids[1..][k - 1];
        assert g1.vertices == g.vertices;
        assert (forall k :: 0 <= k < |ids[1..]| ==> ExistsVertex(g1, ids[1..][k]))
           <==> (forall k :: 0 <= k < |ids| ==> ExistsVertex(g, ids[k]));
        rest
  }

  /** Clearing the first id, then the rest as a batch, is the batch. */
  lemma RemoveIncidentStep(g: Graph, g1: Graph, ids: seq<Id>, rest: Partial<Graph>)
    requires |ids| > 0 && RemoveIncidentEdges(g, ids[0]) == Ok(g1)
    requires RemovesIncident(g1, ids[1..], rest)
    ensures RemovesIncident(g, ids, rest)
  {
    var n: nat :| UnknownStop(g1, ids[1..], n) && (rest.failure.None? <==> n == |ids[1..]|)
      && forall e :: e in rest.state.edges <==> e in g1.edges && e.v1 !in ids[1..][..n] && e.v2 !in ids[1..][..n];
    assert ids[..n + 1] == [ids[0]] + ids[1..][..n];
    assert UnknownStop(g, ids, n + 1) by {
      forall k | 0 < k < n + 1 ensures ExistsVertex(g, ids[k]) {
        assert ids[k] == ids[1..][k - 1];
      }
      if n + 1 < |ids| {
        assert ids[n + 1] == ids[1..][n];
      }
    }
  }

  /** `Edges.setWeight(v1, v2, weight)`: changes the weight of the first
      connecting edge and nothing else. */
  function SetWeight(g: Graph, v1: Id, v2: Id, weight: nat): (r: Result<Graph>)
    ensures r.Err? <==> Weight(g.edges, v1, v2).None?
    ensures r.Err? ==> r.error == NotFound
    ensures r.Ok? ==> r.value.vertices == g.vertices && |r.value.edges| == |g.edges|
    ensures r.Ok? ==> forall i :: 0 <= i < |g.edges| ==>
      r.value.edges[i].v1 == g.edges[i].v1 && r.value.edges[i].v2 == g.edges[i].v2
    ensures r.Ok? ==> exists k :: 0 <= k < |g.edges| && r.value.edges == g.edges[k := r.value.edges[k]]
    ensures r.Ok? ==> (EdgeIndex(g.edges, v1, v2).Some?
      && var k := EdgeIndex(g.edges, v1, v2).value;
      && r.value.edges[k].weight == weight
      && forall i :: 0 <= i < |g.edges| && i != k ==> r.value.edges[i] == g.edges[i])
    ensures r.Ok? ==> GetWeight(r.value, v1, v2) == Ok(weight) && GetWeight(r.value, v2, v1) == Ok(weight)
    ensures r.Ok? && Valid(g) ==> Valid(r.value)
  {
    match EdgeIndex(g.edges, v1, v2)
    case None => Err(NotFound)
    case Some(k) =>
      var e := g.edges[k];
      var g' := Graph(g.vertices, g.edges[k := Edge(e.v1, e.v2, weight)]);
      ReweightAt(g, g', v1, v2, k, weight);
      Ok(g')
  }

  /** Rewriting the weight of the first edge that connects `v1` and `v2`:
      the lookup now reads the new weight, in either order. */
  lemma ReweightAt(g: Graph, g': Graph, v1: Id, v2: Id, k: nat, weight: nat)
    requires EdgeIndex(g.edges, v1, v2) == Some(k)
    requires g' == Graph(g.vertices, g.edges[k := Edge(g.edges[k].v1, g.edges[k].v2, weight)])
    ensures GetWeight(g', v1, v2) == Ok(weight) && GetWeight(g', v2, v1) == Ok(weight)
    ensures Valid(g) ==> Valid(g')
  {
    assert EdgeIndex(g'.edges, v1, v2) == Some(k) by {
      EdgeIndexSameEnds(g.edges, g'.edges, v1, v2);
    }
    EdgeIndexSymmetric(g'.edges, v1, v2);
    if Valid(g) {
      ReweightKeepsValid(g, g');
    }
  }

  /** Changing weights only keeps a graph valid. */
  lemma ReweightKeepsValid(g: Graph, g': Graph)
    requires Valid(g) && g'.vertices == g.vertices && |g'.edges| == |g.edges|
    requires forall i :: 0 <= i < |g.edges| ==> g'.edges[i].v1 == g.edges[i].v1 && g'.edges[i].v2 == g.edges[i].v2
    ensures Valid(g')
  {
    forall f | f in g'.edges ensures ExistsVertex(g', f.v1) && ExistsVertex(g', f.v2) {
      var i :| 0 <= i < |g'.edges| && g'.edges[i] == f;
      assert g.edges[i] in g.edges;
    }
    forall i, j | 0 <= i < j < |g'.edges| ensures !g'.edges[i].Connects(g'.edges[j].v1, g'.edges[j].v2) {
      assert !g.edges[i].Connects(g.edges[j].v1, g.edges[j].v2);
    }
  }

  lemma {:induction false} EdgeIndexSameEnds(a: seq<Edge>, b: seq<Edge>, x: Id, y: Id)
    requires |a| == |b|
    requires forall i :: 0 <= i < |a| ==> a[i].v1 == b[i].v1 && a[i].v2 == b[i].v2
    ensures EdgeIndex(a, x, y) == EdgeIndex(b, x, y)
  {
    if |a| > 0 {
      EdgeIndexSameEnds(a[1..], b[1..], x, y);
    }
  }

  /** `Edges.edit(v1, v2, weight)` (what `Graph.setEdgeWeight` calls): the
      edge must exist; every connecting edge is removed and a new edge
      (v1, v2, weight) is appended. */
  function EditEdge(g: Graph, v1: Id, v2: Id, weight: nat): (r: Result<Graph>)
    ensures r.Err? <==> !ExistsVertex(g, v1) || !ExistsVertex(g, v2) || Weight(g.edges, v1, v2).None?
    ensures r.Err? ==> r.error == NotFound
    ensures r.Ok? ==> (r.value.vertices == g.vertices
      && |r.value.edges| >= 1 && r.value.edges[|r.value.edges| - 1] == Edge(v1, v2, weight)
      && (forall e :: e in r.value.edges ==> e == Edge(v1, v2, weight) || (e in g.edges && !e.Connects(v1, v2)))
      && (forall e :: e in g.edges && !e.Connects(v1, v2) ==> e in r.value.edges))
    ensures r.Ok? ==> GetWeight(r.value, v1, v2) == Ok(weight)
    ensures r.Ok? && Valid(g) ==> Valid(r.value)
  {
    var found :- ExistsEdge(g, v1, v2);
    if !found then Err(NotFound)
    else
      var g1 := RemoveEdge(g, v1, v2).value;
      CreateEdge(g1, v1, v2, weight)
  }

  /** Editing an edge of a valid graph to a new weight succeeds and removes
      the edge with the old weight. */
  lemma ReweightDropsEdge(g: Graph, e: Edge, w: nat)
    requires Valid(g) && e in g.edges && e.weight != w
    ensures var out := Apply(g, Mutation.EditEdge(e.v1, e.v2, w));
      out.failure.None? && e !in out.graph.edges
  {
    assert e.Connects(e.v1, e.v2);
    assert ExistsVertex(g, e.v1) && ExistsVertex(g, e.v2);
    assert Weight(g.edges, e.v1, e.v2).Some?;
    var ed := EditEdge(g, e.v1, e.v2, w);
    assert ed.Ok?;
    assert e !in ed.value.edges by {
      assert ed.value.edges[|ed.value.edges| - 1] != e;
    }
    ApplyEditEdge(g, e.v1, e.v2, w);
  }

  /** `Graph.editEdge` forwards to `Edges.edit`. */
  lemma ApplyEditEdge(g: Graph, v1: Id, v2: Id, w: nat)
    ensures Apply(g, Mutation.EditEdge(v1, v2, w)) == FromResult(g, EditEdge(g, v1, v2, w))
  {
  }

  /*************************************************************************
   * Graph delegators
   *************************************************************************/

  /** The graph-mutating calls of the `Graph` API. The overloads `addVertex()`
      / `addVertex(name)` are AddVertex, `addVertex(n)` / `addVertex(names...)`
      are AddVertices, and the varargs forms of the removals are the `...Of`
      variants. */
  datatype Mutation =
    | AddVertex(name: Option<string>)
    | AddVertices(names: seq<Option<string>>)
    | RemoveVertex(id: Id)
    | RemoveVertices(ids: seq<Id>)
    | SetVertexName(id: Id, newName: string)
    | AddEdge(v1: Id, v2: Id, weight: nat)
    | EditEdge(v1: Id, v2: Id, weight: nat)
    | RemoveEdge(v1: Id, v2: Id)
    | RemoveAllEdges(id: Id)
    | RemoveAllEdgesOf(ids: seq<Id>)
    | SetEdgeWeight(v1: Id, v2: Id, weight: nat)
  {
    /** The call iterates over several arguments and can stop half-way. */
    predicate IsBatch() {
      AddVertices? || RemoveVertices? || RemoveAllEdgesOf?
    }
  }

  /** What a mutating call leaves behind: the graph, the ids it created and
      the exception it threw, if any. */
  datatype Outcome = Outcome(graph: Graph, created: seq<Id>, failure: Option<Error>)

  function FromResult(g: Graph, r: Result<Graph>): Outcome {
    match r
    case Ok(g') => Outcome(g', [], None)
    case Err(e) => Outcome(g, [], Some(e))
  }

  /** The `Graph` delegators: each forwards to `Vertices` or `Edges`;
      `setEdgeWeight` forwards to the (deprecated) `edit`. */
  function Apply(g: Graph, m: Mutation): (out: Outcome)
    ensures Valid(g) ==> Valid(out.graph)
    ensures out.failure.Some? && !m.IsBatch() ==> out.graph == g
  {
    match m
    case AddVertex(name) =>
      (match CreateVertex(g, name)
       case Ok((g', id)) => Outcome(g', [id], None)
       case Err(e) => Outcome(g, [], Some(e)))
    case AddVertices(names) =>
      assert Valid(g) ==> CreateVertices(g, names).Ok? && Valid(CreateVertices(g, names).value.0) by {
        if Valid(g) {
          CreateVerticesFromValid(g, names);
        }
      }
      (match CreateVertices(g, names)
       case Ok((g', ids)) => Outcome(g', ids, None)
       case Err(e) => Outcome(g, [], Some(e)))
    case RemoveVertex(id) => FromResult(g, RemoveVertex(g, id))
    case RemoveVertices(ids) =>
      var p := RemoveVertices(g, ids);
      Outcome(p.state, [], p.failure)
    case SetVertexName(id, name) => FromResult(g, SetName(g, id, name))
    case AddEdge(v1, v2, w) => FromResult(g, CreateEdge(g, v1, v2, w))
    case EditEdge(v1, v2, w) => FromResult(g, EditEdge(g, v1, v2, w))
    case RemoveEdge(v1, v2) => FromResult(g, RemoveEdge(g, v1, v2))
    case RemoveAllEdges(id) => FromResult(g, RemoveIncidentEdges(g, id))
    case RemoveAllEdgesOf(ids) =>
      var p := RemoveIncidentEdgesOf(g, ids);
      Outcome(p.state, [], p.failure)
    case SetEdgeWeight(v1, v2, w) => FromResult(g, EditEdge(g, v1, v2, w))
  }

  /*************************************************************************
   * Id allocation
   *************************************************************************/

  /** Removing any vertex but the one at the tail of the list leaves the
      next id unchanged: ids 1, 2, 3 minus 2 still allocates 4. */
  lemma RemovingMiddleIdKeepsAllocation(g: Graph, id: Id)
    requires Valid(g) && ExistsVertex(g, id) && id != NextId(g) - 1
    ensures RemoveVertex(g, id).Ok?
    ensures NextId(RemoveVertex(g, id).value) == NextId(g)
  {
    var g' := RemoveVertex(g, id).value;
    var top := NextId(g) - 1;
    assert g.vertices[|g.vertices| - 1] in g.vertices;
    assert ExistsVertex(g', top);
    var vs := g'.vertices;
    var i :| 0 <= i < |vs| && vs[i].id == top;
    var last := vs[|vs| - 1];
    assert last in vs;
    assert ExistsVertex(g, last.id);
  }

  /** The allocator is not a high-water mark: in a graph whose ids are
      1..n, removing vertex n and creating a vertex hands out n again. */
  lemma RemovingTailIdReusesIt(g: Graph)
    requires Valid(g) && |g.vertices| >= 1
    requires forall i :: 0 <= i < |g.vertices| ==> g.vertices[i].id == i + 1
    ensures var n := |g.vertices|;
      && RemoveVertex(g, n).Ok?
      && CreateVertex(RemoveVertex(g, n).value, None).Ok?
      && CreateVertex(RemoveVertex(g, n).value, None).value.1 == n
  {
    var n := |g.vertices|;
    assert g.vertices[n - 1] in g.vertices;
    var g' := RemoveVertex(g, n).value;
    FilterDropsLast(g.vertices, n);
    assert g'.vertices == g.vertices[..n - 1];
  }

  lemma FilterDropsLast(vs: seq<Vertex>, t: Id)
    requires IdsIncreasing(vs) && |vs| >= 1 && vs[|vs| - 1].id == t
    ensures Filter(vs, OtherVertex(t)) == vs[..|vs| - 1]
  {
    var keep := OtherVertex(t);
    forall i | 0 <= i < |vs| - 1 ensures keep(vs[i]) {
      assert vs[i].id < vs[|vs| - 1].id;
    }
    FilterAllButLast(vs, keep);
  }

  /** Filtering with a test that only the last element fails drops it. */
  lemma {:induction false} FilterAllButLast<T(!new)>(s: seq<T>, keep: T -> bool)
    requires |s| >= 1 && !keep(s[|s| - 1])
    requires forall i :: 0 <= i < |s| - 1 ==> keep(s[i])
    ensures Filter(s, keep) == s[..|s| - 1]
  {
    if |s| > 1 {
      var rest := s[1..];
      assert forall i :: 0 <= i < |rest| - 1 ==> keep(rest[i]) by {
        forall i | 0 <= i < |rest| - 1 ensures keep(rest[i]) {
          assert rest[i] == s[i + 1];
        }
      }
      FilterAllButLast(rest, keep);
      assert rest[..|rest| - 1] == s[1..|s| - 1];
      assert keep(s[0]);
      assert s[..|s| - 1] == [s[0]] + s[1..|s| - 1];
    }
  }
}

=== FILE: kruskal.dfy ===
/** `MinimalSpanningTree.Kruskal.calculate`: edges leave a weight-ordered
    queue one at a time, and an edge is kept exactly when its endpoints are
    still in different union-find classes. The classes are kept per vertex
    (a slot for each vertex id) rather than in an array of |V| slots indexed
    by raw id. */
module Kruskal {
  import opened Wrappers
  import opened Graphs
  import opened Walks
  import opened UnionFind

  /*************************************************************************
   * The queue order
   *************************************************************************/

  /** Non-decreasing weight: the `Comparator.comparingDouble(getWeight)`
      order in which the priority queue hands the edges out. */
  predicate SortedByWeight(es: seq<Edge>) {
    forall i, j :: 0 <= i < j < |es| ==> es[i].weight <= es[j].weight
  }

  /** Places `e` before the first edge that is at least as heavy. */
  function Insert(e: Edge, es: seq<Edge>): (r: seq<Edge>)
    ensures multiset(r) == multiset(es) + multiset{e}
    ensures SortedByWeight(es) ==> SortedByWeight(r)
  {
    if |es| == 0 || e.weight <= es[0].weight then [e] + es
    else
      var rest := Insert(e, es[1..]);
      assert es == [es[0]] + es[1..];
      HeavierInsert(e, es, rest);
      [es[0]] + rest
  }

  /** Behind a lighter head, the sorted insertion into the tail stays sorted. */
  lemma HeavierInsert(e: Edge, es: seq<Edge>, rest: seq<Edge>)
    requires |es| > 0 && es[0].weight <= e.weight
    requires multiset(rest) == multiset(es[1..]) + multiset{e}
    ensures SortedByWeight(es) && SortedByWeight(rest) ==> SortedByWeight([es[0]] + rest)
  {
    if SortedByWeight(es) && SortedByWeight(rest) {
      forall k | 0 <= k < |rest| ensures es[0].weight <= rest[k].weight {
        assert rest[k] in multiset(rest);
        if rest[k] != e {
          assert rest[k] in es[1..];
        }
      }
    }
  }

  /** The order in which the queue is drained: a weight-sorted
      rearrangement of the edges (equal weights keep list order). */
  function SortByWeight(es: seq<Edge>): (r: seq<Edge>)
    ensures multiset(r) == multiset(es)
    ensures SortedByWeight(r)
  {
    if |es| == 0 then []
    else
      assert es == [es[0]] + es[1..];
      Insert(es[0], SortByWeight(es[1..]))
  }

  /*************************************************************************
   * The scan
   *************************************************************************/

  /** What holds after the first `i` edges of the queue: the union-find
      classes are exactly the components of the kept edges, and each kept
      edge merged two classes. */
  ghost predicate Scanned(g: Graph, queue: seq<Edge>, i: nat, parent: map<Id, Id>, rank: map<Id, nat>, kept: seq<Edge>) {
    && Kept(queue, i, kept)
    && Wf(parent, rank) && parent.Keys == IdSet(g)
    && Components(g, Classes(parent, rank), kept)
    && |kept| + |Roots(parent)| == |IdSet(g)|
  }

  /** The kept edges after the first `i` of the queue: drawn from them, in
      queue order, without a cycle, and connecting the endpoints of every
      edge seen so far. */
  ghost predicate Kept(queue: seq<Edge>, i: nat, kept: seq<Edge>) {
    && i <= |queue|
    && (forall e :: e in kept ==> e in queue[..i])
    && Forest(kept)
    && SortedByWeight(kept)
    && (forall k :: 0 <= k < i ==> Connected(kept, queue[k].v1, queue[k].v2))
  }

  /** Two vertices are in one class exactly when the kept edges connect them. */
  ghost predicate Components(g: Graph, cls: map<Id, Id>, kept: seq<Edge>) {
    && cls.Keys == IdSet(g)
    && forall x, y {:trigger Connected(kept, x, y)} :: x in IdSet(g) && y in IdSet(g) ==>
      (cls[x] == cls[y] <==> Connected(kept, x, y))
  }

  /** The main loop of `Kruskal.calculate` over a given queue order: poll,
      `find` both endpoints, and on different roots keep the edge (via
      `resultEdges.create`, whose checks cannot fail here) and `union`. */
  method Scan(g: Graph, queue: seq<Edge>) returns (kept: seq<Edge>)
    requires EndpointsExist(g)
    requires multiset(queue) == multiset(g.edges) && SortedByWeight(queue)
    ensures forall e :: e in kept ==> e in g.edges
    ensures Forest(kept)
    ensures SortedByWeight(kept)
    ensures |IdSet(g)| >= 1 ==> |kept| <= |IdSet(g)| - 1
    ensures forall x, y :: Connected(kept, x, y) <==> Connected(g.edges, x, y)
  {
    var parent := Singletons(IdSet(g));
    ghost var rank := map x | x in IdSet(g) :: 0;
    SingletonsWf(IdSet(g));
    kept := [];
    InitiallyScanned(g, queue, parent, rank);
    var i := 0;
    while i < |queue|
      invariant Scanned(g, queue, i, parent, rank, kept)
      decreases |queue| - i
    {
      var e := queue[i];
      assert e in g.edges by {
        assert e in multiset(queue);
      }
      var p1, r1 := Find(parent, rank, e.v1);
      var p2, r2 := Find(p1, rank, e.v2);
      parent := p2;
      if r1 != r2 {
        var made := CreateEdge(Graph(g.vertices, kept), e.v1, e.v2, e.weight);
        Fresh(g, queue, i, parent, rank, kept);
        var parent', rank' := Union(parent, rank, r1, r2);
        MergeKeepsScanned(g, queue, i, parent, rank, parent', rank', kept);
        kept := made.value.edges;
        parent, rank := parent', rank';
      } else {
        SkipKeepsScanned(g, queue, i, parent, rank, kept);
      }
      i := i + 1;
    }
    Finish(g, queue, parent, rank, kept);
  }

  /** `Kruskal.calculate`'s result: a forest of graph edges, listed in
      non-decreasing weight, with at most |V| - 1 edges, that connects two
      vertices exactly when the graph does. */
  method Kruskal(g: Graph) returns (kept: seq<Edge>)
    requires Valid(g)
    ensures forall e :: e in kept ==> e in g.edges
    ensures Forest(kept)
    ensures SortedByWeight(kept)
    ensures |IdSet(g)| >= 1 ==> |kept| <= |IdSet(g)| - 1
    ensures forall x, y :: Connected(kept, x, y) <==> Connected(g.edges, x, y)
  {
    kept := Scan(g, SortByWeight(g.edges));
  }

  /*************************************************************************
   * As written: the parent array indexed by raw id
   *************************************************************************/

  /** The slot `find` reads for a vertex id: `parent` has |V| slots and is
      indexed by the raw id, so an id outside 0 .. |V| - 1 throws
      ArrayIndexOutOfBoundsException. */
  function SlotAsWritten(g: Graph, id: Id): (r: Result<nat>)
    ensures r.Ok? <==> 0 <= id < |g.vertices|
    ensures r.Ok? ==> r.value == id
    ensures r.Err? ==> r.error == OutOfBounds
  {
    if 0 <= id < |g.vertices| then Ok(id) else Err(OutOfBounds)
  }

  /** Whether every endpoint of every edge has a slot. */
  predicate AllSlotted(g: Graph) {
    forall e :: e in g.edges ==> SlotAsWritten(g, e.v1).Ok? && SlotAsWritten(g, e.v2).Ok?
  }

  /** `Kruskal.calculate` as written: some polled edge reaches an endpoint
      without a slot exactly when one exists, and the run throws. With every
      endpoint slotted, the slots no vertex owns stay singletons that are
      never looked up, and the run keeps what `Scan` keeps. */
  method KruskalAsWritten(g: Graph, queue: seq<Edge>) returns (r: Result<seq<Edge>>)
    requires EndpointsExist(g)
    requires multiset(queue) == multiset(g.edges) && SortedByWeight(queue)
    ensures r.Err? <==> !AllSlotted(g)
    ensures r.Err? ==> r.error == OutOfBounds
    ensures r.Ok? ==> forall e :: e in r.value ==> e in g.edges
    ensures r.Ok? ==> Forest(r.value) && forall x, y :: Connected(r.value, x, y) <==> Connected(g.edges, x, y)
  {
    if !AllSlotted(g) {
      return Err(OutOfBounds);
    }
    var kept := Scan(g, queue);
    return Ok(kept);
  }

  /** Ids start at 1 and increase, so the vertex at position `i` has an id
      above `i`. */
  lemma {:induction false} IdAbovePosition(vs: seq<Vertex>, i: nat)
    requires IdsIncreasing(vs) && i < |vs|
    ensures vs[i].id >= i + 1
  {
    if i > 0 {
      IdAbovePosition(vs, i - 1);
    }
  }

  /** On a valid graph the last vertex's id has no slot, so as written
      Kruskal throws on every graph with an edge at the last vertex. */
  lemma LastVertexUnslotted(g: Graph, e: Edge)
    requires Valid(g) && |g.vertices| >= 1 && e in g.edges
    requires e.Touches(g.vertices[|g.vertices| - 1].id)
    ensures SlotAsWritten(g, g.vertices[|g.vertices| - 1].id).Err?
    ensures !AllSlotted(g)
  {
    IdAbovePosition(g.vertices, |g.vertices| - 1);
  }

  /*************************************************************************
   * Loop lemmas
   *************************************************************************/

  lemma InitiallyScanned(g: Graph, queue: seq<Edge>, parent: map<Id, Id>, rank: map<Id, nat>)
    requires parent == Singletons(IdSet(g)) && Wf(parent, rank) && Classes(parent, rank) == parent
    ensures Scanned(g, queue, 0, parent, rank, [])
  {
    forall x, y | x in IdSet(g) && y in IdSet(g)
      ensures parent[x] == parent[y] <==> Connected([], x, y)
    {
      ConnectedRefl([], x);
      if x != y {
        Untouched([], x, y);
      }
    }
  }

  /** An edge whose endpoints share a class is already connected; skipping
      it keeps everything. */
  lemma SkipKeepsScanned(g: Graph, queue: seq<Edge>, i: nat, parent: map<Id, Id>, rank: map<Id, nat>, kept: seq<Edge>)
    requires EndpointsExist(g) && Scanned(g, queue, i, parent, rank, kept) && i < |queue| && queue[i] in g.edges
    requires Root(parent, rank, queue[i].v1) == Root(parent, rank, queue[i].v2)
    ensures Scanned(g, queue, i + 1, parent, rank, kept)
  {
    var e := queue[i];
    assert e.v1 in IdSet(g) && e.v2 in IdSet(g);
    assert Classes(parent, rank)[e.v1] == Classes(parent, rank)[e.v2];
    assert Connected(kept, e.v1, e.v2);
    assert queue[..i + 1] == queue[..i] + [e];
  }

  /** Endpoints in different classes are not connected by the kept edges,
      so no kept edge joins them and `resultEdges.create` appends the edge. */
  lemma Fresh(g: Graph, queue: seq<Edge>, i: nat, parent: map<Id, Id>, rank: map<Id, nat>, kept: seq<Edge>)
    requires EndpointsExist(g) && Scanned(g, queue, i, parent, rank, kept) && i < |queue| && queue[i] in g.edges
    requires Root(parent, rank, queue[i].v1) != Root(parent, rank, queue[i].v2)
    ensures !Connected(kept, queue[i].v1, queue[i].v2)
    ensures var e := queue[i]; CreateEdge(Graph(g.vertices, kept), e.v1, e.v2, e.weight) == Ok(Graph(g.vertices, kept + [e]))
  {
    var e := queue[i];
    assert e.v1 in IdSet(g) && e.v2 in IdSet(g);
    assert Classes(parent, rank)[e.v1] != Classes(parent, rank)[e.v2];
    if exists f :: f in kept && f.Connects(e.v1, e.v2) {
      LinkedConnected(kept, e.v1, e.v2);
    }
  }

  /** Keeping an edge between two classes and merging them keeps the
      classes equal to the components of the kept edges. */
  lemma MergeKeepsScanned(g: Graph, queue: seq<Edge>, i: nat, parent: map<Id, Id>, rank: map<Id, nat>,
                          parent': map<Id, Id>, rank': map<Id, nat>, kept: seq<Edge>)
    requires EndpointsExist(g) && Scanned(g, queue, i, parent, rank, kept) && i < |queue| && queue[i] in g.edges
    requires SortedByWeight(queue) && !Connected(kept, queue[i].v1, queue[i].v2)
    requires Wf(parent', rank') && parent'.Keys == parent.Keys
    requires var r1, r2 := Root(parent, rank, queue[i].v1), Root(parent, rank, queue[i].v2);
      && Classes(parent', rank') == Merge(Classes(parent, rank), r1, r2)
      && Roots(parent') == Roots(parent) - {r1}
    ensures Scanned(g, queue, i + 1, parent', rank', kept + [queue[i]])
  {
    var e := queue[i];
    KeptAppend(queue, i, kept);
    assert e.v1 in IdSet(g) && e.v2 in IdSet(g);
    MergedComponents(g, Classes(parent, rank), kept, e);
    RootIsRoot(parent, rank, e.v1);
  }

  /** An edge whose endpoints the kept edges leave apart can be kept. */
  lemma KeptAppend(queue: seq<Edge>, i: nat, kept: seq<Edge>)
    requires Kept(queue, i, kept) && i < |queue| && SortedByWeight(queue)
    requires !Connected(kept, queue[i].v1, queue[i].v2)
    ensures Kept(queue, i + 1, kept + [queue[i]])
  {
    var e := queue[i];
    ForestAppend(kept, e);
    SortedAppend(queue, i, kept);
    KeptDrawn(queue, i, kept);
    KeptConnects(queue, i, kept);
  }

  lemma KeptDrawn(queue: seq<Edge>, i: nat, kept: seq<Edge>)
    requires i < |queue| && forall f :: f in kept ==> f in queue[..i]
    ensures forall f :: f in kept + [queue[i]] ==> f in queue[..i + 1]
  {
    assert queue[..i + 1] == queue[..i] + [queue[i]];
  }

  lemma KeptConnects(queue: seq<Edge>, i: nat, kept: seq<Edge>)
    requires i < |queue|
    requires forall k :: 0 <= k < i ==> Connected(kept, queue[k].v1, queue[k].v2)
    ensures forall k :: 0 <= k < i + 1 ==> Connected(kept + [queue[i]], queue[k].v1, queue[k].v2)
  {
    var kept' := kept + [queue[i]];
    assert forall f :: f in kept ==> f in kept';
    forall k | 0 <= k < i + 1 ensures Connected(kept', queue[k].v1, queue[k].v2) {
      if k < i {
        ConnectedMono(kept, kept', queue[k].v1, queue[k].v2);
      } else {
        EdgeConnected(kept', queue[i]);
      }
    }
  }

  /** Merging the classes of the two endpoints of a new edge yields the
      components of the longer edge list. */
  lemma MergedComponents(g: Graph, cls: map<Id, Id>, kept: seq<Edge>, e: Edge)
    requires Components(g, cls, kept) && e.v1 in IdSet(g) && e.v2 in IdSet(g)
    ensures Components(g, Merge(cls, cls[e.v1], cls[e.v2]), kept + [e])
  {
    var r1, r2 := cls[e.v1], cls[e.v2];
    var cls' := Merge(cls, r1, r2);
    forall x, y | x in IdSet(g) && y in IdSet(g)
      ensures cls'[x] == cls'[y] <==> Connected(kept + [e], x, y)
    {
      ConnectedAppend(kept, e, x, y);
      assert Connected(kept, x, e.v1) <==> cls[x] == r1;
      assert Connected(kept, e.v2, y) <==> r2 == cls[y];
      assert Connected(kept, x, e.v2) <==> cls[x] == r2;
      assert Connected(kept, e.v1, y) <==> r1 == cls[y];
    }
  }

  lemma SortedAppend(queue: seq<Edge>, i: nat, kept: seq<Edge>)
    requires i < |queue| && SortedByWeight(queue) && SortedByWeight(kept)
    requires forall f :: f in kept ==> f in queue[..i]
    ensures SortedByWeight(kept + [queue[i]])
  {
    forall j | 0 <= j < |kept| ensures kept[j].weight <= queue[i].weight {
      assert kept[j] in queue[..i];
    }
  }

  /** After the last edge: the kept edges connect what the graph connects,
      and at least one class remains. */
  lemma Finish(g: Graph, queue: seq<Edge>, parent: map<Id, Id>, rank: map<Id, nat>, kept: seq<Edge>)
    requires EndpointsExist(g) && multiset(queue) == multiset(g.edges)
    requires Scanned(g, queue, |queue|, parent, rank, kept)
    ensures forall e :: e in kept ==> e in g.edges
    ensures |IdSet(g)| >= 1 ==> |kept| <= |IdSet(g)| - 1
    ensures forall x, y :: Connected(kept, x, y) <==> Connected(g.edges, x, y)
  {
    assert queue[..|queue|] == queue;
    forall e | e in kept ensures e in g.edges {
      assert e in multiset(queue);
    }
    forall e | e in g.edges ensures Connected(kept, e.v1, e.v2) {
      assert e in multiset(queue);
      var k :| 0 <= k < |queue| && queue[k] == e;
    }
    forall x, y ensures Connected(kept, x, y) <==> Connected(g.edges, x, y) {
      if Connected(kept, x, y) {
        ConnectedMono(kept, g.edges, x, y);
      }
      if Connected(g.edges, x, y) {
        ConnectedClosure(g.edges, kept, x, y);
      }
    }
    if |IdSet(g)| >= 1 {
      var x :| x in IdSet(g);
      RootIsRoot(parent, rank, x);
    }
  }
}

=== FILE: prim.dfy ===
/** `MinimalSpanningTree.Prim.calculate`: keys and an included flag per
    vertex, |V| - 1 rounds that include the not-yet-included vertex of
    least key and lower the keys of its neighbours. Vertices are addressed
    by their position in the id list, and a missing edge weighs `Inf`. */
module Prim {
  import opened Wrappers
  import opened Graphs
  import opened ShortestPaths
  import opened Walks

  /*************************************************************************
   * Positions
   *************************************************************************/

  /** The id of the vertex at position `a`. */
  function IdAt(g: Graph, a: nat): Id
    requires a < |g.vertices|
  {
    g.vertices[a].id
  }

  /** The weight between the vertices at positions `a` and `b`, as the
      throwing `getWeight` reads it, with `Inf` for "no edge". */
  function Between(g: Graph, a: nat, b: nat): (c: Cost)
    requires a < |g.vertices| && b < |g.vertices|
    ensures c.Fin? <==> Linked(g.edges, IdAt(g, a), IdAt(g, b))
    ensures c.Fin? ==> exists e :: e in g.edges && e.Connects(IdAt(g, a), IdAt(g, b)) && e.weight == c.n
  {
    match Weight(g.edges, IdAt(g, a), IdAt(g, b))
    case Some(w) => Fin(w)
    case None => Inf
  }

  lemma BetweenSymmetric(g: Graph, a: nat, b: nat)
    requires a < |g.vertices| && b < |g.vertices|
    ensures Between(g, a, b) == Between(g, b, a)
  {
    EdgeIndexSymmetric(g.edges, IdAt(g, a), IdAt(g, b));
  }

  /*************************************************************************
   * The arrays
   *************************************************************************/

  /** The arrays of `Prim.calculate`: `key`, the included flags `mstSet`,
      and the two edge lists: `added`, every edge handed to
      `resultEdges.create`, and `tree`, each included vertex's connector. */
  datatype State = State(key: seq<Cost>, inTree: seq<bool>, parent: seq<Option<nat>>, added: seq<Edge>, tree: seq<Edge>)

  ghost predicate Sized(g: Graph, s: State) {
    && |s.key| == |g.vertices| && |s.inTree| == |g.vertices| && |s.parent| == |g.vertices|
    && forall v :: 0 <= v < |s.parent| && s.parent[v].Some? ==> s.parent[v].value < |g.vertices|
  }

  /** Before the first round: key 0 at position 0, `Double.MAX_VALUE`
      (here `Inf`) elsewhere, nothing included. */
  function Start(n: nat): (s: State)
    requires n >= 1
    ensures |s.key| == n && |s.inTree| == n && |s.parent| == n
    ensures s.key[0] == Fin(0) && forall v :: 1 <= v < n ==> s.key[v] == Inf
    ensures forall v :: 0 <= v < n ==> !s.inTree[v] && s.parent[v].None?
    ensures s.added == [] && s.tree == []
  {
    State([Fin(0)] + seq(n - 1, _ => Inf), seq(n, _ => false), seq(n, _ => None), [], [])
  }

  /** The selection loop: scanning positions upward, the first position not
      yet included whose key is strictly below every earlier candidate's.
      That is the lowest position of least key among those not included. */
  function Lowest(key: seq<Cost>, inTree: seq<bool>, upto: nat): (u: Option<nat>)
    requires |key| == |inTree| && upto <= |key|
    ensures u.None? <==> forall i :: 0 <= i < upto ==> inTree[i]
    ensures u.Some? ==> u.value < upto && !inTree[u.value]
    ensures u.Some? ==> forall i :: 0 <= i < upto && !inTree[i] ==> key[u.value].AtMost(key[i])
    ensures u.Some? ==> forall i :: 0 <= i < u.value && !inTree[i] ==> key[u.value].Below(key[i])
  {
    if upto == 0 then None
    else
      var u := Lowest(key, inTree, upto - 1);
      var i := upto - 1;
      if !inTree[i] && (u.None? || key[i].Below(key[u.value])) then Some(i) else u
  }

  /** Whether relaxing from `x` lowers the key of `v`: `v` is not included
      and the edge x-v is strictly lighter than its key. */
  predicate Improves(g: Graph, s: State, x: nat, v: nat)
    requires x < |g.vertices| && v < |g.vertices| && |s.key| == |s.inTree| == |g.vertices|
  {
    !s.inTree[v] && Between(g, x, v).Below(s.key[v])
  }

  /** The relaxation loop over positions 0 .. upto-1: an improved vertex
      takes the edge's weight as key and `x` as parent, and the edge goes to
      `resultEdges.create`. Nothing else changes. */
  function RelaxUpTo(g: Graph, s: State, x: nat, upto: nat): (s': State)
    requires Sized(g, s) && x < |g.vertices| && upto <= |g.vertices|
    ensures Sized(g, s') && s'.inTree == s.inTree && s'.tree == s.tree
    ensures forall v :: 0 <= v < upto && Improves(g, s, x, v) ==>
      s'.key[v] == Between(g, x, v) && s'.parent[v] == Some(x)
    ensures forall v :: 0 <= v < |g.vertices| && !(v < upto && Improves(g, s, x, v)) ==>
      s'.key[v] == s.key[v] && s'.parent[v] == s.parent[v]
    ensures |s.added| <= |s'.added| <= |s.added| + upto && s'.added[..|s.added|] == s.added
  {
    if upto == 0 then s
    else
      var t := RelaxUpTo(g, s, x, upto - 1);
      var v := upto - 1;
      assert Improves(g, t, x, v) == Improves(g, s, x, v);
      if Improves(g, t, x, v) then
        var w := Between(g, x, v);
        assert (t.added + [Edge(IdAt(g, x), IdAt(g, v), w.n)])[..|s.added|] == t.added[..|s.added|];
        t.(key := t.key[v := w], parent := t.parent[v := Some(x)], added := t.added + [Edge(IdAt(g, x), IdAt(g, v), w.n)])
      else t
  }

  /** The edge that joins `x` to its parent in the graph, if it has one. */
  function Connector(g: Graph, s: State, x: nat): (c: seq<Edge>)
    requires Sized(g, s) && x < |g.vertices|
    ensures |c| <= 1 && forall e :: e in c ==> e in g.edges
    ensures s.parent[x].None? ==> c == []
    ensures forall e :: e in c ==> e.Connects(IdAt(g, s.parent[x].value), IdAt(g, x))
  {
    match s.parent[x]
    case None => []
    case Some(p) =>
      match EdgeIndex(g.edges, IdAt(g, p), IdAt(g, x))
      case None => []
      case Some(k) => [g.edges[k]]
  }

  /** One round of the outer loop: include the lowest vertex of least key,
      record its connector, relax from it. With every vertex included there
      is nothing to do. */
  function Round(g: Graph, s: State): (s': State)
    requires Sized(g, s)
    ensures Sized(g, s')
    ensures Lowest(s.key, s.inTree, |g.vertices|).None? ==> s' == s
    ensures Lowest(s.key, s.inTree, |g.vertices|).Some? ==>
      var x := Lowest(s.key, s.inTree, |g.vertices|).value;
      s'.inTree == s.inTree[x := true] && s'.tree == s.tree + Connector(g, s, x)
    ensures forall v :: 0 <= v < |g.vertices| ==> s'.key[v].AtMost(s.key[v])
    ensures (forall e :: e in s.tree ==> e in g.edges) ==> forall e :: e in s'.tree ==> e in g.edges
  {
    match Lowest(s.key, s.inTree, |g.vertices|)
    case None => s
    case Some(x) =>
      var s1 := s.(inTree := s.inTree[x := true], tree := s.tree + Connector(g, s, x));
      RelaxUpTo(g, s1, x, |g.vertices|)
  }

  /** `count` rounds from `s`. */
  function Rounds(g: Graph, s: State, count: nat): (s': State)
    requires Sized(g, s)
    ensures Sized(g, s')
    ensures (forall e :: e in s.tree ==> e in g.edges) ==> forall e :: e in s'.tree ==> e in g.edges
  {
    if count == 0 then s else Round(g, Rounds(g, s, count - 1))
  }

  /*************************************************************************
   * The two results
   *************************************************************************/

  /** `Prim.calculate` with its lookups going through positions but its
      result as written: |V| - 1 rounds, and the result is every edge any
      round handed to `resultEdges.create`, superseded ones included.
      `key[0] = 0.0` on an empty graph reads past the end of the array. */
  function PrimKeepingAllEdges(g: Graph): (r: Result<seq<Edge>>)
    ensures r.Err? <==> |g.vertices| == 0
    ensures r.Err? ==> r.error == OutOfBounds
  {
    var n := |g.vertices|;
    if n == 0 then Err(OutOfBounds) else Ok(Rounds(g, Start(n), n - 1).added)
  }

  /** Prim's tree: every vertex is included in turn and contributes the
      edge to its parent, so each vertex keeps exactly its final connector.
      That it is a spanning forest is `PrimProof.PrimForest` and
      `PrimProof.PrimSpans`. */
  function Prim(g: Graph): (tree: seq<Edge>)
    ensures forall e :: e in tree ==> e in g.edges
    ensures |g.vertices| == 0 ==> tree == []
  {
    var n := |g.vertices|;
    if n == 0 then [] else Rounds(g, Start(n), n).tree
  }

  /*************************************************************************
   * As written: positions taken for ids
   *************************************************************************/

  /** The relaxation loop exactly as written: `getWeight(u, v)` with the
      positions `u` and `v` passed as vertex ids, called before the
      included test, so a pair without an edge throws. An improving edge
      goes to `resultEdges.create(u, v, weight)`, an `Edges` of the same
      graph: it names the positions too, and throws like `Edges.create`
      when a position is not a live id or an edge handed over before
      already connects the pair. */
  function RelaxRawUpTo(g: Graph, s: State, x: nat, upto: nat): (r: Result<State>)
    requires Sized(g, s) && x < |g.vertices| && upto <= |g.vertices|
    ensures r.Ok? ==> Sized(g, r.value)
    ensures r.Err? ==> r.error in {NotFound, AlreadyExists}
    ensures r.Ok? ==> forall v :: 0 <= v < upto ==> GetWeight(g, x, v).Ok?
    ensures (exists v :: 0 <= v < upto && GetWeight(g, x, v).Err?) ==> r.Err?
    ensures upto >= 1 && GetWeight(g, x, 0).Err? ==> r == Err(NotFound)
  {
    if upto == 0 then Ok(s)
    else
      match RelaxRawUpTo(g, s, x, upto - 1)
      case Err(e) => Err(e)
      case Ok(t) =>
        var v := upto - 1;
        match GetWeight(g, x, v)
        case Err(e) => Err(e)
        case Ok(w) =>
          if !t.inTree[v] && Fin(w).Below(t.key[v]) then
            match CreateEdge(Graph(g.vertices, t.added), x, v, w)
            case Err(e) => Err(e)
            case Ok(h) => Ok(t.(key := t.key[v := Fin(w)], parent := t.parent[v := Some(x)], added := h.edges))
          else Ok(t)
  }

  /** One round as written: select, include, relax with raw lookups. */
  function RoundRaw(g: Graph, s: State): (r: Result<State>)
    requires Sized(g, s)
    ensures r.Ok? ==> Sized(g, r.value)
  {
    match Lowest(s.key, s.inTree, |g.vertices|)
    case None => Ok(s)
    case Some(x) => RelaxRawUpTo(g, s.(inTree := s.inTree[x := true]), x, |g.vertices|)
  }

  /** `count` rounds as written; the first exception ends the run. */
  function RoundsRaw(g: Graph, s: State, count: nat): (r: Result<State>)
    requires Sized(g, s)
    ensures r.Ok? ==> Sized(g, r.value)
  {
    if count == 0 then Ok(s)
    else
      match RoundsRaw(g, s, count - 1)
      case Err(e) => Err(e)
      case Ok(t) => RoundRaw(g, t)
  }

  /** `Prim.calculate` as written: the empty graph fails on `key[0]`;
      otherwise |V| - 1 rounds with raw lookups, and the result is every
      edge handed to `resultEdges.create`. */
  function PrimAsWritten(g: Graph): (r: Result<seq<Edge>>)
    ensures |g.vertices| == 0 ==> r == Err(OutOfBounds)
    ensures |g.vertices| == 1 ==> r == Ok([])
  {
    var n := |g.vertices|;
    if n == 0 then Err(OutOfBounds)
    else
      match RoundsRaw(g, Start(n), n - 1)
      case Err(e) => Err(e)
      case Ok(t) => Ok(t.added)
  }

  /** Vertex ids start at 1, so on a valid graph no edge touches id 0 and
      the very first lookup, `getWeight(0, 0)`, throws: as written, Prim
      fails on every valid graph with two or more vertices. */
  lemma PrimAsWrittenThrows(g: Graph)
    requires Valid(g) && |g.vertices| >= 2
    ensures PrimAsWritten(g) == Err(NotFound)
  {
    var n := |g.vertices|;
    var s := Start(n);
    assert GetWeight(g, 0, 0).Err? by {
      forall e | e in g.edges ensures !e.Touches(0) {
        assert ExistsVertex(g, e.v1) && ExistsVertex(g, e.v2);
      }
    }
    StartPicksFirst(s, n);
    assert RoundRaw(g, s).Err?;
    RoundsRawErr(g, s, n - 1);
  }

  /** Before the first round the selection picks position 0. */
  lemma StartPicksFirst(s: State, n: nat)
    requires n >= 1 && s == Start(n)
    ensures Lowest(s.key, s.inTree, n) == Some(0)
  {
    ZeroKeyFirst(s.key, s.inTree, n);
  }

  /** Position 0, not yet included and keyed 0, is always selected: no key
      is below 0 and no position comes before it. */
  lemma ZeroKeyFirst(key: seq<Cost>, inTree: seq<bool>, n: nat)
    requires |key| == |inTree| && 1 <= n <= |key|
    requires !inTree[0] && key[0] == Fin(0)
    ensures Lowest(key, inTree, n) == Some(0)
  {
    assert forall c: Cost :: !c.Below(Fin(0));
  }

  /** Once the first round throws, every longer run throws the same. */
  lemma {:induction false} RoundsRawErr(g: Graph, s: State, count: nat)
    requires Sized(g, s) && count >= 1 && RoundRaw(g, s).Err?
    ensures RoundsRaw(g, s, count) == RoundRaw(g, s)
  {
    if count > 1 {
      RoundsRawErr(g, s, count - 1);
    }
  }

  /*************************************************************************
   * The triangle
   *************************************************************************/

  /** Ids 1, 2, 3 with edges 1-2 of weight 5, 1-3 and 2-3 of weight 1. */
  function Triangle(): Graph {
    Graph([Vertex(1, "1"), Vertex(2, "2"), Vertex(3, "3")], [Edge(1, 2, 5), Edge(1, 3, 1), Edge(2, 3, 1)])
  }

  /** On the triangle, with lookups going through positions, the first
      round keys 2 at 5 and 3 at 1; the second includes 3 and lowers the key
      of 2 to 1. Keeping every edge handed to `resultEdges.create`, as the
      code does, gives all three edges, which close a cycle; the connectors
      are the two edges of weight 1. `TriangleAtZeroAsWritten` shows the
      same on ids the raw lookups accept. */
  lemma TriangleKeepsSupersededEdge(g: Graph)
    requires g == Triangle()
    ensures PrimKeepingAllEdges(g) == Ok([Edge(1, 2, 5), Edge(1, 3, 1), Edge(3, 2, 1)])
    ensures !Forest(PrimKeepingAllEdges(g).value)
    ensures |PrimKeepingAllEdges(g).value| > |g.vertices| - 1
    ensures Prim(g) == [Edge(1, 3, 1), Edge(2, 3, 1)]
  {
    TriangleLinks(g);
    TriangleRuns(g);
    TriangleCycle(PrimKeepingAllEdges(g).value);
  }

  /** The three rounds on any graph that reads like the triangle. */
  lemma TriangleRuns(g: Graph)
    requires TriangleShape(g)
    ensures PrimKeepingAllEdges(g) == Ok([Edge(1, 2, 5), Edge(1, 3, 1), Edge(3, 2, 1)])
    ensures Prim(g) == [Edge(1, 3, 1), Edge(2, 3, 1)]
  {
    var s0 := Start(3);
    var s1 := TriangleFirstRound(g, s0);
    var s2 := TriangleSecondRound(g, s1);
    var s3 := TriangleThirdRound(g, s2);
    assert Rounds(g, s0, 1) == s1;
    assert Rounds(g, s0, 2) == s2;
    assert Rounds(g, s0, 3) == s3;
  }

  /** The three edges handed over on the triangle close a cycle. */
  lemma TriangleCycle(added: seq<Edge>)
    requires added == [Edge(1, 2, 5), Edge(1, 3, 1), Edge(3, 2, 1)]
    ensures !Forest(added)
  {
    var front := added[..2];
    assert front == [Edge(1, 2, 5), Edge(1, 3, 1)];
    assert IsWalk(front, [3, 1, 2]) by {
      assert Edge(1, 3, 1) in front && Edge(1, 3, 1).Connects(3, 1);
      assert Edge(1, 2, 5) in front && Edge(1, 2, 5).Connects(1, 2);
    }
    assert Connected(front, 3, 2);
  }

  /** What the rounds on the triangle read of it: its positions, the
      weights between them and where the connectors sit. */
  ghost predicate TriangleShape(g: Graph) {
    && |g.vertices| == 3 && |g.edges| == 3
    && IdAt(g, 0) == 1 && IdAt(g, 1) == 2 && IdAt(g, 2) == 3
    && g.edges[1] == Edge(1, 3, 1) && g.edges[2] == Edge(2, 3, 1)
    && Between(g, 0, 1) == Fin(5) && Between(g, 0, 2) == Fin(1) && Between(g, 2, 1) == Fin(1)
    && EdgeIndex(g.edges, 1, 3) == Some(1) && EdgeIndex(g.edges, 3, 2) == Some(2)
  }

  lemma TriangleLinks(g: Graph)
    requires g == Triangle()
    ensures TriangleShape(g)
  {
    TriangleLinksAt(g);
  }

  /** `TriangleLinks` from the triangle's vertex ids and edges one by one. */
  lemma TriangleLinksAt(g: Graph)
    requires |g.vertices| == 3 && |g.edges| == 3
    requires g.vertices[0].id == 1 && g.vertices[1].id == 2 && g.vertices[2].id == 3
    requires g.edges[0] == Edge(1, 2, 5) && g.edges[1] == Edge(1, 3, 1) && g.edges[2] == Edge(2, 3, 1)
    ensures TriangleShape(g)
  {
    var es := g.edges;
    IndexAt(es, 1, 2, 0);
    IndexAt(es, 1, 3, 1);
    IndexAt(es, 3, 2, 2);
  }

  /** The first edge connecting `a` and `b` sits at `k`: it is the one
      `getWeight` reads. */
  lemma IndexAt(es: seq<Edge>, a: Id, b: Id, k: nat)
    requires k < |es| && es[k].Connects(a, b)
    requires forall j :: 0 <= j < k ==> !es[j].Connects(a, b)
    ensures EdgeIndex(es, a, b) == Some(k) && Weight(es, a, b) == Some(es[k].weight)
  {
    assert es[k] in es;
  }

  lemma TriangleFirstRound(g: Graph, s: State) returns (s': State)
    requires TriangleShape(g) && Sized(g, s)
    requires s.key[0] == Fin(0) && s.key[1] == Inf && s.key[2] == Inf
    requires forall v :: 0 <= v < 3 ==> !s.inTree[v] && s.parent[v].None?
    requires s.added == [] && s.tree == []
    ensures s' == Round(g, s)
    ensures s'.key[0] == Fin(0) && s'.key[1] == Fin(5) && s'.key[2] == Fin(1)
    ensures s'.inTree[0] && !s'.inTree[1] && !s'.inTree[2]
    ensures s'.parent[1] == Some(0) && s'.parent[2] == Some(0)
    ensures s'.added == [Edge(1, 2, 5), Edge(1, 3, 1)] && s'.tree == []
  {
    ZeroKeyFirst(s.key, s.inTree, 3);
    assert Connector(g, s, 0) == [];
    var t := s.(inTree := s.inTree[0 := true], tree := s.tree + Connector(g, s, 0));
    RoundRelaxes(g, s, 0);
    s' := TriangleFirstRelax(g, t);
  }

  /** A round includes the selected position, records its connector and
      relaxes from it. */
  lemma RoundRelaxes(g: Graph, s: State, x: nat)
    requires Sized(g, s) && Lowest(s.key, s.inTree, |g.vertices|) == Some(x)
    ensures Round(g, s) == RelaxUpTo(g, s.(inTree := s.inTree[x := true], tree := s.tree + Connector(g, s, x)), x, |g.vertices|)
  {
  }

  /** The relaxation from position 0 in the first round: positions 1 and 2
      improve, through 1-2 and 1-3. */
  lemma TriangleFirstRelax(g: Graph, t: State) returns (s': State)
    requires TriangleShape(g) && Sized(g, t)
    requires t.key[0] == Fin(0) && t.key[1] == Inf && t.key[2] == Inf
    requires t.inTree[0] && !t.inTree[1] && !t.inTree[2]
    requires t.added == [] && t.tree == []
    ensures s' == RelaxUpTo(g, t, 0, 3)
    ensures s'.key[0] == Fin(0) && s'.key[1] == Fin(5) && s'.key[2] == Fin(1)
    ensures s'.inTree[0] && !s'.inTree[1] && !s'.inTree[2]
    ensures s'.parent[1] == Some(0) && s'.parent[2] == Some(0)
    ensures s'.added == [Edge(1, 2, 5), Edge(1, 3, 1)] && s'.tree == []
  {
    s' := RelaxUpTo(g, t, 0, 3);
    var r1 := RelaxUpTo(g, t, 0, 1);
    assert r1 == t by {
      assert RelaxUpTo(g, t, 0, 0) == t;
      assert !Improves(g, t, 0, 0);
    }
    var r2 := RelaxUpTo(g, t, 0, 2);
    assert Improves(g, r1, 0, 1);
    assert r2.added == [Edge(1, 2, 5)];
    assert r2.key[2] == Inf && !r2.inTree[2];
    assert Improves(g, r2, 0, 2);
  }

  lemma TriangleSecondRound(g: Graph, s: State) returns (s': State)
    requires TriangleShape(g) && Sized(g, s)
    requires s.key[0] == Fin(0) && s.key[1] == Fin(5) && s.key[2] == Fin(1)
    requires s.inTree[0] && !s.inTree[1] && !s.inTree[2]
    requires s.parent[1] == Some(0) && s.parent[2] == Some(0)
    requires s.added == [Edge(1, 2, 5), Edge(1, 3, 1)] && s.tree == []
    ensures s' == Round(g, s)
    ensures s'.key[1] == Fin(1) && s'.key[2] == Fin(1)
    ensures s'.inTree[0] && !s'.inTree[1] && s'.inTree[2]
    ensures s'.parent[1] == Some(2)
    ensures s'.added == [Edge(1, 2, 5), Edge(1, 3, 1), Edge(3, 2, 1)] && s'.tree == [Edge(1, 3, 1)]
  {
    assert Lowest(s.key, s.inTree, 3) == Some(2) by {
      assert !s.key[1].AtMost(s.key[2]);
    }
    assert Connector(g, s, 2) == [Edge(1, 3, 1)];
    var t := s.(inTree := s.inTree[2 := true], tree := s.tree + Connector(g, s, 2));
    s' := TriangleSecondRelax(g, t);
  }

  /** The relaxation from position 2 in the second round: only position 1
      improves, through the edge 3-2. */
  lemma TriangleSecondRelax(g: Graph, t: State) returns (s': State)
    requires TriangleShape(g) && Sized(g, t)
    requires t.key[0] == Fin(0) && t.key[1] == Fin(5) && t.key[2] == Fin(1)
    requires t.inTree[0] && !t.inTree[1] && t.inTree[2]
    requires t.parent[1] == Some(0)
    requires t.added == [Edge(1, 2, 5), Edge(1, 3, 1)] && t.tree == [Edge(1, 3, 1)]
    ensures s' == RelaxUpTo(g, t, 2, 3)
    ensures s'.key[1] == Fin(1) && s'.key[2] == Fin(1)
    ensures s'.inTree[0] && !s'.inTree[1] && s'.inTree[2]
    ensures s'.parent[1] == Some(2)
    ensures s'.added == [Edge(1, 2, 5), Edge(1, 3, 1), Edge(3, 2, 1)] && s'.tree == [Edge(1, 3, 1)]
  {
    s' := RelaxUpTo(g, t, 2, 3);
    var r1 := RelaxUpTo(g, t, 2, 1);
    assert r1 == t by {
      assert RelaxUpTo(g, t, 2, 0) == t;
      assert !Improves(g, t, 2, 0);
    }
    var r2 := RelaxUpTo(g, t, 2, 2);
    assert Improves(g, r1, 2, 1);
    assert r2.added == t.added + [Edge(3, 2, 1)];
    assert !Improves(g, r2, 2, 2);
  }

  lemma TriangleThirdRound(g: Graph, s: State) returns (s': State)
    requires TriangleShape(g) && Sized(g, s)
    requires s.key[1] == Fin(1) && s.key[2] == Fin(1)
    requires s.inTree[0] && !s.inTree[1] && s.inTree[2]
    requires s.parent[1] == Some(2) && s.tree == [Edge(1, 3, 1)]
    ensures s' == Round(g, s)
    ensures s'.tree == [Edge(1, 3, 1), Edge(2, 3, 1)]
  {
    assert Lowest(s.key, s.inTree, 3) == Some(1);
    assert Connector(g, s, 1) == [Edge(2, 3, 1)];
    s' := Round(g, s);
  }

  /*************************************************************************
   * The triangle on ids 0, 1, 2, as written
   *************************************************************************/

  /** Ids 0, 1, 2 with edges 0-1 of weight 5, 0-2 and 1-2 of weight 1.
      Every position is a live id here, so the raw lookups and
      `resultEdges.create` find what they ask. No public path of the
      library builds this graph: `create` allocates ids from 1, and `load`
      puts vertices past the `ids` list, so its first edge line is refused.
      On every graph the library can build, the first lookup throws first
      (`PrimAsWrittenThrows`), and what this graph shows stays latent. */
  function TriangleAtZero(): Graph {
    Graph([Vertex(0, "0"), Vertex(1, "1"), Vertex(2, "2")], [Edge(0, 1, 5), Edge(0, 2, 1), Edge(1, 2, 1)])
  }

  /** As written on that triangle the two rounds hand three edges to
      `resultEdges.create`: 0-1 (5) and 0-2 (1) from position 0, then 2-1 (1)
      once 2 is included, which supersedes 0-1. The result closes a cycle and
      has more than |V| - 1 edges. */
  lemma TriangleAtZeroAsWritten(g: Graph)
    requires g == TriangleAtZero()
    ensures PrimAsWritten(g) == Ok([Edge(0, 1, 5), Edge(0, 2, 1), Edge(2, 1, 1)])
    ensures !Forest(PrimAsWritten(g).value)
    ensures |PrimAsWritten(g).value| > |g.vertices| - 1
  {
    ZeroLookups(g);
    ZeroRuns(g);
    ZeroCycle(PrimAsWritten(g).value);
  }

  /** The two raw rounds on any graph that reads like the triangle. */
  lemma ZeroRuns(g: Graph)
    requires ZeroShape(g)
    ensures PrimAsWritten(g) == Ok([Edge(0, 1, 5), Edge(0, 2, 1), Edge(2, 1, 1)])
  {
    var s0 := Start(3);
    StartPicksFirst(s0, 3);
    var s1 := RawFirstRound(g, s0);
    var s2 := RawSecondRound(g, s1);
    assert RoundsRaw(g, s0, 1) == Ok(s1);
    assert RoundsRaw(g, s0, 2) == Ok(s2);
  }

  /** What the raw rounds read of the triangle on ids 0, 1, 2: `getWeight`
      with equal ids returns the first edge touching that id. */
  ghost predicate ZeroShape(g: Graph) {
    && |g.vertices| == 3
    && ExistsVertex(g, 0) && ExistsVertex(g, 1) && ExistsVertex(g, 2)
    && GetWeight(g, 0, 0) == Ok(5) && GetWeight(g, 0, 1) == Ok(5) && GetWeight(g, 0, 2) == Ok(1)
    && GetWeight(g, 2, 0) == Ok(1) && GetWeight(g, 2, 1) == Ok(1) && GetWeight(g, 2, 2) == Ok(1)
  }

  lemma ZeroLookups(g: Graph)
    requires g == TriangleAtZero()
    ensures ZeroShape(g)
  {
    assert g.vertices[0].id == 0 && g.vertices[1].id == 1 && g.vertices[2].id == 2;
    LookupsFromZero(g);
    LookupsFromTwo(g);
  }

  lemma LookupsFromZero(g: Graph)
    requires g == TriangleAtZero()
    ensures GetWeight(g, 0, 0) == Ok(5) && GetWeight(g, 0, 1) == Ok(5) && GetWeight(g, 0, 2) == Ok(1)
  {
    var es := g.edges;
    assert es[0] == Edge(0, 1, 5) && es[1] == Edge(0, 2, 1);
    FirstConnecting(g, 0, 0, 0);
    FirstConnecting(g, 0, 1, 0);
    FirstConnecting(g, 0, 2, 1);
  }

  lemma LookupsFromTwo(g: Graph)
    requires g == TriangleAtZero()
    ensures GetWeight(g, 2, 0) == Ok(1) && GetWeight(g, 2, 1) == Ok(1) && GetWeight(g, 2, 2) == Ok(1)
  {
    var es := g.edges;
    assert es[0] == Edge(0, 1, 5) && es[1] == Edge(0, 2, 1) && es[2] == Edge(1, 2, 1);
    FirstConnecting(g, 2, 0, 1);
    FirstConnecting(g, 2, 1, 2);
    FirstConnecting(g, 2, 2, 1);
  }

  /** `getWeight(a, b)` reads the first edge that connects `a` and `b`. */
  lemma FirstConnecting(g: Graph, a: Id, b: Id, k: nat)
    requires k < |g.edges| && g.edges[k].Connects(a, b)
    requires forall j :: 0 <= j < k ==> !g.edges[j].Connects(a, b)
    ensures GetWeight(g, a, b) == Ok(g.edges[k].weight)
  {
    assert g.edges[k] in g.edges;
    var i := EdgeIndex(g.edges, a, b);
    assert i.Some?;
  }

  /** A raw round includes the selected position and relaxes from it. */
  lemma RoundRawRelaxes(g: Graph, s: State, x: nat)
    requires Sized(g, s) && Lowest(s.key, s.inTree, |g.vertices|) == Some(x)
    ensures RoundRaw(g, s) == RelaxRawUpTo(g, s.(inTree := s.inTree[x := true]), x, |g.vertices|)
  {
  }

  /** A raw relaxation step on a position already included reads the
      weight and changes nothing. */
  lemma RawSkip(g: Graph, s: State, x: nat, v: nat, t: State)
    requires Sized(g, s) && x < |g.vertices| && v < |g.vertices|
    requires RelaxRawUpTo(g, s, x, v) == Ok(t) && GetWeight(g, x, v).Ok? && t.inTree[v]
    ensures RelaxRawUpTo(g, s, x, v + 1) == Ok(t)
  {
  }

  /** A raw relaxation step on a position not yet included whose key the
      weight lowers: the key, the parent and the edges handed over change,
      provided both positions are live ids and no edge handed over so far
      connects them. */
  lemma RawImprove(g: Graph, s: State, x: nat, v: nat, t: State, w: nat)
    requires Sized(g, s) && x < |g.vertices| && v < |g.vertices|
    requires RelaxRawUpTo(g, s, x, v) == Ok(t) && GetWeight(g, x, v) == Ok(w)
    requires !t.inTree[v] && Fin(w).Below(t.key[v])
    requires ExistsVertex(g, x) && ExistsVertex(g, v)
    requires forall e :: e in t.added ==> !e.Connects(x, v)
    ensures RelaxRawUpTo(g, s, x, v + 1) ==
      Ok(t.(key := t.key[v := Fin(w)], parent := t.parent[v := Some(x)], added := t.added + [Edge(x, v, w)]))
  {
    var h := Graph(g.vertices, t.added);
    assert ExistsVertex(h, x) && ExistsVertex(h, v);
    assert CreateEdge(h, x, v, w) == Ok(Graph(g.vertices, t.added + [Edge(x, v, w)]));
  }

  /** The first raw round picks position 0 and hands over 0-1 and 0-2. */
  lemma RawFirstRound(g: Graph, s: State) returns (s': State)
    requires Sized(g, s) && |g.vertices| == 3
    requires GetWeight(g, 0, 0).Ok? && GetWeight(g, 0, 1) == Ok(5) && GetWeight(g, 0, 2) == Ok(1)
    requires ExistsVertex(g, 0) && ExistsVertex(g, 1) && ExistsVertex(g, 2)
    requires s.key[0] == Fin(0) && s.key[1] == Inf && s.key[2] == Inf
    requires !s.inTree[0] && !s.inTree[1] && !s.inTree[2]
    requires s.added == [] && Lowest(s.key, s.inTree, 3) == Some(0)
    ensures RoundRaw(g, s) == Ok(s') && Sized(g, s')
    ensures s'.key[0] == Fin(0) && s'.key[1] == Fin(5) && s'.key[2] == Fin(1)
    ensures s'.inTree[0] && !s'.inTree[1] && !s'.inTree[2]
    ensures s'.added == [Edge(0, 1, 5), Edge(0, 2, 1)]
  {
    var t := s.(inTree := s.inTree[0 := true]);
    RoundRawRelaxes(g, s, 0);
    var t2 := RawFirstTwo(g, t);
    s' := t2.(key := t2.key[2 := Fin(1)], parent := t2.parent[2 := Some(0)], added := t2.added + [Edge(0, 2, 1)]);
    assert !t2.inTree[2] && t2.key[2] == Inf;
    assert !Edge(0, 1, 5).Connects(0, 2);
    RawImprove(g, t, 0, 2, t2, 1);
    assert s'.added == [Edge(0, 1, 5), Edge(0, 2, 1)];
  }

  /** Positions 0 and 1 of the first relaxation: 0 is included, 1 takes 0-1. */
  lemma RawFirstTwo(g: Graph, t: State) returns (t2: State)
    requires Sized(g, t) && |g.vertices| == 3
    requires GetWeight(g, 0, 0).Ok? && GetWeight(g, 0, 1) == Ok(5)
    requires ExistsVertex(g, 0) && ExistsVertex(g, 1)
    requires t.key[1] == Inf && t.key[2] == Inf
    requires t.inTree[0] && !t.inTree[1] && !t.inTree[2] && t.added == []
    ensures RelaxRawUpTo(g, t, 0, 2) == Ok(t2) && Sized(g, t2)
    ensures t2 == t.(key := t.key[1 := Fin(5)], parent := t.parent[1 := Some(0)], added := [Edge(0, 1, 5)])
  {
    assert RelaxRawUpTo(g, t, 0, 0) == Ok(t);
    RawSkip(g, t, 0, 0, t);
    RawImprove(g, t, 0, 1, t, 5);
    t2 := t.(key := t.key[1 := Fin(5)], parent := t.parent[1 := Some(0)], added := t.added + [Edge(0, 1, 5)]);
    assert t2.added == [Edge(0, 1, 5)];
  }

  /** The second raw round picks position 2 and hands over 2-1. */
  lemma RawSecondRound(g: Graph, s: State) returns (s': State)
    requires Sized(g, s) && |g.vertices| == 3
    requires GetWeight(g, 2, 0).Ok? && GetWeight(g, 2, 1) == Ok(1) && GetWeight(g, 2, 2).Ok?
    requires ExistsVertex(g, 1) && ExistsVertex(g, 2)
    requires s.key[0] == Fin(0) && s.key[1] == Fin(5) && s.key[2] == Fin(1)
    requires s.inTree[0] && !s.inTree[1] && !s.inTree[2]
    requires s.added == [Edge(0, 1, 5), Edge(0, 2, 1)]
    ensures RoundRaw(g, s) == Ok(s')
    ensures s'.added == [Edge(0, 1, 5), Edge(0, 2, 1), Edge(2, 1, 1)]
  {
    assert Lowest(s.key, s.inTree, 3) == Some(2) by {
      assert !s.key[1].AtMost(s.key[2]);
    }
    RoundRawRelaxes(g, s, 2);
    s' := RawSecondRelax(g, s.(inTree := s.inTree[2 := true]));
  }

  /** The relaxation from position 2: only position 1 improves, through 2-1. */
  lemma RawSecondRelax(g: Graph, t: State) returns (s': State)
    requires Sized(g, t) && |g.vertices| == 3
    requires GetWeight(g, 2, 0).Ok? && GetWeight(g, 2, 1) == Ok(1) && GetWeight(g, 2, 2).Ok?
    requires ExistsVertex(g, 1) && ExistsVertex(g, 2)
    requires t.key[1] == Fin(5)
    requires t.inTree[0] && !t.inTree[1] && t.inTree[2]
    requires t.added == [Edge(0, 1, 5), Edge(0, 2, 1)]
    ensures RelaxRawUpTo(g, t, 2, 3) == Ok(s')
    ensures s'.added == [Edge(0, 1, 5), Edge(0, 2, 1), Edge(2, 1, 1)]
  {
    s' := RawSecondTwo(g, t);
    assert s'.inTree[2];
    RawSkip(g, t, 2, 2, s');
  }

  /** Positions 0 and 1 of the second relaxation: 0 is included, 1 takes 2-1. */
  lemma RawSecondTwo(g: Graph, t: State) returns (t2: State)
    requires Sized(g, t) && |g.vertices| == 3
    requires GetWeight(g, 2, 0).Ok? && GetWeight(g, 2, 1) == Ok(1)
    requires ExistsVertex(g, 1) && ExistsVertex(g, 2)
    requires t.key[1] == Fin(5) && t.inTree[0] && !t.inTree[1]
    requires t.added == [Edge(0, 1, 5), Edge(0, 2, 1)]
    ensures RelaxRawUpTo(g, t, 2, 2) == Ok(t2)
    ensures t2 == t.(key := t.key[1 := Fin(1)], parent := t.parent[1 := Some(2)], added := t.added + [Edge(2, 1, 1)])
  {
    assert RelaxRawUpTo(g, t, 2, 0) == Ok(t);
    RawSkip(g, t, 2, 0, t);
    assert !Edge(0, 1, 5).Connects(2, 1) && !Edge(0, 2, 1).Connects(2, 1);
    RawImprove(g, t, 2, 1, t, 1);
    t2 := t.(key := t.key[1 := Fin(1)], parent := t.parent[1 := Some(2)], added := t.added + [Edge(2, 1, 1)]);
  }

  /** The three edges handed over on that triangle close a cycle. */
  lemma ZeroCycle(added: seq<Edge>)
    requires added == [Edge(0, 1, 5), Edge(0, 2, 1), Edge(2, 1, 1)]
    ensures !Forest(added)
  {
    var front := added[..2];
    assert front == [Edge(0, 1, 5), Edge(0, 2, 1)];
    assert IsWalk(front, [2, 0, 1]) by {
      assert Edge(0, 2, 1) in front && Edge(0, 2, 1).Connects(2, 0);
      assert Edge(0, 1, 5) in front && Edge(0, 1, 5).Connects(0, 1);
    }
    assert Connected(front, 2, 1);
  }
}

=== FILE: prim_proof.dfy ===
/** Why the corrected `Prim` builds a spanning forest. Three invariants hold
    after every round: the tree invariant (graph edges, no cycle, nothing
    touching a vertex not yet included), the key invariant (a key is the
    weight to the parent, at most the weight from any included vertex) and
    the reach invariant (included neighbours are joined in the tree, and
    the current tree is the one every frontier edge leads back to). */
module PrimProof {
  import opened Wrappers
  import opened Graphs
  import opened ShortestPaths
  import opened Walks
  import opened Prim

  /** Distinct positions carry distinct ids. */
  ghost predicate Distinct(g: Graph) {
    forall a, b :: 0 <= a < |g.vertices| && 0 <= b < |g.vertices| && IdAt(g, a) == IdAt(g, b) ==> a == b
  }

  lemma IncreasingDistinct(g: Graph)
    requires IdsIncreasing(g.vertices)
    ensures Distinct(g)
  {
  }

  /** The positions included so far. */
  function Included(s: State): (inc: set<nat>)
    ensures forall a: nat :: a in inc <==> a < |s.inTree| && s.inTree[a]
  {
    set a: nat | a < |s.inTree| && s.inTree[a]
  }

  /*************************************************************************
   * One round, position by position
   *************************************************************************/

  /** What a round that includes `x` does: `x` had the least key among the
      vertices not yet included (and strictly less than the earlier ones),
      its connector joins the tree, and every vertex it improves takes the
      edge from `x` as key and `x` as parent. */
  ghost predicate Step(g: Graph, s: State, x: nat, s': State)
    requires Sized(g, s) && Sized(g, s') && x < |g.vertices|
  {
    && !s.inTree[x]
    && s'.inTree == s.inTree[x := true]
    && s'.tree == s.tree + Connector(g, s, x)
    && (forall v :: 0 <= v < |g.vertices| && !s.inTree[v] ==> s.key[x].AtMost(s.key[v]))
    && (forall v :: 0 <= v < x && !s.inTree[v] ==> s.key[x].Below(s.key[v]))
    && (forall v :: 0 <= v < |g.vertices| ==>
          if !s.inTree[v] && v != x && Between(g, x, v).Below(s.key[v])
          then s'.key[v] == Between(g, x, v) && s'.parent[v] == Some(x)
          else s'.key[v] == s.key[v] && s'.parent[v] == s.parent[v])
  }

  /** A round either finds every vertex included and changes nothing, or
      makes one step. */
  lemma RoundStep(g: Graph, s: State) returns (x: Option<nat>)
    requires Sized(g, s)
    ensures x.None? ==> Round(g, s) == s && forall v :: 0 <= v < |g.vertices| ==> s.inTree[v]
    ensures x.Some? ==> x.value < |g.vertices| && Step(g, s, x.value, Round(g, s))
  {
    x := Lowest(s.key, s.inTree, |g.vertices|);
    if x.Some? {
      var y := x.value;
      var s1 := s.(inTree := s.inTree[y := true], tree := s.tree + Connector(g, s, y));
      assert Round(g, s) == RelaxUpTo(g, s1, y, |g.vertices|);
      forall v | 0 <= v < |g.vertices|
        ensures Improves(g, s1, y, v) == (!s.inTree[v] && v != y && Between(g, y, v).Below(s.key[v]))
      {
      }
    }
  }

  /*************************************************************************
   * The invariants
   *************************************************************************/

  /** After `k` rounds: `k` vertices included; the tree is a forest of graph
      edges that touch only included vertices, one edge fewer than the
      included vertices. */
  ghost predicate TreeInv(g: Graph, s: State, k: nat)
    requires Sized(g, s)
  {
    && |Included(s)| == k
    && (forall e :: e in s.tree ==> e in g.edges)
    && Forest(s.tree)
    && Away(g, s)
    && (if k == 0 then s.tree == [] else |s.tree| < k)
  }

  /** No tree edge touches a vertex not yet included. */
  ghost predicate Away(g: Graph, s: State)
    requires Sized(g, s)
  {
    forall e, v :: e in s.tree && 0 <= v < |g.vertices| && !s.inTree[v] ==> !e.Touches(IdAt(g, v))
  }

  /** A parent is included and the key is the weight to it; a finite key
      without a parent is the start vertex's, before the first round; no
      key exceeds the weight from an included vertex. */
  ghost predicate KeysInv(g: Graph, s: State, k: nat)
    requires Sized(g, s)
  {
    && (forall v :: 0 <= v < |g.vertices| && !s.inTree[v] && s.parent[v].Some? ==>
          s.inTree[s.parent[v].value] && s.key[v] == Between(g, s.parent[v].value, v) && s.key[v].Fin?)
    && (forall v :: 0 <= v < |g.vertices| && !s.inTree[v] && s.parent[v].None? && s.key[v].Fin? ==>
          v == 0 && k == 0)
    && (forall a, v :: 0 <= a < |g.vertices| && 0 <= v < |g.vertices| && s.inTree[a] && !s.inTree[v] ==>
          s.key[v].AtMost(Between(g, a, v)))
  }

  /** `r` is the root of the tree being grown: every included vertex with an
      edge out of the included set, and every parent, is joined to it; any
      two included neighbours are joined in the tree. */
  ghost predicate ReachInv(g: Graph, s: State, r: nat)
    requires Sized(g, s)
  {
    && r < |g.vertices|
    && (forall a, v :: 0 <= a < |g.vertices| && 0 <= v < |g.vertices| && s.inTree[a] && !s.inTree[v] && Between(g, a, v).Fin? ==>
          Connected(s.tree, IdAt(g, a), IdAt(g, r)))
    && (forall v :: 0 <= v < |g.vertices| && !s.inTree[v] && s.parent[v].Some? ==>
          Connected(s.tree, IdAt(g, s.parent[v].value), IdAt(g, r)))
    && (forall a, b :: 0 <= a < |g.vertices| && 0 <= b < |g.vertices| && s.inTree[a] && s.inTree[b] && Between(g, a, b).Fin? ==>
          Connected(s.tree, IdAt(g, a), IdAt(g, b)))
  }

  /** The three invariants together. */
  ghost predicate Inv(g: Graph, s: State, k: nat, r: nat)
    requires Sized(g, s)
  {
    TreeInv(g, s, k) && KeysInv(g, s, k) && ReachInv(g, s, r)
  }

  /*************************************************************************
   * Before the first round
   *************************************************************************/

  lemma StartInv(g: Graph)
    requires |g.vertices| >= 1
    ensures var s := Start(|g.vertices|);
      Sized(g, s) && TreeInv(g, s, 0) && KeysInv(g, s, 0) && ReachInv(g, s, 0)
  {
    var s := Start(|g.vertices|);
    assert Included(s) == {};
  }

  /*************************************************************************
   * Each round keeps them
   *************************************************************************/

  /** Before the first round nothing is included, so position 0, whose key
      alone is finite, is picked. */
  lemma FirstPick(g: Graph, s: State, x: nat, s': State)
    requires Sized(g, s) && Sized(g, s') && x < |g.vertices|
    requires TreeInv(g, s, 0) && KeysInv(g, s, 0) && Step(g, s, x, s')
    ensures x == 0 && s.parent[x].None?
  {
    assert Included(s) == {};
    assert forall a :: 0 <= a < |g.vertices| ==> !s.inTree[a] by {
      forall a | 0 <= a < |g.vertices| ensures !s.inTree[a] {
        assert a !in Included(s);
      }
    }
    assert x != 0 ==> s.key[x].Below(s.key[0]);
  }

  lemma TreeStep(g: Graph, s: State, k: nat, x: nat, s': State)
    requires Sized(g, s) && Sized(g, s') && x < |g.vertices| && Distinct(g)
    requires TreeInv(g, s, k) && KeysInv(g, s, k) && Step(g, s, x, s')
    ensures TreeInv(g, s', k + 1)
  {
    IncludedAdd(s, x, s');
    if k == 0 {
      FirstPick(g, s, x, s');
    }
    assert s.parent[x].Some? ==> s.inTree[s.parent[x].value];
    AppendConnector(g, s, x, s');
    assert |s'.tree| <= |s.tree| + 1;
    assert forall e :: e in s'.tree ==> e in g.edges;
  }

  /** The connector of `x` joins an included vertex to `x`, which no tree
      edge touches, so the tree stays a forest touching only included
      vertices. */
  lemma AppendConnector(g: Graph, s: State, x: nat, s': State)
    requires Sized(g, s) && Sized(g, s') && x < |g.vertices| && Distinct(g)
    requires !s.inTree[x] && (s.parent[x].Some? ==> s.inTree[s.parent[x].value])
    requires s'.inTree == s.inTree[x := true] && s'.tree == s.tree + Connector(g, s, x)
    requires Forest(s.tree) && Away(g, s)
    ensures Forest(s'.tree) && Away(g, s')
  {
    var c := Connector(g, s, x);
    if c != [] {
      var e := c[0];
      var p := s.parent[x].value;
      var ip, ix := IdAt(g, p), IdAt(g, x);
      assert ip != ix;
      assert e.Connects(ip, ix);
      Untouched(s.tree, ip, ix);
      if e.v1 == ix && Connected(s.tree, e.v1, e.v2) {
        ConnectedSym(s.tree, e.v1, e.v2);
      }
      ForestAppend(s.tree, e);
      assert s'.tree == s.tree + [e];
      forall f, v | f in s'.tree && 0 <= v < |g.vertices| && !s'.inTree[v]
        ensures !f.Touches(IdAt(g, v))
      {
        if f == e {
          assert v != p && v != x;
        }
      }
    } else {
      assert s'.tree == s.tree;
    }
  }

  /** Including a vertex not yet included adds one to the count. */
  lemma IncludedAdd(s: State, x: nat, s': State)
    requires x < |s.inTree| && !s.inTree[x] && s'.inTree == s.inTree[x := true]
    ensures |Included(s')| == |Included(s)| + 1
  {
    assert Included(s') == Included(s) + {x};
  }

  lemma KeysStep(g: Graph, s: State, k: nat, x: nat, s': State)
    requires Sized(g, s) && Sized(g, s') && x < |g.vertices|
    requires TreeInv(g, s, k) && KeysInv(g, s, k) && Step(g, s, x, s')
    ensures KeysInv(g, s', k + 1)
  {
    if k == 0 {
      FirstPick(g, s, x, s');
    }
    forall v | 0 <= v < |g.vertices| && !s'.inTree[v]
      ensures s'.parent[v].Some? ==>
        s'.inTree[s'.parent[v].value] && s'.key[v] == Between(g, s'.parent[v].value, v) && s'.key[v].Fin?
      ensures s'.parent[v].None? ==> s'.key[v].Inf?
      ensures forall a :: 0 <= a < |g.vertices| && s'.inTree[a] ==> s'.key[v].AtMost(Between(g, a, v))
    {
      KeysStepAt(g, s, k, x, s', v);
    }
  }

  /** `KeysStep` at one vertex still left out. */
  lemma KeysStepAt(g: Graph, s: State, k: nat, x: nat, s': State, v: nat)
    requires Sized(g, s) && Sized(g, s') && x < |g.vertices|
    requires KeysInv(g, s, k) && Step(g, s, x, s')
    requires k == 0 ==> x == 0
    requires v < |g.vertices| && !s'.inTree[v]
    ensures s'.parent[v].Some? ==>
      s'.inTree[s'.parent[v].value] && s'.key[v] == Between(g, s'.parent[v].value, v) && s'.key[v].Fin?
    ensures s'.parent[v].None? ==> s'.key[v].Inf?
    ensures forall a :: 0 <= a < |g.vertices| && s'.inTree[a] ==> s'.key[v].AtMost(Between(g, a, v))
  {
    assert v != x && !s.inTree[v];
    forall a | 0 <= a < |g.vertices| && s'.inTree[a] ensures s'.key[v].AtMost(Between(g, a, v)) {
      if a != x {
        assert s.key[v].AtMost(Between(g, a, v));
      }
    }
  }

  /** Every vertex that an included vertex has an edge to has a finite
      key, so a vertex picked with no parent means no edge leaves the
      included vertices. */
  lemma NoFrontier(g: Graph, s: State, k: nat, x: nat, s': State, a: nat, v: nat)
    requires Sized(g, s) && Sized(g, s') && x < |g.vertices|
    requires TreeInv(g, s, k) && KeysInv(g, s, k) && Step(g, s, x, s')
    requires s.parent[x].None?
    requires 0 <= a < |g.vertices| && 0 <= v < |g.vertices| && s.inTree[a] && !s.inTree[v]
    ensures Between(g, a, v).Inf?
  {
    assert a in Included(s);
  }

  lemma ReachStep(g: Graph, s: State, k: nat, r: nat, x: nat, s': State) returns (r': nat)
    requires Sized(g, s) && Sized(g, s') && x < |g.vertices|
    requires TreeInv(g, s, k) && KeysInv(g, s, k) && ReachInv(g, s, r) && Step(g, s, x, s')
    ensures ReachInv(g, s', r')
  {
    if s.parent[x].Some? {
      r' := r;
      ReachGrow(g, s, k, r, x, s');
    } else {
      r' := x;
      ReachRestart(g, s, k, r, x, s');
    }
  }

  /** A vertex with a parent hangs off the current tree. */
  lemma ReachGrow(g: Graph, s: State, k: nat, r: nat, x: nat, s': State)
    requires Sized(g, s) && Sized(g, s') && x < |g.vertices|
    requires TreeInv(g, s, k) && KeysInv(g, s, k) && ReachInv(g, s, r) && Step(g, s, x, s')
    requires s.parent[x].Some?
    ensures ReachInv(g, s', r)
  {
    var p := s.parent[x].value;
    var ip, ix, ir := IdAt(g, p), IdAt(g, x), IdAt(g, r);
    assert Between(g, p, x).Fin?;
    var c := Connector(g, s, x);
    assert c != [];
    assert forall f :: f in s.tree ==> f in s'.tree;
    assert Linked(s'.tree, ip, ix) by {
      assert c[0] in s'.tree && c[0].Connects(ip, ix);
    }
    LinkedConnected(s'.tree, ip, ix);
    ConnectedSym(s'.tree, ip, ix);
    ConnectedMono(s.tree, s'.tree, ip, ir);
    ConnectedTrans(s'.tree, ix, ip, ir);
    forall a, v | 0 <= a < |g.vertices| && 0 <= v < |g.vertices| && s'.inTree[a] && !s'.inTree[v] && Between(g, a, v).Fin?
      ensures Connected(s'.tree, IdAt(g, a), ir)
    {
      if a != x {
        ConnectedMono(s.tree, s'.tree, IdAt(g, a), ir);
      }
    }
    forall v | 0 <= v < |g.vertices| && !s'.inTree[v] && s'.parent[v].Some?
      ensures Connected(s'.tree, IdAt(g, s'.parent[v].value), ir)
    {
      if s'.parent[v] == s.parent[v] {
        ConnectedMono(s.tree, s'.tree, IdAt(g, s.parent[v].value), ir);
      }
    }
    forall a, b | 0 <= a < |g.vertices| && 0 <= b < |g.vertices| && s'.inTree[a] && s'.inTree[b] && Between(g, a, b).Fin?
      ensures Connected(s'.tree, IdAt(g, a), IdAt(g, b))
    {
      GrowPair(g, s, r, x, s', a, b);
    }
  }

  /** Two included neighbours after a round that hangs `x` off the tree. */
  lemma GrowPair(g: Graph, s: State, r: nat, x: nat, s': State, a: nat, b: nat)
    requires Sized(g, s) && Sized(g, s') && x < |g.vertices|
    requires ReachInv(g, s, r) && Step(g, s, x, s')
    requires Connected(s'.tree, IdAt(g, x), IdAt(g, r))
    requires 0 <= a < |g.vertices| && 0 <= b < |g.vertices| && s'.inTree[a] && s'.inTree[b] && Between(g, a, b).Fin?
    ensures Connected(s'.tree, IdAt(g, a), IdAt(g, b))
  {
    var ia, ib, ix, ir := IdAt(g, a), IdAt(g, b), IdAt(g, x), IdAt(g, r);
    assert forall f :: f in s.tree ==> f in s'.tree;
    if a == b {
      ConnectedRefl(s'.tree, ia);
    } else if a != x && b != x {
      ConnectedMono(s.tree, s'.tree, ia, ib);
    } else if b == x {
      ConnectedMono(s.tree, s'.tree, ia, ir);
      ConnectedSym(s'.tree, ix, ir);
      ConnectedTrans(s'.tree, ia, ir, ix);
    } else {
      BetweenSymmetric(g, a, b);
      ConnectedMono(s.tree, s'.tree, ib, ir);
      ConnectedSym(s'.tree, ib, ir);
      ConnectedTrans(s'.tree, ix, ir, ib);
    }
  }

  /** A vertex without a parent starts a new tree: nothing included
      before has an edge to anything not included. */
  lemma ReachRestart(g: Graph, s: State, k: nat, r: nat, x: nat, s': State)
    requires Sized(g, s) && Sized(g, s') && x < |g.vertices|
    requires TreeInv(g, s, k) && KeysInv(g, s, k) && ReachInv(g, s, r) && Step(g, s, x, s')
    requires s.parent[x].None?
    ensures ReachInv(g, s', x)
  {
    var ix := IdAt(g, x);
    assert s'.tree == s.tree;
    ConnectedRefl(s.tree, ix);
    forall a, v | 0 <= a < |g.vertices| && 0 <= v < |g.vertices| && s'.inTree[a] && !s'.inTree[v] && Between(g, a, v).Fin?
      ensures Connected(s'.tree, IdAt(g, a), ix)
    {
      if a != x {
        NoFrontier(g, s, k, x, s', a, v);
      }
    }
    forall v | 0 <= v < |g.vertices| && !s'.inTree[v] && s'.parent[v].Some?
      ensures Connected(s'.tree, IdAt(g, s'.parent[v].value), ix)
    {
      if s'.parent[v] == s.parent[v] {
        NoFrontier(g, s, k, x, s', s.parent[v].value, v);
      }
    }
    forall a, b | 0 <= a < |g.vertices| && 0 <= b < |g.vertices| && s'.inTree[a] && s'.inTree[b] && Between(g, a, b).Fin?
      ensures Connected(s'.tree, IdAt(g, a), IdAt(g, b))
    {
      if a == b {
        ConnectedRefl(s.tree, IdAt(g, a));
      } else if a == x {
        BetweenSymmetric(g, a, b);
        NoFrontier(g, s, k, x, s', b, x);
      } else if b == x {
        NoFrontier(g, s, k, x, s', a, x);
      }
    }
  }

  /*************************************************************************
   * Counting the rounds
   *************************************************************************/

  /** The positions below `n`. */
  function Range(n: nat): (r: set<nat>)
    ensures forall a: nat :: a in r <==> a < n
    ensures |r| == n
  {
    if n == 0 then {} else Range(n - 1) + {n - 1}
  }

  /** A set of positions below `n` has at most `n` members, and `n` only
      when it holds every one of them. */
  lemma {:induction false} RangeCard(s: set<nat>, n: nat)
    requires forall a :: a in s ==> a < n
    ensures |s| <= n
    ensures |s| == n ==> forall a: nat :: a < n ==> a in s
  {
    if n > 0 {
      var t := s - {n - 1};
      RangeCard(t, n - 1);
      if n - 1 !in s {
        assert t == s;
      }
    }
  }

  /** While some vertex is left out, a round includes one and keeps the
      invariants. */
  lemma OneRound(g: Graph, s: State, k: nat, r: nat) returns (r': nat)
    requires Distinct(g) && Sized(g, s) && k < |g.vertices|
    requires TreeInv(g, s, k) && KeysInv(g, s, k) && ReachInv(g, s, r)
    ensures Inv(g, Round(g, s), k + 1, r')
  {
    var x := RoundStep(g, s);
    SomeLeft(g, s, k);
    var s' := Round(g, s);
    TreeStep(g, s, k, x.value, s');
    KeysStep(g, s, k, x.value, s');
    r' := ReachStep(g, s, k, r, x.value, s');
  }

  /** Fewer than |V| included leaves a vertex out. */
  lemma SomeLeft(g: Graph, s: State, k: nat)
    requires Sized(g, s) && |Included(s)| == k < |g.vertices|
    ensures !forall v :: 0 <= v < |g.vertices| ==> s.inTree[v]
  {
    if forall v :: 0 <= v < |g.vertices| ==> s.inTree[v] {
      assert Included(s) == Range(|g.vertices|);
    }
  }

  /** After `k <= |V|` rounds, `k` vertices are included and the invariants
      hold. */
  lemma RoundsInv(g: Graph, k: nat) returns (r: nat)
    requires Distinct(g) && 1 <= |g.vertices| && k <= |g.vertices|
    ensures Inv(g, Rounds(g, Start(|g.vertices|), k), k, r)
  {
    NoRounds(g);
    r := RoundsInvFrom(g, Start(|g.vertices|), k);
  }

  /** The induction behind `RoundsInv`, from any state that satisfies the
      invariant before the first round. */
  lemma {:induction false} RoundsInvFrom(g: Graph, s0: State, k: nat) returns (r: nat)
    requires Distinct(g) && Sized(g, s0) && k <= |g.vertices|
    requires Inv(g, Rounds(g, s0, 0), 0, 0)
    ensures Inv(g, Rounds(g, s0, k), k, r)
  {
    if k == 0 {
      r := 0;
    } else {
      var r0 := RoundsInvFrom(g, s0, k - 1);
      r := NextRound(g, s0, k, r0);
    }
  }

  /** `StartInv` for the state after zero rounds. */
  lemma NoRounds(g: Graph)
    requires |g.vertices| >= 1
    ensures Inv(g, Rounds(g, Start(|g.vertices|), 0), 0, 0)
  {
    StartInv(g);
  }

  /** `OneRound` for the `k`-th round from `s0`. */
  lemma NextRound(g: Graph, s0: State, k: nat, r: nat) returns (r': nat)
    requires Distinct(g) && Sized(g, s0) && 1 <= k <= |g.vertices|
    requires Inv(g, Rounds(g, s0, k - 1), k - 1, r)
    ensures Inv(g, Rounds(g, s0, k), k, r')
  {
    var s := Rounds(g, s0, k - 1);
    assert Rounds(g, s0, k) == Round(g, s);
    r' := OneRound(g, s, k - 1, r);
  }

  /** After |V| rounds nothing is left out. */
  lemma AllIncluded(g: Graph, s: State)
    requires Sized(g, s) && TreeInv(g, s, |g.vertices|)
    ensures forall v :: 0 <= v < |g.vertices| ==> s.inTree[v]
  {
    RangeCard(Included(s), |g.vertices|);
  }

  /*************************************************************************
   * The results
   *************************************************************************/

  /** Prim's tree is a forest of graph edges with at most |V| - 1 edges. */
  lemma PrimForest(g: Graph)
    requires Valid(g)
    ensures forall e :: e in Prim.Prim(g) ==> e in g.edges
    ensures Forest(Prim.Prim(g))
    ensures |g.vertices| >= 1 ==> |Prim.Prim(g)| <= |g.vertices| - 1
  {
    var n := |g.vertices|;
    if n >= 1 {
      IncreasingDistinct(g);
      var r := RoundsInv(g, n);
    }
  }

  /** Prim's tree connects exactly what the graph connects: two ids are
      joined by its edges if and only if they are joined by the graph's. */
  lemma PrimSpans(g: Graph)
    requires Valid(g)
    ensures forall x, y :: Connected(Prim.Prim(g), x, y) <==> Connected(g.edges, x, y)
  {
    var t := Prim.Prim(g);
    PrimForest(g);
    var n := |g.vertices|;
    if n == 0 {
      assert forall e :: e in g.edges ==> Connected(t, e.v1, e.v2);
    } else {
      IncreasingDistinct(g);
      var r := RoundsInv(g, n);
      var s := Rounds(g, Start(n), n);
      AllIncluded(g, s);
      EdgesJoined(g, s, r);
    }
    forall x, y ensures Connected(t, x, y) <==> Connected(g.edges, x, y) {
      if Connected(t, x, y) {
        ConnectedMono(t, g.edges, x, y);
      }
      if Connected(g.edges, x, y) {
        ConnectedClosure(g.edges, t, x, y);
      }
    }
  }

  /** With every vertex included, each graph edge joins two included
      neighbours, so its endpoints are joined in the tree. */
  lemma EdgesJoined(g: Graph, s: State, r: nat)
    requires Sized(g, s) && EndpointsExist(g) && ReachInv(g, s, r)
    requires forall v :: 0 <= v < |g.vertices| ==> s.inTree[v]
    ensures forall e :: e in g.edges ==> Connected(s.tree, e.v1, e.v2)
  {
    forall e | e in g.edges ensures Connected(s.tree, e.v1, e.v2) {
      var a := PositionOf(g, e.v1);
      var b := PositionOf(g, e.v2);
      assert e.Connects(e.v1, e.v2);
      assert Between(g, a, b).Fin?;
    }
  }

  /** The position of a vertex id. */
  lemma PositionOf(g: Graph, id: Id) returns (a: nat)
    requires ExistsVertex(g, id)
    ensures a < |g.vertices| && IdAt(g, a) == id
  {
    var v :| v in g.vertices && v.id == id;
    var i :| 0 <= i < |g.vertices| && g.vertices[i] == v;
    a := i;
  }
}

=== FILE: shortest_paths.dfy ===
/** The shortest-path computation of `Dijkstra.java`: the per-vertex result
    list (`ResultVertices`), its lookups and its construction from the graph,
    and the extract-min / relaxation loop of `calculateDijkstra`. Costs are
    non-negative integers with an explicit +infinity. */
module ShortestPaths {
  import opened Wrappers
  import opened Graphs

  /*************************************************************************
   * Costs
   *************************************************************************/

  /** A tentative distance: a finite cost or `Double.POSITIVE_INFINITY`. */
  datatype Cost = Fin(n: nat) | Inf {

    /** `cost + weight`; infinity absorbs any finite weight. */
    function Plus(w: nat): Cost {
      if Fin? then Fin(n + w) else Inf
    }

    /** The Java `<` on doubles: nothing is below infinity, infinity is
        below nothing. */
    predicate Below(c: Cost) {
      Fin? && (c.Inf? || n < c.n)
    }

    /** `<=`: the negation of `c < this`. */
    predicate AtMost(c: Cost) {
      c.Inf? || (Fin? && n <= c.n)
    }
  }

  /*************************************************************************
   * The result list
   *************************************************************************/

  /** `ResultVertex`: a vertex id and name with its cost and predecessor. */
  datatype Entry = Entry(id: Id, name: string, cost: Cost, prev: Option<Id>)

  /** The ids of the result list, in list order. */
  function EntryIds(rs: seq<Entry>): (ids: seq<Id>)
    ensures |ids| == |rs|
    ensures forall i :: 0 <= i < |rs| ==> ids[i] == rs[i].id
  {
    seq(|rs|, i requires 0 <= i < |rs| => rs[i].id)
  }

  /** Position of the first entry for `id`: the entry every
      `vertices.stream().filter(v -> v.equals(id)).findFirst()` selects. */
  function Find(rs: seq<Entry>, id: Id): (r: Option<nat>)
    ensures r.None? <==> id !in EntryIds(rs)
    ensures r.Some? ==> (r.value < |rs| && rs[r.value].id == id
      && forall j :: 0 <= j < r.value ==> rs[j].id != id)
  {
    if |rs| == 0 then None
    else if rs[0].id == id then Some(0)
    else
      assert EntryIds(rs) == [rs[0].id] + EntryIds(rs[1..]);
      match Find(rs[1..], id)
      case None => None
      case Some(k) => Some(k + 1)
  }

  /** The cost recorded for `id`, infinity when there is no entry. */
  function CostOf(rs: seq<Entry>, id: Id): Cost {
    match Find(rs, id)
    case None => Inf
    case Some(k) => rs[k].cost
  }

  /** The predecessor recorded for `id`, none when there is no entry. */
  function PrevOf(rs: seq<Entry>, id: Id): Option<Id> {
    match Find(rs, id)
    case None => None
    case Some(k) => rs[k].prev
  }

  /** `ResultVertices.getCost(id)`: NotFound for an unknown id. */
  function GetCost(rs: seq<Entry>, id: Id): (r: Result<Cost>)
    ensures r.Err? <==> id !in EntryIds(rs)
    ensures r.Err? ==> r.error == NotFound
    ensures r.Ok? ==> r.value == CostOf(rs, id)
  {
    match Find(rs, id)
    case None => Err(NotFound)
    case Some(k) => Ok(rs[k].cost)
  }

  /** `ResultVertices.getPrevious(id)`: NotFound for an unknown id. */
  function GetPrevious(rs: seq<Entry>, id: Id): (r: Result<Option<Id>>)
    ensures r.Err? <==> id !in EntryIds(rs)
    ensures r.Err? ==> r.error == NotFound
    ensures r.Ok? ==> r.value == PrevOf(rs, id)
  {
    match Find(rs, id)
    case None => Err(NotFound)
    case Some(k) => Ok(rs[k].prev)
  }

  /** `ResultVertices.setCost(id, cost)`: NotFound for an unknown id;
      otherwise a later `getCost(id)` reads `cost` and nothing else changes. */
  function SetCost(rs: seq<Entry>, id: Id, cost: Cost): (r: Result<seq<Entry>>)
    ensures r.Err? <==> id !in EntryIds(rs)
    ensures r.Err? ==> r.error == NotFound
    ensures r.Ok? ==> (EntryIds(r.value) == EntryIds(rs)
      && GetCost(r.value, id) == Ok(cost)
      && (forall x :: x != id ==> CostOf(r.value, x) == CostOf(rs, x))
      && (forall x :: PrevOf(r.value, x) == PrevOf(rs, x)))
  {
    match Find(rs, id)
    case None => Err(NotFound)
    case Some(k) =>
      var rs' := rs[k := rs[k].(cost := cost)];
      FindSameIds(rs, rs');
      Ok(rs')
  }

  /** `ResultVertices.setPrevious(id, previous)`: the same contract for the
      predecessor. */
  function SetPrevious(rs: seq<Entry>, id: Id, prev: Option<Id>): (r: Result<seq<Entry>>)
    ensures r.Err? <==> id !in EntryIds(rs)
    ensures r.Err? ==> r.error == NotFound
    ensures r.Ok? ==> (EntryIds(r.value) == EntryIds(rs)
      && GetPrevious(r.value, id) == Ok(prev)
      && (forall x :: CostOf(r.value, x) == CostOf(rs, x))
      && (forall x :: x != id ==> PrevOf(r.value, x) == PrevOf(rs, x)))
  {
    match Find(rs, id)
    case None => Err(NotFound)
    case Some(k) =>
      var rs' := rs[k := rs[k].(prev := prev)];
      FindSameIds(rs, rs');
      Ok(rs')
  }

  /** Lookup only depends on the ids of the entries. */
  lemma FindSameIds(a: seq<Entry>, b: seq<Entry>)
    requires EntryIds(a) == EntryIds(b)
    ensures forall x :: Find(a, x) == Find(b, x)
  {
    forall x ensures Find(a, x) == Find(b, x) {
      FindSameIdsAt(a, b, x);
    }
  }

  lemma {:induction false} FindSameIdsAt(a: seq<Entry>, b: seq<Entry>, x: Id)
    requires EntryIds(a) == EntryIds(b)
    ensures Find(a, x) == Find(b, x)
  {
    if |a| > 0 && a[0].id != x {
      assert EntryIds(a[1..]) == EntryIds(a)[1..];
      assert EntryIds(b[1..]) == EntryIds(b)[1..];
      FindSameIdsAt(a[1..], b[1..], x);
    }
  }

  /*************************************************************************
   * Building the initial result
   *************************************************************************/

  /** `ResultVertices.create(id, name)`: the source entry (cost 0, no
      predecessor); refused with Unsupported unless the list is still empty. */
  function CreateSource(rs: seq<Entry>, id: Id, name: string): (r: Result<seq<Entry>>)
    ensures r.Err? <==> |rs| > 0
    ensures r.Err? ==> r.error == Unsupported
    ensures r.Ok? ==> GetCost(r.value, id) == Ok(Fin(0)) && GetPrevious(r.value, id) == Ok(None)
  {
    if |rs| > 0 then Err(Unsupported) else Ok([Entry(id, name, Fin(0), None)])
  }

  /** `ResultVertices.create(id, name, cost, previous)`: refuses an id that
      already has an entry, otherwise appends one. */
  function CreateEntry(rs: seq<Entry>, id: Id, name: string, cost: Cost, prev: Option<Id>): (r: Result<seq<Entry>>)
    ensures r.Err? <==> id in EntryIds(rs)
    ensures r.Err? ==> r.error == AlreadyExists
    ensures r.Ok? ==> (EntryIds(r.value) == EntryIds(rs) + [id]
      && GetCost(r.value, id) == Ok(cost) && GetPrevious(r.value, id) == Ok(prev))
  {
    if id in EntryIds(rs) then Err(AlreadyExists)
    else
      var rs' := rs + [Entry(id, name, cost, prev)];
      assert EntryIds(rs') == EntryIds(rs) + [id];
      Ok(rs')
  }

  /** The loop of the `ResultVertices(vertices, src)` constructor: one entry
      per vertex in list order, the source through `create(id, name)` and
      every other vertex at +infinity. */
  function InitFrom(rs: seq<Entry>, vs: seq<Vertex>, src: Id): (r: Result<seq<Entry>>)
    decreases |vs|
  {
    if |vs| == 0 then Ok(rs)
    else
      var rs' :- if vs[0].id == src then CreateSource(rs, vs[0].id, vs[0].name)
                 else CreateEntry(rs, vs[0].id, vs[0].name, Inf, None);
      InitFrom(rs', vs[1..], src)
  }

  /** `new ResultVertices(vertices, src)`. */
  function InitResult(vs: seq<Vertex>, src: Id): Result<seq<Entry>> {
    InitFrom([], vs, src)
  }

  /** The reference initial result: the source at cost 0, every other
      vertex at +infinity, no predecessors. */
  function Initial(vs: seq<Vertex>, src: Id): (rs: seq<Entry>)
    ensures |rs| == |vs|
  {
    seq(|vs|, i requires 0 <= i < |vs| =>
      Entry(vs[i].id, vs[i].name, if vs[i].id == src then Fin(0) else Inf, None))
  }

  /** The source is a vertex but not the first one in list order. */
  predicate SourceNotFirst(vs: seq<Vertex>, src: Id) {
    exists i :: 0 < i < |vs| && vs[i].id == src
  }

  predicate Distinct(s: seq<Id>) {
    forall i, j :: 0 <= i < j < |s| ==> s[i] != s[j]
  }

  /** The constructor loop from a partial list `rs`: it fails exactly when
      the source comes after the first created entry, and otherwise appends
      the reference entries. */
  lemma {:induction false} InitFromSpec(rs: seq<Entry>, vs: seq<Vertex>, src: Id)
    requires Distinct(Ids(vs))
    requires forall i :: 0 <= i < |vs| ==> vs[i].id !in EntryIds(rs)
    ensures InitFrom(rs, vs, src).Err? <==> exists i :: 0 <= i < |vs| && vs[i].id == src && |rs| + i > 0
    ensures InitFrom(rs, vs, src).Err? ==> InitFrom(rs, vs, src).error == Unsupported
    ensures InitFrom(rs, vs, src).Ok? ==> InitFrom(rs, vs, src).value == rs + Initial(vs, src)
    decreases |vs|
  {
    if |vs| > 0 {
      var v := vs[0];
      DistinctTail(vs);
      if v.id == src && |rs| > 0 {
        assert vs[0].id == src && |rs| + 0 > 0;
      } else {
        var rs' := rs + [Entry(v.id, v.name, if v.id == src then Fin(0) else Inf, None)];
        InitStep(rs, vs, src);
        InitFromSpec(rs', vs[1..], src);
        InitFromCons(rs, vs, src, InitFrom(rs', vs[1..], src));
      }
    }
  }

  /** The inductive step of `InitFromSpec`: a result that is right for the
      tail after the first entry is appended is right for the whole list. */
  lemma InitFromCons(rs: seq<Entry>, vs: seq<Vertex>, src: Id, r: Result<seq<Entry>>)
    requires |vs| > 0 && !(vs[0].id == src && |rs| > 0)
    requires var v := vs[0];
      var rs' := rs + [Entry(v.id, v.name, if v.id == src then Fin(0) else Inf, None)];
      && (r.Err? <==> exists i :: 0 <= i < |vs[1..]| && vs[1..][i].id == src && |rs'| + i > 0)
      && (r.Err? ==> r.error == Unsupported)
      && (r.Ok? ==> r.value == rs' + Initial(vs[1..], src))
    ensures r.Err? <==> exists i :: 0 <= i < |vs| && vs[i].id == src && |rs| + i > 0
    ensures r.Err? ==> r.error == Unsupported
    ensures r.Ok? ==> r.value == rs + Initial(vs, src)
  {
    var v := vs[0];
    var e := Entry(v.id, v.name, if v.id == src then Fin(0) else Inf, None);
    InitialCons(vs, src);
    assert (rs + [e]) + Initial(vs[1..], src) == rs + ([e] + Initial(vs[1..], src));
    ShiftSourcePosition(|rs|, vs, src);
  }

  lemma InitialCons(vs: seq<Vertex>, src: Id)
    requires |vs| > 0
    ensures Initial(vs, src)
      == [Entry(vs[0].id, vs[0].name, if vs[0].id == src then Fin(0) else Inf, None)] + Initial(vs[1..], src)
  {
  }

  /** Dropping the first vertex keeps the ids distinct, and no later id
      repeats the first. */
  lemma DistinctTail(vs: seq<Vertex>)
    requires |vs| > 0 && Distinct(Ids(vs))
    ensures Distinct(Ids(vs[1..]))
    ensures forall i :: 0 <= i < |vs| - 1 ==> vs[1..][i].id != vs[0].id && vs[1..][i] == vs[i + 1]
  {
    var tail := vs[1..];
    forall i, j | 0 <= i < j < |tail| ensures Ids(tail)[i] != Ids(tail)[j] {
      assert Ids(vs)[i + 1] == tail[i].id && Ids(vs)[j + 1] == tail[j].id;
    }
    forall i | 0 <= i < |tail| ensures tail[i].id != vs[0].id {
      assert Ids(vs)[0] == vs[0].id && Ids(vs)[i + 1] == tail[i].id;
    }
  }

  /** One step of the constructor loop when it does not throw: the first
      vertex's reference entry is appended. */
  lemma InitStep(rs: seq<Entry>, vs: seq<Vertex>, src: Id)
    requires |vs| > 0 && !(vs[0].id == src && |rs| > 0)
    requires vs[0].id !in EntryIds(rs)
    requires forall i :: 0 <= i < |vs| - 1 ==> vs[1..][i].id != vs[0].id && vs[1..][i] == vs[i + 1]
    requires forall i :: 0 <= i < |vs| ==> vs[i].id !in EntryIds(rs)
    ensures var v := vs[0];
      var rs' := rs + [Entry(v.id, v.name, if v.id == src then Fin(0) else Inf, None)];
      && InitFrom(rs, vs, src) == InitFrom(rs', vs[1..], src)
      && forall i :: 0 <= i < |vs[1..]| ==> vs[1..][i].id !in EntryIds(rs')
  {
    var v := vs[0];
    var e := Entry(v.id, v.name, if v.id == src then Fin(0) else Inf, None);
    var rs' := rs + [e];
    assert EntryIds(rs') == EntryIds(rs) + [v.id];
    if v.id == src {
      assert rs == [] && rs' == [e];
      assert CreateSource(rs, v.id, v.name) == Ok(rs');
    } else {
      assert CreateEntry(rs, v.id, v.name, Inf, None) == Ok(rs');
    }
  }

  /** The source sits after position 0 of `vs` (counting `n` entries
      before it) exactly when it does so in the tail with one more entry
      before it, unless it is the first vertex with nothing before it. */
  lemma ShiftSourcePosition(n: nat, vs: seq<Vertex>, src: Id)
    requires |vs| > 0 && !(vs[0].id == src && n > 0)
    ensures (exists i :: 0 <= i < |vs[1..]| && vs[1..][i].id == src && n + 1 + i > 0)
      <==> (exists i :: 0 <= i < |vs| && vs[i].id == src && n + i > 0)
  {
    var tail := vs[1..];
    if exists i :: 0 <= i < |vs| && vs[i].id == src && n + i > 0 {
      var i :| 0 <= i < |vs| && vs[i].id == src && n + i > 0;
      if i == 0 {
        assert false;
      }
      assert tail[i - 1].id == src;
    }
    if exists i :: 0 <= i < |tail| && tail[i].id == src && n + 1 + i > 0 {
      var i :| 0 <= i < |tail| && tail[i].id == src && n + 1 + i > 0;
      assert vs[i + 1].id == src;
    }
  }

  /** `new ResultVertices(vertices, src)` on a graph's vertex list: it throws
      Unsupported exactly when the source is a vertex other than the first
      one; otherwise the source (if it is a vertex) has cost 0, every other
      vertex +infinity, and no vertex has a predecessor. */
  lemma InitResultSpec(g: Graph, src: Id)
    requires IdsIncreasing(g.vertices)
    ensures InitResult(g.vertices, src).Err? <==> SourceNotFirst(g.vertices, src)
    ensures InitResult(g.vertices, src).Err? ==> InitResult(g.vertices, src).error == Unsupported
    ensures InitResult(g.vertices, src).Ok? ==> (
      var rs := InitResult(g.vertices, src).value;
      && EntryIds(rs) == Ids(g.vertices)
      && (forall x :: PrevOf(rs, x) == None)
      && (forall x :: CostOf(rs, x) == if x == src && ExistsVertex(g, x) then Fin(0) else Inf))
  {
    var vs := g.vertices;
    assert Distinct(Ids(vs));
    InitFromSpec([], vs, src);
    if InitResult(vs, src).Ok? {
      var rs := Initial(vs, src);
      assert InitResult(vs, src).value == rs;
      assert EntryIds(rs) == Ids(vs);
      forall x ensures PrevOf(rs, x) == None && CostOf(rs, x) == if x == src && ExistsVertex(g, x) then Fin(0) else Inf {
        InitialAt(g, src, x);
      }
    }
  }

  /** The reference entry of one id: no predecessor, cost 0 for the source
      and +infinity otherwise. */
  lemma InitialAt(g: Graph, src: Id, x: Id)
    requires IdsIncreasing(g.vertices)
    ensures var rs := Initial(g.vertices, src);
      PrevOf(rs, x) == None && CostOf(rs, x) == if x == src && ExistsVertex(g, x) then Fin(0) else Inf
  {
    var vs := g.vertices;
    var rs := Initial(vs, src);
    assert EntryIds(rs) == Ids(vs);
    match Find(rs, x)
    case None =>
    case Some(k) =>
      assert vs[k] in vs;
  }

  /*************************************************************************
   * Paths
   *************************************************************************/

  /** The weight of the hop a-b, as `getWeight(a, b)` reads it (0 when there
      is no edge; a path never takes such a hop). */
  function Hop(g: Graph, a: Id, b: Id): nat {
    match Weight(g.edges, a, b)
    case Some(w) => w
    case None => 0
  }

  /** Consecutive vertices of `p` are joined by an edge. */
  predicate IsPath(g: Graph, p: seq<Id>) {
    |p| >= 1 && forall i :: 0 <= i < |p| - 1 ==> Weight(g.edges, p[i], p[i + 1]).Some?
  }

  predicate PathFromTo(g: Graph, p: seq<Id>, a: Id, b: Id) {
    IsPath(g, p) && p[0] == a && p[|p| - 1] == b
  }

  /** The total weight of the hops of `p`. */
  function PathWeight(g: Graph, p: seq<Id>): nat
    decreases |p|
  {
    if |p| <= 1 then 0 else PathWeight(g, p[..|p| - 1]) + Hop(g, p[|p| - 2], p[|p| - 1])
  }

  /** A prefix of a path weighs no more than the path. */
  lemma {:induction false} PrefixWeight(g: Graph, p: seq<Id>, j: nat)
    requires 1 <= j <= |p|
    ensures PathWeight(g, p[..j]) <= PathWeight(g, p)
    decreases |p|
  {
    if j < |p| {
      assert p[..|p| - 1][..j] == p[..j];
      PrefixWeight(g, p[..|p| - 1], j);
    } else {
      assert p[..j] == p;
    }
  }

  /** Extending a path by one hop adds that hop's weight. */
  lemma ExtendPath(g: Graph, p: seq<Id>, a: Id, b: Id, y: Id)
    requires PathFromTo(g, p, a, b) && Weight(g.edges, b, y).Some?
    ensures PathFromTo(g, p + [y], a, y)
    ensures PathWeight(g, p + [y]) == PathWeight(g, p) + Weight(g.edges, b, y).value
  {
    var q := p + [y];
    assert q[..|q| - 1] == p;
    forall i | 0 <= i < |q| - 1 ensures Weight(g.edges, q[i], q[i + 1]).Some? {
      if i < |p| - 1 {
        assert q[i] == p[i] && q[i + 1] == p[i + 1];
      }
    }
  }

  /** In a valid graph every vertex on a path that ends at a vertex is a vertex. */
  lemma PathInGraph(g: Graph, p: seq<Id>, a: Id, b: Id)
    requires Valid(g) && PathFromTo(g, p, a, b) && ExistsVertex(g, b)
    ensures forall i :: 0 <= i < |p| ==> ExistsVertex(g, p[i])
  {
    forall i | 0 <= i < |p| ensures ExistsVertex(g, p[i]) {
      if i < |p| - 1 {
        var e :| e in g.edges && e.Connects(p[i], p[i + 1]) && e.weight == Weight(g.edges, p[i], p[i + 1]).value;
        assert e.Touches(p[i]);
      }
    }
  }

  /*************************************************************************
   * What the computation establishes
   *************************************************************************/

  /** Every vertex's cost is at most the weight of every path to it from
      the source. */
  ghost predicate LowerBound(g: Graph, src: Id, rs: seq<Entry>, settled: set<Id>) {
    forall x, p :: x in settled && PathFromTo(g, p, src, x) ==> CostOf(rs, x).AtMost(Fin(PathWeight(g, p)))
  }

  /** Every finite cost is the weight of some path from the source. */
  ghost predicate Achieved(g: Graph, src: Id, rs: seq<Entry>) {
    forall v :: ExistsVertex(g, v) && CostOf(rs, v).Fin? ==>
      exists p :: PathFromTo(g, p, src, v) && PathWeight(g, p) == CostOf(rs, v).n
  }

  /** Every predecessor link is an edge out of a settled vertex with a
      finite cost, and the cost of the vertex is exactly the cost of its
      predecessor plus that edge's weight. */
  ghost predicate TightLinks(g: Graph, rs: seq<Entry>, open: set<Id>) {
    forall v :: ExistsVertex(g, v) && PrevOf(rs, v).Some? ==>
      var p := PrevOf(rs, v).value;
      && ExistsVertex(g, p) && p !in open
      && Weight(g.edges, p, v).Some?
      && CostOf(rs, p).Fin?
      && CostOf(rs, v) == CostOf(rs, p).Plus(Weight(g.edges, p, v).value)
  }

  /** Every vertex other than the source that has a finite cost has a
      predecessor: the loop only lowers a cost together with `setPrevious`. */
  ghost predicate Parented(g: Graph, src: Id, rs: seq<Entry>) {
    forall v :: ExistsVertex(g, v) && v != src && CostOf(rs, v).Fin? ==> PrevOf(rs, v).Some?
  }

  /** `rank` numbers vertices in the order they left Q. Every predecessor
      has left Q, and before the vertex it precedes once that one has left
      too, so predecessor links never form a cycle. */
  ghost predicate RankedLinks(g: Graph, rs: seq<Entry>, rank: map<Id, nat>) {
    forall v :: ExistsVertex(g, v) && PrevOf(rs, v).Some? ==>
      PrevOf(rs, v).value in rank && (v in rank ==> rank[PrevOf(rs, v).value] < rank[v])
  }

  /** The outcome of a completed computation: each vertex's cost is its
      distance from the source (+infinity when unreachable), the source keeps
      cost 0 and no predecessor, every other reachable vertex has a
      predecessor, the predecessor links are tight, and they are ordered by
      the extraction order, hence acyclic. */
  ghost predicate ShortestPathTree(g: Graph, src: Id, rs: seq<Entry>) {
    && EntryIds(rs) == Ids(g.vertices)
    && LowerBound(g, src, rs, IdSet(g))
    && Achieved(g, src, rs)
    && TightLinks(g, rs, {})
    && SourceAtZero(g, src, rs)
    && Parented(g, src, rs)
    && (exists rank: map<Id, nat> :: rank.Keys == IdSet(g) && RankedLinks(g, rs, rank))
  }

  /*************************************************************************
   * The loop
   *************************************************************************/

  /** The loop invariant of `calculateDijkstra`: the vertices that left Q
      have their final costs, every vertex in Q costs at most any settled
      neighbour plus the connecting weight, and every finite cost is reached
      by a path. */
  ghost predicate Invariant(g: Graph, src: Id, rs: seq<Entry>, open: set<Id>) {
    && EntryIds(rs) == Ids(g.vertices)
    && open <= IdSet(g)
    && SourceAtZero(g, src, rs)
    && LowerBound(g, src, rs, IdSet(g) - open)
    && Achieved(g, src, rs)
    && TightLinks(g, rs, open)
    && Frontier(g, rs, open)
    && Parented(g, src, rs)
  }

  /** The extraction order so far: the vertices that left Q are numbered
      below `next`, and the predecessor links respect the numbering. */
  ghost predicate Settling(g: Graph, rs: seq<Entry>, open: set<Id>, rank: map<Id, nat>, next: nat) {
    && rank.Keys == IdSet(g) - open
    && (forall x :: x in rank ==> rank[x] < next)
    && RankedLinks(g, rs, rank)
  }

  /** The source (when it is a vertex) costs 0 and has no predecessor. */
  ghost predicate SourceAtZero(g: Graph, src: Id, rs: seq<Entry>) {
    && (ExistsVertex(g, src) ==> CostOf(rs, src) == Fin(0))
    && PrevOf(rs, src) == None
  }

  /** Every vertex in Q costs at most any settled neighbour plus the weight
      of the edge between them. */
  ghost predicate Frontier(g: Graph, rs: seq<Entry>, open: set<Id>) {
    forall x, y :: x in IdSet(g) - open && y in open && Weight(g.edges, x, y).Some? ==>
      CostOf(rs, y).AtMost(CostOf(rs, x).Plus(Weight(g.edges, x, y).value))
  }

  /** What relaxing `x` from `u` leaves: on a strict improvement through an
      edge u-x, x costs cost(u) + w(u, x) and has predecessor u; otherwise
      x is untouched. */
  predicate Relaxed(g: Graph, before: seq<Entry>, after: seq<Entry>, u: Id, x: Id) {
    var alt := CostOf(before, u).Plus(Hop(g, u, x));
    if Weight(g.edges, u, x).Some? && alt.Below(CostOf(before, x)) then
      CostOf(after, x) == alt && PrevOf(after, x) == Some(u)
    else
      CostOf(after, x) == CostOf(before, x) && PrevOf(after, x) == PrevOf(before, x)
  }

  /** The scan `for (Integer id: Q) if (u == null || cost(id) < cost(u)) u = id;`
      over Q in an arbitrary order: it returns a vertex of minimal cost. */
  method ExtractMin(rs: seq<Entry>, open: set<Id>) returns (u: Id)
    requires open != {}
    ensures u in open
    ensures forall x :: x in open ==> CostOf(rs, u).AtMost(CostOf(rs, x))
  {
    var rest := open;
    Pick(rest);
    u :| u in rest;
    rest := rest - {u};
    while rest != {}
      invariant rest <= open && u in open
      invariant forall x :: x in open && x !in rest ==> CostOf(rs, u).AtMost(CostOf(rs, x))
      decreases |rest|
    {
      Pick(rest);
      var id :| id in rest;
      if CostOf(rs, id).Below(CostOf(rs, u)) {
        u := id;
      }
      rest := rest - {id};
    }
  }

  /** A non-empty set has an element. */
  lemma Pick(s: set<Id>)
    requires s != {}
    ensures exists x :: x in s
  {
    if forall x :: x !in s {
      assert false;
    }
  }

  /** The inner loop `for (Integer v: Q)`: relaxes every vertex still in Q
      through the edge from `u`, in an arbitrary order. Costs never increase. */
  method RelaxFrom(g: Graph, rs: seq<Entry>, u: Id, open: set<Id>) returns (rs': seq<Entry>)
    requires EntryIds(rs) == Ids(g.vertices)
    requires ExistsVertex(g, u) && u !in open && open <= IdSet(g)
    ensures EntryIds(rs') == EntryIds(rs)
    ensures forall x :: x !in open ==> CostOf(rs', x) == CostOf(rs, x) && PrevOf(rs', x) == PrevOf(rs, x)
    ensures forall x :: x in open ==> Relaxed(g, rs, rs', u, x)
    ensures forall x :: CostOf(rs', x).AtMost(CostOf(rs, x))
  {
    rs' := rs;
    var todo := open;
    while todo != {}
      invariant todo <= open
      invariant RelaxedExcept(g, rs, rs', u, open, todo)
      decreases |todo|
    {
      Pick(todo);
      var v :| v in todo;
      ghost var before := rs';
      rs' := RelaxOne(g, rs', u, v);
      RelaxStep(g, rs, before, rs', u, open, todo, v);
      todo := todo - {v};
    }
    forall x ensures CostOf(rs', x).AtMost(CostOf(rs, x)) {
      if x in open {
        RelaxedNoIncrease(g, rs, rs', u, x);
      }
    }
  }

  /** The inner loop's invariant: the vertices of Q already visited are
      relaxed, every other entry is as it was. */
  ghost predicate RelaxedExcept(g: Graph, rs: seq<Entry>, cur: seq<Entry>, u: Id, open: set<Id>, todo: set<Id>) {
    && EntryIds(cur) == EntryIds(rs)
    && (forall x :: x !in open || x in todo ==> CostOf(cur, x) == CostOf(rs, x) && PrevOf(cur, x) == PrevOf(rs, x))
    && (forall x :: x in open && x !in todo ==> Relaxed(g, rs, cur, u, x))
  }

  lemma RelaxStep(g: Graph, rs: seq<Entry>, before: seq<Entry>, after: seq<Entry>, u: Id, open: set<Id>, todo: set<Id>, v: Id)
    requires u !in open && v in todo && todo <= open
    requires RelaxedExcept(g, rs, before, u, open, todo)
    requires EntryIds(after) == EntryIds(before) && Relaxed(g, before, after, u, v)
    requires forall x :: x != v ==> CostOf(after, x) == CostOf(before, x) && PrevOf(after, x) == PrevOf(before, x)
    ensures RelaxedExcept(g, rs, after, u, open, todo - {v})
  {
    assert CostOf(before, u) == CostOf(rs, u) && CostOf(before, v) == CostOf(rs, v);
    assert PrevOf(before, v) == PrevOf(rs, v);
    forall x | x in open && x !in todo - {v} ensures Relaxed(g, rs, after, u, x) {
      if x != v {
        RelaxedFrame(g, rs, before, after, u, x);
      }
    }
  }

  /** Relaxation never raises a cost. */
  lemma RelaxedNoIncrease(g: Graph, before: seq<Entry>, after: seq<Entry>, u: Id, x: Id)
    requires Relaxed(g, before, after, u, x)
    ensures CostOf(after, x).AtMost(CostOf(before, x))
  {
  }

  /** One iteration of the inner loop: `if (!edges.exists(u, v)) continue;`,
      then cost and predecessor of `v` are replaced on a strict improvement. */
  method RelaxOne(g: Graph, rs: seq<Entry>, u: Id, v: Id) returns (rs': seq<Entry>)
    requires EntryIds(rs) == Ids(g.vertices) && ExistsVertex(g, u) && ExistsVertex(g, v)
    ensures EntryIds(rs') == EntryIds(rs)
    ensures Relaxed(g, rs, rs', u, v)
    ensures forall x :: x != v ==> CostOf(rs', x) == CostOf(rs, x) && PrevOf(rs', x) == PrevOf(rs, x)
  {
    rs' := rs;
    if ExistsEdge(g, u, v).value {
      var alt := GetCost(rs, u).value.Plus(GetWeight(g, u, v).value);
      if alt.Below(GetCost(rs, v).value) {
        rs' := SetCost(rs, v, alt).value;
        rs' := SetPrevious(rs', v, Some(u)).value;
      }
    }
  }

  /** Relaxing one vertex leaves what was established for the others. */
  lemma RelaxedFrame(g: Graph, rs: seq<Entry>, a: seq<Entry>, b: seq<Entry>, u: Id, x: Id)
    requires Relaxed(g, rs, a, u, x)
    requires CostOf(b, x) == CostOf(a, x) && PrevOf(b, x) == PrevOf(a, x)
    ensures Relaxed(g, rs, b, u, x)
  {
  }

  /** The vertex extracted from Q has its final cost: no path from the
      source to it weighs less. */
  lemma ExtractedIsFinal(g: Graph, src: Id, rs: seq<Entry>, open: set<Id>, u: Id, p: seq<Id>)
    requires Valid(g) && open <= IdSet(g) && SourceAtZero(g, src, rs)
    requires LowerBound(g, src, rs, IdSet(g) - open) && Frontier(g, rs, open)
    requires u in open && forall x :: x in open ==> CostOf(rs, u).AtMost(CostOf(rs, x))
    requires PathFromTo(g, p, src, u)
    ensures CostOf(rs, u).AtMost(Fin(PathWeight(g, p)))
  {
    PathInGraph(g, p, src, u);
    var k := FirstIn(p, open);
    var y := p[k];
    assert CostOf(rs, u).AtMost(CostOf(rs, y));
    if k == 0 {
      assert y == src && CostOf(rs, y) == Fin(0);
    } else {
      ThroughSettled(g, src, rs, open, p, k);
      PrefixWeight(g, p, k + 1);
    }
  }

  /** The first vertex of Q on a path is entered from a settled vertex, so
      its cost is at most the weight of the path up to it. */
  lemma ThroughSettled(g: Graph, src: Id, rs: seq<Entry>, open: set<Id>, p: seq<Id>, k: nat)
    requires 0 < k < |p| && PathFromTo(g, p, src, p[|p| - 1])
    requires p[k - 1] in IdSet(g) - open && p[k] in open
    requires LowerBound(g, src, rs, IdSet(g) - open) && Frontier(g, rs, open)
    ensures CostOf(rs, p[k]).AtMost(Fin(PathWeight(g, p[..k + 1])))
  {
    var x, y := p[k - 1], p[k];
    var q := p[..k];
    assert PathFromTo(g, q, src, x) by {
      forall i | 0 <= i < |q| - 1 ensures Weight(g.edges, q[i], q[i + 1]).Some? {
        assert q[i] == p[i] && q[i + 1] == p[i + 1];
      }
    }
    var w := Weight(g.edges, x, y).value;
    assert CostOf(rs, x).AtMost(Fin(PathWeight(g, q)));
    assert CostOf(rs, y).AtMost(CostOf(rs, x).Plus(w));
    ExtendPath(g, q, src, x, y);
    assert q + [y] == p[..k + 1];
  }

  /** The first position of `p` whose vertex is in `s`. */
  function FirstIn(p: seq<Id>, s: set<Id>): (k: nat)
    requires exists i :: 0 <= i < |p| && p[i] in s
    ensures k < |p| && p[k] in s && forall j :: 0 <= j < k ==> p[j] !in s
  {
    if p[0] in s then 0
    else
      assert exists i :: 0 <= i < |p[1..]| && p[1..][i] in s by {
        var i :| 0 <= i < |p| && p[i] in s;
        assert p[1..][i - 1] == p[i];
      }
      FirstIn(p[1..], s) + 1
  }

  /** One round keeps the invariant: `u` (of minimal cost) leaves Q and
      every vertex still in Q is relaxed from it. */
  lemma RoundKeepsInvariant(g: Graph, src: Id, rs: seq<Entry>, open: set<Id>, u: Id, rs': seq<Entry>)
    requires Valid(g) && Invariant(g, src, rs, open)
    requires u in open && forall x :: x in open ==> CostOf(rs, u).AtMost(CostOf(rs, x))
    requires EntryIds(rs') == EntryIds(rs)
    requires forall x :: x !in open - {u} ==> CostOf(rs', x) == CostOf(rs, x) && PrevOf(rs', x) == PrevOf(rs, x)
    requires forall x :: x in open - {u} ==> Relaxed(g, rs, rs', u, x)
    ensures Invariant(g, src, rs', open - {u})
  {
    RoundLowerBound(g, src, rs, open, u, rs');
    RoundAchieved(g, src, rs, open, u, rs');
    RoundTight(g, src, rs, open, u, rs');
    RoundFrontier(g, rs, open, u, rs');
    RoundSource(g, src, rs, open, u, rs');
    RoundParented(g, src, rs, open, u, rs');
  }

  lemma RoundParented(g: Graph, src: Id, rs: seq<Entry>, open: set<Id>, u: Id, rs': seq<Entry>)
    requires Parented(g, src, rs)
    requires forall x :: x !in open - {u} ==> CostOf(rs', x) == CostOf(rs, x) && PrevOf(rs', x) == PrevOf(rs, x)
    requires forall x :: x in open - {u} ==> Relaxed(g, rs, rs', u, x)
    ensures Parented(g, src, rs')
  {
    forall v | ExistsVertex(g, v) && v != src && CostOf(rs', v).Fin? ensures PrevOf(rs', v).Some? {
      if v in open - {u} {
        assert Relaxed(g, rs, rs', u, v);
      }
    }
  }

  /** Extracting `u` gives it the next number: its predecessor left Q in an
      earlier round, and the vertices relaxed from it are still in Q. */
  lemma RoundRanked(g: Graph, rs: seq<Entry>, open: set<Id>, u: Id, rs': seq<Entry>, rank: map<Id, nat>, next: nat)
    requires Settling(g, rs, open, rank, next) && TightLinks(g, rs, open)
    requires open <= IdSet(g) && u in open
    requires forall x :: x !in open - {u} ==> PrevOf(rs', x) == PrevOf(rs, x)
    requires forall x :: x in open - {u} ==> Relaxed(g, rs, rs', u, x)
    ensures Settling(g, rs', open - {u}, rank[u := next], next + 1)
  {
    forall x | x in open - {u} ensures PrevOf(rs', x) == PrevOf(rs, x) || PrevOf(rs', x) == Some(u) {
      assert Relaxed(g, rs, rs', u, x);
    }
    forall v | ExistsVertex(g, v) && PrevOf(rs, v).Some? ensures PrevOf(rs, v).value !in open {
    }
    RankStep(g, rs, open, u, rs', rank, next);
  }

  /** `RoundRanked` on the predecessor links alone. */
  lemma RankStep(g: Graph, rs: seq<Entry>, open: set<Id>, u: Id, rs': seq<Entry>, rank: map<Id, nat>, next: nat)
    requires Settling(g, rs, open, rank, next)
    requires open <= IdSet(g) && u in open
    requires forall v :: ExistsVertex(g, v) && PrevOf(rs, v).Some? ==> PrevOf(rs, v).value !in open
    requires forall x :: x !in open - {u} ==> PrevOf(rs', x) == PrevOf(rs, x)
    requires forall x :: x in open - {u} ==> PrevOf(rs', x) == PrevOf(rs, x) || PrevOf(rs', x) == Some(u)
    ensures Settling(g, rs', open - {u}, rank[u := next], next + 1)
  {
    var rank' := rank[u := next];
    RankKeys(rank, IdSet(g), open, u, next, rank');
    forall v | ExistsVertex(g, v) && PrevOf(rs', v).Some?
      ensures PrevOf(rs', v).value in rank' && (v in rank' ==> rank'[PrevOf(rs', v).value] < rank'[v])
    {
      RankAt(open, u, rank, next, v, PrevOf(rs, v), PrevOf(rs', v));
    }
  }

  /** Numbering `u` as `next` moves it from Q to the numbered vertices. */
  lemma RankKeys(rank: map<Id, nat>, ids: set<Id>, open: set<Id>, u: Id, next: nat, rank': map<Id, nat>)
    requires rank.Keys == ids - open && open <= ids && u in open
    requires forall x :: x in rank ==> rank[x] < next
    requires rank' == rank[u := next]
    ensures rank'.Keys == ids - (open - {u})
    ensures forall x :: x in rank' ==> rank'[x] < next + 1
  {
  }

  /** `RankStep` at one vertex `v`, whose link was `before` and is now
      `after`. */
  lemma RankAt(open: set<Id>, u: Id, rank: map<Id, nat>, next: nat, v: Id, before: Option<Id>, after: Option<Id>)
    requires u in open && (v in rank ==> v !in open) && forall x :: x in rank ==> x !in open && rank[x] < next
    requires before.Some? ==> before.value !in open && before.value in rank && (v in rank ==> rank[before.value] < rank[v])
    requires v !in open - {u} ==> after == before
    requires v in open - {u} ==> after == before || after == Some(u)
    requires after.Some? && (v in rank || v in open)
    ensures after.value in rank[u := next]
    ensures v in rank[u := next] ==> rank[u := next][after.value] < rank[u := next][v]
  {
    if v == u {
      assert after == before && before.value != u;
    } else if v in rank {
      assert after == before && before.value != u;
    }
  }

  lemma RoundFrontier(g: Graph, rs: seq<Entry>, open: set<Id>, u: Id, rs': seq<Entry>)
    requires Frontier(g, rs, open) && u in open
    requires forall x :: x !in open - {u} ==> CostOf(rs', x) == CostOf(rs, x)
    requires forall x :: x in open - {u} ==> Relaxed(g, rs, rs', u, x)
    ensures Frontier(g, rs', open - {u})
  {
    forall x, y | x in IdSet(g) - (open - {u}) && y in open - {u} && Weight(g.edges, x, y).Some?
      ensures CostOf(rs', y).AtMost(CostOf(rs', x).Plus(Weight(g.edges, x, y).value))
    {
      assert Relaxed(g, rs, rs', u, y);
    }
  }

  lemma RoundSource(g: Graph, src: Id, rs: seq<Entry>, open: set<Id>, u: Id, rs': seq<Entry>)
    requires SourceAtZero(g, src, rs) && open <= IdSet(g)
    requires forall x :: x !in open - {u} ==> CostOf(rs', x) == CostOf(rs, x) && PrevOf(rs', x) == PrevOf(rs, x)
    requires forall x :: x in open - {u} ==> Relaxed(g, rs, rs', u, x)
    ensures SourceAtZero(g, src, rs')
  {
    if src in open - {u} {
      assert Relaxed(g, rs, rs', u, src);
    }
  }

  lemma RoundLowerBound(g: Graph, src: Id, rs: seq<Entry>, open: set<Id>, u: Id, rs': seq<Entry>)
    requires Valid(g) && open <= IdSet(g) && SourceAtZero(g, src, rs)
    requires LowerBound(g, src, rs, IdSet(g) - open) && Frontier(g, rs, open)
    requires u in open && forall x :: x in open ==> CostOf(rs, u).AtMost(CostOf(rs, x))
    requires forall x :: x !in open - {u} ==> CostOf(rs', x) == CostOf(rs, x)
    ensures LowerBound(g, src, rs', IdSet(g) - (open - {u}))
  {
    forall x, p | x in IdSet(g) - (open - {u}) && PathFromTo(g, p, src, x)
      ensures CostOf(rs', x).AtMost(Fin(PathWeight(g, p)))
    {
      if x == u {
        ExtractedIsFinal(g, src, rs, open, u, p);
      }
    }
  }

  lemma RoundAchieved(g: Graph, src: Id, rs: seq<Entry>, open: set<Id>, u: Id, rs': seq<Entry>)
    requires Achieved(g, src, rs) && open <= IdSet(g) && u in open
    requires forall x :: x !in open - {u} ==> CostOf(rs', x) == CostOf(rs, x)
    requires forall x :: x in open - {u} ==> Relaxed(g, rs, rs', u, x)
    ensures Achieved(g, src, rs')
  {
    forall v | ExistsVertex(g, v) && CostOf(rs', v).Fin?
      ensures exists p :: PathFromTo(g, p, src, v) && PathWeight(g, p) == CostOf(rs', v).n
    {
      if CostOf(rs', v) != CostOf(rs, v) {
        assert v in open - {u} && Relaxed(g, rs, rs', u, v);
        assert u in IdSet(g);
        RelaxedAchieved(g, src, rs, rs', u, v);
      } else {
        var p :| PathFromTo(g, p, src, v) && PathWeight(g, p) == CostOf(rs, v).n;
      }
    }
  }

  /** A cost lowered through `u` is the weight of a path: the one to `u`
      followed by the edge to `v`. */
  lemma RelaxedAchieved(g: Graph, src: Id, rs: seq<Entry>, rs': seq<Entry>, u: Id, v: Id)
    requires Achieved(g, src, rs) && ExistsVertex(g, u)
    requires Relaxed(g, rs, rs', u, v) && CostOf(rs', v) != CostOf(rs, v)
    ensures exists p :: PathFromTo(g, p, src, v) && PathWeight(g, p) == CostOf(rs', v).n
  {
    assert CostOf(rs, u).Fin?;
    var p :| PathFromTo(g, p, src, u) && PathWeight(g, p) == CostOf(rs, u).n;
    ExtendPath(g, p, src, u, v);
    assert PathFromTo(g, p + [v], src, v) && PathWeight(g, p + [v]) == CostOf(rs', v).n;
  }

  lemma RoundTight(g: Graph, src: Id, rs: seq<Entry>, open: set<Id>, u: Id, rs': seq<Entry>)
    requires TightLinks(g, rs, open) && open <= IdSet(g) && u in open
    requires forall x :: x !in open - {u} ==> CostOf(rs', x) == CostOf(rs, x) && PrevOf(rs', x) == PrevOf(rs, x)
    requires forall x :: x in open - {u} ==> Relaxed(g, rs, rs', u, x)
    ensures TightLinks(g, rs', open - {u})
  {
    forall v | ExistsVertex(g, v) && PrevOf(rs', v).Some?
      ensures var p := PrevOf(rs', v).value;
        && ExistsVertex(g, p) && p !in open - {u}
        && Weight(g.edges, p, v).Some?
        && CostOf(rs', p).Fin?
        && CostOf(rs', v) == CostOf(rs', p).Plus(Weight(g.edges, p, v).value)
    {
      if v in open - {u} {
        assert Relaxed(g, rs, rs', u, v);
      }
    }
  }

  /** The invariant before the first round: nothing is settled, only the
      source has a finite cost and it is reached by the one-vertex path. */
  lemma InitialInvariant(g: Graph, src: Id, rs: seq<Entry>)
    requires EntryIds(rs) == Ids(g.vertices)
    requires forall x :: PrevOf(rs, x) == None
    requires forall x :: CostOf(rs, x) == if x == src && ExistsVertex(g, x) then Fin(0) else Inf
    ensures Invariant(g, src, rs, IdSet(g))
    ensures Settling(g, rs, IdSet(g), map[], 0)
  {
    forall v | ExistsVertex(g, v) && CostOf(rs, v).Fin?
      ensures exists p :: PathFromTo(g, p, src, v) && PathWeight(g, p) == CostOf(rs, v).n
    {
      assert PathFromTo(g, [src], src, v);
    }
  }

  /** `calculateDijkstra` once `src` is set: builds the initial result
      (Unsupported when the source is a vertex other than the first one),
      then runs one round per vertex. On success every cost is the distance
      from the source, and the rounds number exactly |V|. */
  method Calculate(g: Graph, src: Id) returns (r: Result<seq<Entry>>, ghost rounds: nat)
    requires Valid(g)
    ensures r.Err? <==> SourceNotFirst(g.vertices, src)
    ensures r.Err? ==> r.error == Unsupported
    ensures r.Ok? ==> ShortestPathTree(g, src, r.value) && rounds == |IdSet(g)|
  {
    InitResultSpec(g, src);
    var init := InitResult(g.vertices, src);
    if init.Err? {
      return init, 0;
    }
    var rs := init.value;
    var open := IdSet(g);
    rounds := 0;
    ghost var rank: map<Id, nat> := map[];
    InitialProgress(g, src, rs);
    while open != {}
      invariant Progress(g, src, rs, open, rank, rounds)
      decreases |open|
    {
      var u := ExtractMin(rs, open);
      var rs' := RelaxFrom(g, rs, u, open - {u});
      RoundStep(g, src, rs, open, u, rs', rank, rounds);
      rank := rank[u := rounds];
      rs := rs';
      open := open - {u};
      rounds := rounds + 1;
    }
    Finished(g, src, rs, rank, rounds);
    return Ok(rs), rounds;
  }

  /** The loop invariant of `calculateDijkstra` together with the
      extraction order and the round count. */
  ghost predicate Progress(g: Graph, src: Id, rs: seq<Entry>, open: set<Id>, rank: map<Id, nat>, rounds: nat) {
    && Invariant(g, src, rs, open)
    && Settling(g, rs, open, rank, rounds)
    && rounds + |open| == |IdSet(g)|
  }

  /** The reference initial result satisfies the loop invariant before the
      first round. */
  lemma InitialProgress(g: Graph, src: Id, rs: seq<Entry>)
    requires Valid(g) && InitResult(g.vertices, src).Ok? && rs == InitResult(g.vertices, src).value
    ensures Progress(g, src, rs, IdSet(g), map[], 0)
  {
    InitResultSpec(g, src);
    InitialInvariant(g, src, rs);
  }

  /** One round of `calculateDijkstra` keeps the loop invariant and extends
      the extraction order by the vertex it removes from Q. */
  lemma RoundStep(g: Graph, src: Id, rs: seq<Entry>, open: set<Id>, u: Id, rs': seq<Entry>, rank: map<Id, nat>, next: nat)
    requires Valid(g) && Progress(g, src, rs, open, rank, next)
    requires u in open && forall x :: x in open ==> CostOf(rs, u).AtMost(CostOf(rs, x))
    requires EntryIds(rs') == EntryIds(rs)
    requires forall x :: x !in open - {u} ==> CostOf(rs', x) == CostOf(rs, x) && PrevOf(rs', x) == PrevOf(rs, x)
    requires forall x :: x in open - {u} ==> Relaxed(g, rs, rs', u, x)
    ensures Progress(g, src, rs', open - {u}, rank[u := next], next + 1)
  {
    RoundKeepsInvariant(g, src, rs, open, u, rs');
    RoundRanked(g, rs, open, u, rs', rank, next);
  }

  /** Once Q is empty the invariant is the shortest-path tree. */
  lemma Finished(g: Graph, src: Id, rs: seq<Entry>, rank: map<Id, nat>, next: nat)
    requires Progress(g, src, rs, {}, rank, next)
    ensures ShortestPathTree(g, src, rs) && next == |IdSet(g)|
  {
    assert rank.Keys == IdSet(g) && RankedLinks(g, rs, rank);
  }

  /*************************************************************************
   * Consequences
   *************************************************************************/

  /** A vertex has a finite cost exactly when some path leads to it from
      the source, and then its cost is the least path weight. */
  lemma FiniteIffReachable(g: Graph, src: Id, rs: seq<Entry>, v: Id)
    requires ShortestPathTree(g, src, rs) && ExistsVertex(g, v)
    ensures CostOf(rs, v).Fin? <==> exists p :: PathFromTo(g, p, src, v)
    ensures CostOf(rs, v).Fin? ==> (
      && (exists p :: PathFromTo(g, p, src, v) && PathWeight(g, p) == CostOf(rs, v).n)
      && (forall p :: PathFromTo(g, p, src, v) ==> CostOf(rs, v).n <= PathWeight(g, p)))
  {
    BoundAndAchieved(g, src, rs, v);
  }

  /** `FiniteIffReachable` from the two halves of the tree it uses. */
  lemma BoundAndAchieved(g: Graph, src: Id, rs: seq<Entry>, v: Id)
    requires LowerBound(g, src, rs, IdSet(g)) && Achieved(g, src, rs) && ExistsVertex(g, v)
    ensures CostOf(rs, v).Fin? <==> exists p :: PathFromTo(g, p, src, v)
    ensures CostOf(rs, v).Fin? ==> (
      && (exists p :: PathFromTo(g, p, src, v) && PathWeight(g, p) == CostOf(rs, v).n)
      && (forall p :: PathFromTo(g, p, src, v) ==> CostOf(rs, v).n <= PathWeight(g, p)))
  {
    if exists p :: PathFromTo(g, p, src, v) {
      var p :| PathFromTo(g, p, src, v);
      assert CostOf(rs, v).AtMost(Fin(PathWeight(g, p)));
    }
  }

  /** Following the predecessor links back from a vertex with a finite
      cost reaches the source along a path of exactly that cost: the links
      form a shortest-path tree rooted at the source. */
  lemma PrevWalk(g: Graph, src: Id, rs: seq<Entry>, v: Id) returns (p: seq<Id>)
    requires ShortestPathTree(g, src, rs) && ExistsVertex(g, v) && CostOf(rs, v).Fin?
    ensures PathFromTo(g, p, src, v) && PathWeight(g, p) == CostOf(rs, v).n
    ensures forall i :: 0 < i < |p| ==> PrevOf(rs, p[i]) == Some(p[i - 1])
  {
    var rank: map<Id, nat> :| rank.Keys == IdSet(g) && RankedLinks(g, rs, rank);
    p := PrevWalkRanked(g, src, rs, rank, v);
  }

  lemma {:induction false} PrevWalkRanked(g: Graph, src: Id, rs: seq<Entry>, rank: map<Id, nat>, v: Id) returns (p: seq<Id>)
    requires TightLinks(g, rs, {}) && Parented(g, src, rs) && SourceAtZero(g, src, rs)
    requires rank.Keys == IdSet(g) && RankedLinks(g, rs, rank)
    requires ExistsVertex(g, v) && CostOf(rs, v).Fin?
    ensures PathFromTo(g, p, src, v) && PathWeight(g, p) == CostOf(rs, v).n
    ensures forall i :: 0 < i < |p| ==> PrevOf(rs, p[i]) == Some(p[i - 1])
    decreases rank[v]
  {
    match PrevOf(rs, v)
    case None =>
      assert v == src && CostOf(rs, v) == Fin(0);
      p := [v];
    case Some(u) =>
      assert Weight(g.edges, u, v).Some? && ExistsVertex(g, u) && CostOf(rs, u).Fin?;
      assert CostOf(rs, v) == CostOf(rs, u).Plus(Weight(g.edges, u, v).value);
      assert rank[u] < rank[v];
      var q := PrevWalkRanked(g, src, rs, rank, u);
      p := PrevWalkStep(g, src, rs, q, u, v);
  }

  /** One more predecessor link extends the walk back by one hop. */
  lemma PrevWalkStep(g: Graph, src: Id, rs: seq<Entry>, q: seq<Id>, u: Id, v: Id) returns (p: seq<Id>)
    requires PathFromTo(g, q, src, u) && CostOf(rs, u).Fin? && PathWeight(g, q) == CostOf(rs, u).n
    requires forall i :: 0 < i < |q| ==> PrevOf(rs, q[i]) == Some(q[i - 1])
    requires PrevOf(rs, v) == Some(u) && Weight(g.edges, u, v).Some?
    requires CostOf(rs, v) == CostOf(rs, u).Plus(Weight(g.edges, u, v).value)
    ensures p == q + [v]
    ensures PathFromTo(g, p, src, v) && PathWeight(g, p) == CostOf(rs, v).n
    ensures forall i :: 0 < i < |p| ==> PrevOf(rs, p[i]) == Some(p[i - 1])
  {
    ExtendPath(g, q, src, u, v);
    p := q + [v];
    forall i | 0 < i < |p| ensures PrevOf(rs, p[i]) == Some(p[i - 1]) {
      if i < |p| - 1 {
        assert p[i] == q[i] && p[i - 1] == q[i - 1];
      }
    }
  }

  /** Two shortest-path trees from the same source agree on every cost:
      the cost of a vertex is its distance, and a non-vertex has none. */
  lemma CostsDetermined(g: Graph, src: Id, rs1: seq<Entry>, rs2: seq<Entry>, v: Id)
    requires ShortestPathTree(g, src, rs1) && ShortestPathTree(g, src, rs2)
    ensures CostOf(rs1, v) == CostOf(rs2, v)
  {
    if ExistsVertex(g, v) {
      FiniteIffReachable(g, src, rs1, v);
      FiniteIffReachable(g, src, rs2, v);
      DistancesAgree(g, src, v, CostOf(rs1, v), CostOf(rs2, v));
    } else {
      NoEntryNoCost(g, rs1, v);
      NoEntryNoCost(g, rs2, v);
    }
  }

  /** Two costs that are both the distance from `src` to `v` are equal. */
  lemma DistancesAgree(g: Graph, src: Id, v: Id, c1: Cost, c2: Cost)
    requires c1.Fin? <==> exists p :: PathFromTo(g, p, src, v)
    requires c2.Fin? <==> exists p :: PathFromTo(g, p, src, v)
    requires c1.Fin? ==> (exists p :: PathFromTo(g, p, src, v) && PathWeight(g, p) == c1.n)
    requires c2.Fin? ==> (exists p :: PathFromTo(g, p, src, v) && PathWeight(g, p) == c2.n)
    requires c1.Fin? ==> forall p :: PathFromTo(g, p, src, v) ==> c1.n <= PathWeight(g, p)
    requires c2.Fin? ==> forall p :: PathFromTo(g, p, src, v) ==> c2.n <= PathWeight(g, p)
    ensures c1 == c2
  {
    if c1.Fin? {
      var p1 :| PathFromTo(g, p1, src, v) && PathWeight(g, p1) == c1.n;
      var p2 :| PathFromTo(g, p2, src, v) && PathWeight(g, p2) == c2.n;
      assert c1.n <= PathWeight(g, p2) && c2.n <= PathWeight(g, p1);
    }
  }

  /** An id that is not a vertex has no entry in a result over the
      vertices, so its cost reads as +infinity. */
  lemma NoEntryNoCost(g: Graph, rs: seq<Entry>, v: Id)
    requires EntryIds(rs) == Ids(g.vertices) && !ExistsVertex(g, v)
    ensures CostOf(rs, v) == Inf
  {
    forall i | 0 <= i < |g.vertices| ensures Ids(g.vertices)[i] != v {
      assert g.vertices[i] in g.vertices;
    }
    assert v !in EntryIds(rs);
  }

  /** A source that is not a vertex reaches nothing: every cost is +infinity. */
  lemma MissingSourceReachesNothing(g: Graph, src: Id, rs: seq<Entry>)
    requires Valid(g) && ShortestPathTree(g, src, rs) && !ExistsVertex(g, src)
    ensures forall v :: CostOf(rs, v) == Inf
  {
    forall v ensures CostOf(rs, v) == Inf {
      UnreachedFromMissing(g, src, rs, v);
    }
  }

  /** One vertex at a time: a finite cost needs a path, and a path needs
      its first id to be a vertex. */
  lemma UnreachedFromMissing(g: Graph, src: Id, rs: seq<Entry>, v: Id)
    requires Valid(g) && !ExistsVertex(g, src)
    requires EntryIds(rs) == Ids(g.vertices) && Achieved(g, src, rs)
    ensures CostOf(rs, v) == Inf
  {
    if ExistsVertex(g, v) && CostOf(rs, v).Fin? {
      var p :| PathFromTo(g, p, src, v) && PathWeight(g, p) == CostOf(rs, v).n;
      PathInGraph(g, p, src, v);
      assert false;
    } else if !ExistsVertex(g, v) {
      assert v !in EntryIds(rs);
    }
  }
}

=== FILE: spanning_tree.dfy ===
/** The `MinimalSpanningTree` object: a `Dijkstra` object extended with the
    edges of the last spanning tree computed and the tag `calculated` that
    names the method which computed them. Computing with the method the tag
    already names does nothing; the mutators the class overrides reset the
    tag, so that the tree is recomputed on the next request. */
module SpanningTree {
  import opened Wrappers
  import opened Graphs
  import opened Walks
  import opened DijkstraEngine
  import Kruskal
  import Prim
  import PrimProof
  import ShortestPaths

  /** `MinimalSpanningTree.METHOD`. */
  datatype Method = KruskalMethod | PrimMethod | NotCalculated

  /** The fields of a `MinimalSpanningTree` object: the inherited `Dijkstra`
      state, `resultEdges` and `calculated`. */
  datatype Tree = Tree(engine: Engine, resultEdges: seq<Edge>, calculated: Method)

  /** `es` is a spanning forest of `g`: edges of `g`, no cycle, and the same
      ids connected as in `g` (one tree per connected component). */
  ghost predicate Spans(g: Graph, es: seq<Edge>) {
    && (forall e :: e in es ==> e in g.edges)
    && Forest(es)
    && (forall x, y :: Connected(es, x, y) <==> Connected(g.edges, x, y))
  }

  /** The object is coherent: the inherited cache is, and while the tag names
      a method the stored edges span the current graph. */
  ghost predicate Current(t: Tree) {
    Coherent(t.engine) && (t.calculated != NotCalculated ==> Spans(t.engine.graph, t.resultEdges))
  }

  /*************************************************************************
   * Construction and computation
   *************************************************************************/

  /** The constructors without a method (`()`, `(graph)`, `(dijkstra)`,
      `(graph, src)`): the `Dijkstra` part `e` built by `super`, no edges and
      nothing calculated. */
  function FromEngine(e: Engine): (t: Tree)
    ensures t.engine == e && t.calculated == NotCalculated && t.resultEdges == []
    ensures Coherent(e) ==> Current(t)
    ensures MermaidEdges(t) == Err(InvalidState)
  {
    Tree(e, [], NotCalculated)
  }

  /** `calculateMST(method)`: Kruskal or Prim. Each returns at once when the
      tag already names it (the cached tree is kept); otherwise it rebuilds
      `resultEdges` from the current graph and sets the tag. NOT_CALCULATED
      does nothing. */
  method CalculateMST(t: Tree, m: Method) returns (t': Tree)
    requires Valid(t.engine.graph)
    ensures t'.engine == t.engine
    ensures t'.calculated == if m == NotCalculated then t.calculated else m
    ensures m == NotCalculated || m == t.calculated ==> t'.resultEdges == t.resultEdges
    ensures m != NotCalculated && m != t.calculated ==> Spans(t.engine.graph, t'.resultEdges)
    ensures m == KruskalMethod && m != t.calculated ==> Kruskal.SortedByWeight(t'.resultEdges)
    ensures m != NotCalculated && m != t.calculated && |t.engine.graph.vertices| >= 1 ==>
      |t'.resultEdges| <= |t.engine.graph.vertices| - 1
    ensures Current(t) ==> Current(t')
  {
    var g := t.engine.graph;
    match m
    case NotCalculated =>
      t' := t;
    case KruskalMethod =>
      if t.calculated == KruskalMethod {
        t' := t;
      } else {
        var kept := Kruskal.Kruskal(g);
        IdSetSize(g);
        t' := Tree(t.engine, kept, KruskalMethod);
      }
    case PrimMethod =>
      if t.calculated == PrimMethod {
        t' := t;
      } else {
        PrimProof.PrimForest(g);
        PrimProof.PrimSpans(g);
        t' := Tree(t.engine, Prim.Prim(g), PrimMethod);
      }
  }

  /** A valid graph has as many distinct ids as vertices. */
  lemma {:induction false} IdSetSize(g: Graph)
    requires IdsIncreasing(g.vertices)
    ensures |IdSet(g)| == |g.vertices|
    decreases |g.vertices|
  {
    var vs := g.vertices;
    if vs != [] {
      var last := vs[|vs| - 1];
      var h := Graph(vs[..|vs| - 1], g.edges);
      assert IdsIncreasing(h.vertices);
      IdSetSize(h);
      IdSetSnoc(g, h, last);
    }
  }

  /** Appending a vertex with an id above all others adds exactly that id. */
  lemma IdSetSnoc(g: Graph, h: Graph, last: Vertex)
    requires g.vertices == h.vertices + [last]
    requires forall v :: v in h.vertices ==> v.id < last.id
    ensures IdSet(g) == IdSet(h) + {last.id} && last.id !in IdSet(h)
  {
    assert forall v :: v in g.vertices <==> v in h.vertices || v == last;
  }

  /** The constructors with a method (`(graph, method)`, `(graph, src,
      method)`, `(dijkstra, method)`): nothing calculated, then
      `calculateMST(method)`. */
  method WithMethod(e: Engine, m: Method) returns (t: Tree)
    requires Valid(e.graph)
    ensures t.engine == e && t.calculated == m
    ensures m != NotCalculated ==> Spans(e.graph, t.resultEdges)
    ensures Coherent(e) ==> Current(t)
  {
    t := CalculateMST(FromEngine(e), m);
  }

  /** The copy constructor: the `Dijkstra` part copied by `super` (`e`),
      then the tree recomputed with the method the original's tag names. */
  method Copy(original: Tree, e: Engine) returns (t: Tree)
    requires e.graph == original.engine.graph && Valid(e.graph)
    ensures t.engine == e && t.calculated == original.calculated
    ensures original.calculated != NotCalculated ==> Spans(e.graph, t.resultEdges)
    ensures Coherent(e) ==> Current(t)
  {
    t := FromEngine(e);
    if original.calculated != NotCalculated {
      t := CalculateMST(t, original.calculated);
    }
  }

  /** The guard of `mermaid()`: IllegalStateException while the tag is
      NOT_CALCULATED, otherwise the stored edges are rendered (the text
      itself is not modelled). */
  function MermaidEdges(t: Tree): (r: Result<seq<Edge>>)
    ensures r.Err? <==> t.calculated == NotCalculated
    ensures r.Err? ==> r.error == InvalidState
    ensures r.Ok? && Current(t) ==> Spans(t.engine.graph, r.value)
  {
    if t.calculated == NotCalculated then Err(InvalidState) else Ok(t.resultEdges)
  }

  /** `mermaid(method)`: `calculateMST(method)`, then `mermaid()`. It throws
      only when asked for NOT_CALCULATED with nothing calculated yet, and
      what it renders spans the current graph. */
  method MermaidWith(t: Tree, m: Method) returns (t': Tree, r: Result<seq<Edge>>)
    requires Valid(t.engine.graph)
    ensures t'.engine == t.engine
    ensures r.Err? <==> m == NotCalculated && t.calculated == NotCalculated
    ensures r.Err? ==> r.error == InvalidState
    ensures r.Ok? && m != NotCalculated && m != t.calculated ==> Spans(t.engine.graph, r.value)
    ensures r.Ok? && Current(t) ==> Spans(t.engine.graph, r.value)
  {
    t' := CalculateMST(t, m);
    r := MermaidEdges(t');
  }

  /*************************************************************************
   * Mutators
   *************************************************************************/

  /** `MinimalSpanningTree` overrides every mutator to reset the tag except
      `setVertexName` and `editEdge`, which it inherits unchanged. */
  predicate ResetsTag(m: Mutation) {
    !m.SetVertexName? && !m.EditEdge?
  }

  /** What a mutating call returns: the object afterwards, the ids it
      created and the exception it threw, if any. */
  datatype TreeReply = TreeReply(tree: Tree, created: seq<Id>, failure: Option<Error>)

  /** The overrides as written: each resets the tag, then calls the
      `Dijkstra` override as written, so even a call that throws resets the
      tag, while a varargs `removeAllEdges` that throws part-way keeps the
      inherited `calculated` flag. `setVertexName` and `editEdge` are not
      overridden and keep the tag. */
  function MutateAsWritten(t: Tree, m: Mutation): (r: TreeReply)
    ensures var d := DijkstraEngine.MutateAsWritten(t.engine, m);
      r.tree.engine == d.engine && r.created == d.created && r.failure == d.failure
    ensures r.tree.resultEdges == t.resultEdges
    ensures ResetsTag(m) ==> r.tree.calculated == NotCalculated
    ensures !ResetsTag(m) ==> r.tree.calculated == t.calculated
    ensures m.RemoveAllEdgesOf? && r.failure.Some? ==> r.tree.engine.calculated == t.engine.calculated
    ensures ResetsTag(m) && Coherent(t.engine) && !(m.RemoveAllEdgesOf? && r.failure.Some?) ==> Current(r.tree)
  {
    var d := DijkstraEngine.MutateAsWritten(t.engine, m);
    var tag := if ResetsTag(m) then NotCalculated else t.calculated;
    TreeReply(Tree(d.engine, t.resultEdges, tag), d.created, d.failure)
  }

  /** As written, a mutation can leave a current object incoherent in two
      ways only: `editEdge`, which keeps the tag over a changed graph, and
      a varargs `removeAllEdges` that throws part-way, which keeps the
      inherited flag over a changed graph. Renaming a vertex changes no edge. */
  lemma AsWrittenStaleCases(t: Tree, m: Mutation)
    requires Current(t) && !Current(MutateAsWritten(t, m).tree)
    ensures m.EditEdge? || (m.RemoveAllEdgesOf? && MutateAsWritten(t, m).failure.Some?)
  {
    var r := MutateAsWritten(t, m);
    if !Coherent(r.tree.engine) {
      DijkstraEngine.AsWrittenStaleOnlyOnPartialBatch(t.engine, m);
    }
  }

  /** The partial removal of the `Dijkstra` part reaches an MST object too:
      with edge 1-2 of weight 5 and source 1 computed, `removeAllEdges(1, 3)`
      removes the edge, throws on 3, and leaves the object incoherent. */
  lemma PartialEdgeRemovalLeavesStaleObject()
    ensures var g := Graph([Vertex(1, "1"), Vertex(2, "2")], [Edge(1, 2, 5)]);
      var rs := [ShortestPaths.Entry(1, "1", ShortestPaths.Fin(0), None),
                 ShortestPaths.Entry(2, "2", ShortestPaths.Fin(5), Some(1))];
      var t := FromEngine(Engine(g, Some(1), rs, true));
      && Current(t)
      && var r := MutateAsWritten(t, RemoveAllEdgesOf([1, 3]));
      && r.failure == Some(NotFound)
      && !Current(r.tree)
  {
    DijkstraEngine.PartialEdgeRemovalLeavesStaleResult();
  }

  /** `editEdge(v1, v2, w)` on an edge of the stored tree with a different
      weight succeeds and leaves the tag in place, while the stored tree
      keeps the old edge, which is no longer in the graph. */
  lemma EditEdgeLeavesStaleTree(t: Tree, e: Edge, w: nat)
    requires Current(t) && t.calculated != NotCalculated
    requires e in t.resultEdges && e.weight != w
    ensures var r := MutateAsWritten(t, EditEdge(e.v1, e.v2, w));
      && r.failure.None?
      && r.tree.calculated == t.calculated
      && MermaidEdges(r.tree) == Ok(t.resultEdges)
      && e !in r.tree.engine.graph.edges
      && !Current(r.tree)
  {
    var g := t.engine.graph;
    var m := EditEdge(e.v1, e.v2, w);
    ReweightDropsEdge(g, e, w);
    var r := MutateAsWritten(t, m);
    assert e !in r.tree.engine.graph.edges;
    assert !Spans(r.tree.engine.graph, r.tree.resultEdges);
  }

  /** The stale tree is reachable as written: on ids 1, 2, 3 with edge 1-2
      of weight 5 every endpoint has a slot in Kruskal's `parent` array, so
      `calculateMST(KRUSKAL)` succeeds and keeps 1-2 (5); `editEdge(1, 2, 7)`
      then succeeds, keeps the tag, and `mermaid()` still renders 1-2 (5). */
  method EditEdgeAfterKruskalAsWritten() returns (before: Tree, after: TreeReply)
    ensures before.calculated == KruskalMethod && Current(before)
    ensures before.engine.graph == Graph([Vertex(1, "1"), Vertex(2, "2"), Vertex(3, "3")], [Edge(1, 2, 5)])
    ensures after == MutateAsWritten(before, EditEdge(1, 2, 7))
    ensures after.failure.None? && after.tree.calculated == KruskalMethod
    ensures MermaidEdges(after.tree).Ok? && Edge(1, 2, 5) in MermaidEdges(after.tree).value
    ensures !Current(after.tree)
  {
    var g := Graph([Vertex(1, "1"), Vertex(2, "2"), Vertex(3, "3")], [Edge(1, 2, 5)]);
    ThreeVertexExample(g);
    var queue := Kruskal.SortByWeight(g.edges);
    var r := Kruskal.KruskalAsWritten(g, queue);
    var kept := r.value;
    EdgeConnected(g.edges, Edge(1, 2, 5));
    assert Connected(kept, 1, 2);
    ConnectedNonEmpty(kept, 1, 2);
    assert kept[0] in g.edges;
    before := Tree(FromGraph(g), kept, KruskalMethod);
    EditEdgeLeavesStaleTree(before, Edge(1, 2, 5), 7);
    after := MutateAsWritten(before, EditEdge(1, 2, 7));
  }

  /** The three-vertex example is valid, and both endpoints of its edge
      have a slot. */
  lemma ThreeVertexExample(g: Graph)
    requires g == Graph([Vertex(1, "1"), Vertex(2, "2"), Vertex(3, "3")], [Edge(1, 2, 5)])
    ensures Valid(g) && Kruskal.AllSlotted(g)
  {
    assert g.vertices[0] in g.vertices && g.vertices[1] in g.vertices;
  }

  /** Two different ids are connected only through some edge. */
  lemma ConnectedNonEmpty(es: seq<Edge>, x: Id, y: Id)
    requires Connected(es, x, y) && x != y
    ensures |es| >= 1
  {
    var w :| IsWalk(es, w) && w[0] == x && w[|w| - 1] == y;
    assert |w| >= 2 && Linked(es, w[0], w[1]);
  }

  /** The overrides with the tag reset on every mutation, `setVertexName`
      and `editEdge` included: the object stays coherent whatever the call
      and however it ends. */
  function Mutate(t: Tree, m: Mutation): (r: TreeReply)
    ensures var d := DijkstraEngine.Mutate(t.engine, m);
      r.tree.engine == d.engine && r.created == d.created && r.failure == d.failure
    ensures r.tree.calculated == NotCalculated
    ensures MermaidEdges(r.tree) == Err(InvalidState)
    ensures Valid(t.engine.graph) ==> Current(r.tree)
  {
    var d := DijkstraEngine.Mutate(t.engine, m);
    TreeReply(Tree(d.engine, t.resultEdges, NotCalculated), d.created, d.failure)
  }

  /** After any mutation, asking for a tree by a method recomputes it on the
      mutated graph: the result spans that graph. */
  method MutateThenMermaid(t: Tree, m: Mutation, how: Method) returns (r: Result<seq<Edge>>)
    requires Valid(t.engine.graph)
    ensures r.Err? <==> how == NotCalculated
    ensures r.Ok? ==> Spans(Mutate(t, m).tree.engine.graph, r.value)
  {
    var after := Mutate(t, m).tree;
    var _, out := MermaidWith(after, how);
    r := out;
  }
}

=== FILE: union_find.dfy ===
/** The disjoint-set forest of `MinimalSpanningTree.Kruskal`: a parent slot
    per vertex, `find` with path compression and `union` that links one root
    under the other. The Java keeps no rank; the ghost `rank` here is only
    the measure that shows every parent chain ends at a root. */
module UnionFind {
  import opened Graphs

  /** Every parent is a slot, and a parent link climbs to a strictly higher
      rank, so the links form trees. */
  ghost predicate Wf(parent: map<Id, Id>, rank: map<Id, nat>) {
    && parent.Keys == rank.Keys
    && parent.Values <= parent.Keys
    && (forall x {:trigger parent[x]} :: x in parent && parent[x] != x ==> rank[x] < rank[parent[x]])
  }

  /** The slots ranked above `x`; shrinks along every parent link. */
  ghost function Above(rank: map<Id, nat>, x: Id): set<Id>
    requires x in rank
  {
    set y | y in rank && rank[y] > rank[x]
  }

  /** The root of `x`'s tree. */
  ghost function Root(parent: map<Id, Id>, rank: map<Id, nat>, x: Id): Id
    requires Wf(parent, rank) && x in parent
    decreases Above(rank, x)
  {
    if parent[x] == x then x
    else
      assert parent[x] in Above(rank, x) - Above(rank, parent[x]);
      Root(parent, rank, parent[x])
  }

  /** Following the parents from `x` ends at a slot that is its own parent.
      (A lemma rather than a postcondition of `Root`: as a postcondition it
      would feed every root back in as a fresh key to look up.) */
  lemma {:induction false} RootIsRoot(parent: map<Id, Id>, rank: map<Id, nat>, x: Id)
    requires Wf(parent, rank) && x in parent
    ensures Root(parent, rank, x) in Roots(parent)
    decreases Above(rank, x)
  {
    if parent[x] != x {
      assert parent[x] in Above(rank, x) - Above(rank, parent[x]);
      RootIsRoot(parent, rank, parent[x]);
    }
  }

  /** The slots that are their own parent. */
  function Roots(parent: map<Id, Id>): set<Id> {
    set x | x in parent && parent[x] == x
  }

  /** The class of every slot, named by its root: two slots are in one
      class exactly when they map to the same root. */
  ghost function Classes(parent: map<Id, Id>, rank: map<Id, nat>): (c: map<Id, Id>)
    requires Wf(parent, rank)
    ensures c.Keys == parent.Keys
  {
    map x | x in parent :: Root(parent, rank, x)
  }

  /** The classes after the class named `ra` has joined the class `rb`. */
  function Merge(c: map<Id, Id>, ra: Id, rb: Id): (c': map<Id, Id>)
    ensures c'.Keys == c.Keys
  {
    map y | y in c :: if c[y] == ra then rb else c[y]
  }

  /** The ranks climb from a non-root to its root. */
  lemma {:induction false} RootRank(parent: map<Id, Id>, rank: map<Id, nat>, x: Id)
    requires Wf(parent, rank) && x in parent && parent[x] != x
    ensures Root(parent, rank, x) in Roots(parent) && rank[x] < rank[Root(parent, rank, x)]
    decreases Above(rank, x)
  {
    RootIsRoot(parent, rank, x);
    var p := parent[x];
    assert p in Above(rank, x) - Above(rank, p);
    if parent[p] != p {
      RootRank(parent, rank, p);
    }
  }

  /** The slots with only themselves as parent: each is its own class. */
  function Singletons(s: set<Id>): (parent: map<Id, Id>)
    ensures parent.Keys == s && Roots(parent) == s
    ensures forall x :: x in s ==> parent[x] == x
  {
    map x | x in s :: x
  }

  /** All ranks 0 make the singleton forest well formed, each slot its own root. */
  lemma SingletonsWf(s: set<Id>)
    ensures var rank := map x | x in s :: 0;
      && Wf(Singletons(s), rank)
      && Classes(Singletons(s), rank) == Singletons(s)
  {
  }

  /*************************************************************************
   * find
   *************************************************************************/

  /** `find(x)`: the root of `x`, repointing every slot on the way straight
      at it. The roots, and so the classes, stay as they were. */
  method Find(parent: map<Id, Id>, ghost rank: map<Id, nat>, x: Id) returns (parent': map<Id, Id>, r: Id)
    requires Wf(parent, rank) && x in parent
    ensures r == Root(parent, rank, x) && r in Roots(parent)
    ensures Wf(parent', rank) && parent'.Keys == parent.Keys
    ensures Classes(parent', rank) == Classes(parent, rank)
    ensures Roots(parent') == Roots(parent)
    decreases Above(rank, x)
  {
    if parent[x] == x {
      return parent, x;
    }
    assert parent[x] in Above(rank, x) - Above(rank, parent[x]);
    var p, r0 := Find(parent, rank, parent[x]);
    RootRank(parent, rank, x);
    assert Root(p, rank, x) == r0 != x;
    Compress(p, rank, x);
    parent' := p[x := r0];
    r := r0;
  }

  /** Pointing a non-root straight at its root changes no root. */
  lemma Compress(p: map<Id, Id>, rank: map<Id, nat>, x: Id)
    requires Wf(p, rank) && x in p && p[x] != x
    ensures var p' := p[x := Root(p, rank, x)];
      && Wf(p', rank)
      && Classes(p', rank) == Classes(p, rank)
      && Roots(p') == Roots(p)
  {
    var r := Root(p, rank, x);
    var p' := p[x := r];
    RootRank(p, rank, x);
    assert Wf(p', rank) by {
      assert r in p;
      forall z | z in p' && p'[z] != z ensures rank[z] < rank[p'[z]] {
        if z != x {
          assert p'[z] == p[z];
        }
      }
    }
    forall y | y in p ensures Classes(p', rank)[y] == Classes(p, rank)[y] {
      CompressRoot(p, rank, x, y);
    }
    Repoint(p, x, r);
    assert x !in Roots(p);
    assert Roots(p) - {x} == Roots(p);
  }

  /** Pointing a slot elsewhere removes it from the roots, and only it. */
  lemma Repoint(p: map<Id, Id>, x: Id, v: Id)
    requires x in p && v != x
    ensures Roots(p[x := v]) == Roots(p) - {x}
  {
    var p' := p[x := v];
    forall z ensures z in Roots(p') <==> z in Roots(p) - {x} {
      if z != x {
        assert z in p' <==> z in p;
      }
    }
  }

  lemma {:induction false} CompressRoot(p: map<Id, Id>, rank: map<Id, nat>, x: Id, y: Id)
    requires Wf(p, rank) && x in p && p[x] != x && y in p
    requires Wf(p[x := Root(p, rank, x)], rank)
    ensures Root(p[x := Root(p, rank, x)], rank, y) == Root(p, rank, y)
    decreases Above(rank, y)
  {
    var r := Root(p, rank, x);
    var p' := p[x := r];
    if y == x {
      RootIsRoot(p, rank, x);
      assert p'[r] == r;
    } else if p[y] != y {
      assert p[y] in Above(rank, y) - Above(rank, p[y]);
      CompressRoot(p, rank, x, p[y]);
    }
  }

  /*************************************************************************
   * union
   *************************************************************************/

  /** `union(a, b)`: finds both roots and hangs the root of `a` under the
      root of `b`. Afterwards the class of `a` has joined the class of `b`,
      every other class is unchanged, and the two roots have become one. */
  method Union(parent: map<Id, Id>, ghost rank: map<Id, nat>, a: Id, b: Id)
    returns (parent': map<Id, Id>, ghost rank': map<Id, nat>)
    requires Wf(parent, rank) && a in parent && b in parent
    ensures Wf(parent', rank') && parent'.Keys == parent.Keys
    ensures Classes(parent', rank') == Merge(Classes(parent, rank), Root(parent, rank, a), Root(parent, rank, b))
    ensures Root(parent', rank', a) == Root(parent', rank', b)
    ensures Root(parent, rank, a) != Root(parent, rank, b) ==>
      Roots(parent') == Roots(parent) - {Root(parent, rank, a)}
  {
    var p1, ra := Find(parent, rank, a);
    var p2, rb := Find(p1, rank, b);
    assert ra in Roots(parent) && rb in Roots(p1);
    assert ra in Roots(p2) && rb in Roots(p2);
    rank' := if ra == rb then rank else rank[rb := if rank[rb] > rank[ra] then rank[rb] else rank[ra] + 1];
    Link(p2, rank, rank', ra, rb);
    parent' := p2[ra := rb];
  }

  /** Setting `parent[ra] = rb` for two roots merges exactly their classes. */
  lemma Link(p: map<Id, Id>, rank: map<Id, nat>, rank': map<Id, nat>, ra: Id, rb: Id)
    requires Wf(p, rank) && ra in p && rb in p && p[ra] == ra && p[rb] == rb
    requires rank' == if ra == rb then rank else rank[rb := if rank[rb] > rank[ra] then rank[rb] else rank[ra] + 1]
    ensures Wf(p[ra := rb], rank')
    ensures Classes(p[ra := rb], rank') == Merge(Classes(p, rank), ra, rb)
    ensures ra != rb ==> Roots(p[ra := rb]) == Roots(p) - {ra}
  {
    LinkWf(p, rank, rank', ra, rb);
    LinkClasses(p, rank, rank', ra, rb);
    if ra != rb {
      Repoint(p, ra, rb);
    }
  }

  lemma LinkClasses(p: map<Id, Id>, rank: map<Id, nat>, rank': map<Id, nat>, ra: Id, rb: Id)
    requires Wf(p, rank) && ra in p && rb in p && p[ra] == ra && p[rb] == rb
    requires Wf(p[ra := rb], rank')
    ensures Classes(p[ra := rb], rank') == Merge(Classes(p, rank), ra, rb)
  {
    var c' := Classes(p[ra := rb], rank');
    var m := Merge(Classes(p, rank), ra, rb);
    assert c'.Keys == m.Keys;
    forall y | y in m ensures c'[y] == m[y] {
      LinkClassAt(p, rank, rank', ra, rb, y);
    }
  }

  /** The class of one slot after the link. */
  lemma LinkClassAt(p: map<Id, Id>, rank: map<Id, nat>, rank': map<Id, nat>, ra: Id, rb: Id, y: Id)
    requires Wf(p, rank) && ra in p && rb in p && p[ra] == ra && p[rb] == rb && y in p
    requires Wf(p[ra := rb], rank')
    ensures Classes(p[ra := rb], rank')[y] == Merge(Classes(p, rank), ra, rb)[y]
  {
    LinkRoot(p, rank, rank', ra, rb, y);
  }

  /** The new link climbs in rank', so the forest stays well formed. */
  lemma LinkWf(p: map<Id, Id>, rank: map<Id, nat>, rank': map<Id, nat>, ra: Id, rb: Id)
    requires Wf(p, rank) && ra in p && rb in p && p[ra] == ra && p[rb] == rb
    requires rank' == if ra == rb then rank else rank[rb := if rank[rb] > rank[ra] then rank[rb] else rank[ra] + 1]
    ensures Wf(p[ra := rb], rank')
  {
    var p' := p[ra := rb];
    forall x | x in p' && p'[x] != x ensures rank'[x] < rank'[p'[x]] {
      if x != ra {
        assert p'[x] == p[x] != x;
      }
    }
  }

  lemma {:induction false} LinkRoot(p: map<Id, Id>, rank: map<Id, nat>, rank': map<Id, nat>, ra: Id, rb: Id, y: Id)
    requires Wf(p, rank) && ra in p && rb in p && p[ra] == ra && p[rb] == rb && y in p
    requires Wf(p[ra := rb], rank')
    ensures Root(p[ra := rb], rank', y) == if Root(p, rank, y) == ra then rb else Root(p, rank, y)
    decreases Above(rank, y)
  {
    var p' := p[ra := rb];
    if p[y] != y {
      assert p[y] in Above(rank, y) - Above(rank, p[y]);
      LinkRoot(p, rank, rank', ra, rb, p[y]);
    } else if y == ra && ra != rb {
      assert p'[rb] == rb;
    }
  }
}

=== FILE: walks.dfy ===
/** Connectivity through a list of edges, the yardstick for both spanning
    tree algorithms: a walk hops between ids joined by an edge, two ids are
    connected when a walk leads from one to the other, and a forest is a
    list in which every edge joins two ids its predecessors left apart. */
module Walks {
  import opened Graphs

  /** Some edge of `es` joins `a` and `b`, as `Edge.connects(a, b)` reads it. */
  predicate Linked(es: seq<Edge>, a: Id, b: Id) {
    exists e :: e in es && e.Connects(a, b)
  }

  /** Consecutive ids of `w` are linked. */
  ghost predicate IsWalk(es: seq<Edge>, w: seq<Id>) {
    |w| >= 1 && forall i :: 0 <= i < |w| - 1 ==> Linked(es, w[i], w[i + 1])
  }

  ghost predicate Connected(es: seq<Edge>, x: Id, y: Id) {
    exists w :: IsWalk(es, w) && w[0] == x && w[|w| - 1] == y
  }

  /** Every edge joins two ids that the edges before it leave unconnected:
      the list has no cycle. */
  ghost predicate Forest(es: seq<Edge>)
    decreases |es|
  {
    |es| == 0 || (Forest(es[..|es| - 1]) && !Connected(es[..|es| - 1], es[|es| - 1].v1, es[|es| - 1].v2))
  }

  /*************************************************************************
   * Connectivity is an equivalence
   *************************************************************************/

  lemma ConnectedRefl(es: seq<Edge>, x: Id)
    ensures Connected(es, x, x)
  {
    assert IsWalk(es, [x]);
  }

  lemma LinkedConnected(es: seq<Edge>, a: Id, b: Id)
    requires Linked(es, a, b)
    ensures Connected(es, a, b)
  {
    assert IsWalk(es, [a, b]);
  }

  /** Every edge connects its own endpoints. */
  lemma EdgeConnected(es: seq<Edge>, e: Edge)
    requires e in es
    ensures Connected(es, e.v1, e.v2)
  {
    assert e.Connects(e.v1, e.v2);
    LinkedConnected(es, e.v1, e.v2);
  }

  lemma ConnectedSym(es: seq<Edge>, x: Id, y: Id)
    requires Connected(es, x, y)
    ensures Connected(es, y, x)
  {
    var w :| IsWalk(es, w) && w[0] == x && w[|w| - 1] == y;
    var r := seq(|w|, i requires 0 <= i < |w| => w[|w| - 1 - i]);
    forall i | 0 <= i < |r| - 1 ensures Linked(es, r[i], r[i + 1]) {
      var j := |w| - 2 - i;
      assert 0 <= j < |w| - 1 && Linked(es, w[j], w[j + 1]);
      var e :| e in es && e.Connects(w[j], w[j + 1]);
      assert e.Connects(r[i], r[i + 1]);
    }
    assert IsWalk(es, r);
  }

  lemma ConnectedTrans(es: seq<Edge>, x: Id, y: Id, z: Id)
    requires Connected(es, x, y) && Connected(es, y, z)
    ensures Connected(es, x, z)
  {
    var u :| IsWalk(es, u) && u[0] == x && u[|u| - 1] == y;
    var v :| IsWalk(es, v) && v[0] == y && v[|v| - 1] == z;
    var w := u + v[1..];
    forall i | 0 <= i < |w| - 1 ensures Linked(es, w[i], w[i + 1]) {
      if i < |u| - 1 {
        assert w[i] == u[i] && w[i + 1] == u[i + 1];
      } else {
        var k := i - |u| + 1;
        assert w[i] == v[k] && w[i + 1] == v[k + 1];
      }
    }
    assert IsWalk(es, w);
  }

  /*************************************************************************
   * Changing the edge list
   *************************************************************************/

  /** More edges connect at least as much. */
  lemma ConnectedMono(es: seq<Edge>, fs: seq<Edge>, x: Id, y: Id)
    requires forall e :: e in es ==> e in fs
    requires Connected(es, x, y)
    ensures Connected(fs, x, y)
  {
    var w :| IsWalk(es, w) && w[0] == x && w[|w| - 1] == y;
    assert IsWalk(fs, w) by {
      forall i | 0 <= i < |w| - 1 ensures Linked(fs, w[i], w[i + 1]) {
        assert Linked(es, w[i], w[i + 1]);
      }
    }
  }

  /** When every edge of `es` has its endpoints connected in `fs`, whatever
      `es` connects, `fs` connects too. */
  lemma ConnectedClosure(es: seq<Edge>, fs: seq<Edge>, x: Id, y: Id)
    requires forall e :: e in es ==> Connected(fs, e.v1, e.v2)
    requires Connected(es, x, y)
    ensures Connected(fs, x, y)
  {
    var w :| IsWalk(es, w) && w[0] == x && w[|w| - 1] == y;
    WalkClosure(es, fs, w);
  }

  lemma {:induction false} WalkClosure(es: seq<Edge>, fs: seq<Edge>, w: seq<Id>)
    requires forall e :: e in es ==> Connected(fs, e.v1, e.v2)
    requires IsWalk(es, w)
    ensures Connected(fs, w[0], w[|w| - 1])
    decreases |w|
  {
    if |w| == 1 {
      ConnectedRefl(fs, w[0]);
    } else {
      var u := w[..|w| - 1];
      assert IsWalk(es, u);
      WalkClosure(es, fs, u);
      var a, b := w[|w| - 2], w[|w| - 1];
      var e :| e in es && e.Connects(a, b);
      HopConnected(fs, e, a, b);
      ConnectedTrans(fs, w[0], a, b);
    }
  }

  /** Two ids an edge touches are connected wherever its endpoints are. */
  lemma HopConnected(fs: seq<Edge>, e: Edge, a: Id, b: Id)
    requires Connected(fs, e.v1, e.v2) && e.Connects(a, b)
    ensures Connected(fs, a, b)
  {
    ConnectedRefl(fs, a);
    ConnectedSym(fs, e.v1, e.v2);
    if a != b {
      if a == e.v1 {
        assert b == e.v2;
      } else {
        assert a == e.v2 && b == e.v1;
      }
    }
  }

  /** An id no edge touches is connected to nothing but itself. */
  lemma Untouched(es: seq<Edge>, x: Id, y: Id)
    requires forall f :: f in es ==> !f.Touches(y)
    requires x != y
    ensures !Connected(es, x, y)
  {
    forall w | IsWalk(es, w) && |w| >= 2 ensures w[|w| - 1] != y {
      assert Linked(es, w[|w| - 2], w[|w| - 1]);
    }
  }

  /** What appending one edge a-b connects: what was connected, plus
      whatever reaches a on one side and b on the other. */
  lemma ConnectedAppend(es: seq<Edge>, e: Edge, x: Id, y: Id)
    ensures Connected(es + [e], x, y) <==> Reach(es, e, x, y)
  {
    if Connected(es + [e], x, y) {
      var w :| IsWalk(es + [e], w) && w[0] == x && w[|w| - 1] == y;
      WalkReach(es, e, w);
    }
    if Reach(es, e, x, y) {
      var fs := es + [e];
      assert forall f :: f in es ==> f in fs;
      EdgeConnected(fs, e);
      if Connected(es, x, y) {
        ConnectedMono(es, fs, x, y);
      } else if Connected(es, x, e.v1) && Connected(es, e.v2, y) {
        ConnectedMono(es, fs, x, e.v1);
        ConnectedMono(es, fs, e.v2, y);
        ConnectedTrans(fs, x, e.v1, e.v2);
        ConnectedTrans(fs, x, e.v2, y);
      } else {
        ConnectedMono(es, fs, x, e.v2);
        ConnectedMono(es, fs, e.v1, y);
        ConnectedSym(fs, e.v1, e.v2);
        ConnectedTrans(fs, x, e.v2, e.v1);
        ConnectedTrans(fs, x, e.v1, y);
      }
    }
  }

  /** `y` is reachable from `x` in `es` extended by `e`, stated in `es`. */
  ghost predicate Reach(es: seq<Edge>, e: Edge, x: Id, y: Id) {
    || Connected(es, x, y)
    || (Connected(es, x, e.v1) && Connected(es, e.v2, y))
    || (Connected(es, x, e.v2) && Connected(es, e.v1, y))
  }

  lemma {:induction false} WalkReach(es: seq<Edge>, e: Edge, w: seq<Id>)
    requires IsWalk(es + [e], w)
    ensures Reach(es, e, w[0], w[|w| - 1])
    decreases |w|
  {
    var x := w[0];
    if |w| == 1 {
      ConnectedRefl(es, x);
    } else {
      var u := w[..|w| - 1];
      assert IsWalk(es + [e], u);
      WalkReach(es, e, u);
      var z, z' := w[|w| - 2], w[|w| - 1];
      var f :| f in es + [e] && f.Connects(z, z');
      if f in es {
        LinkedConnected(es, z, z');
        ReachStep(es, e, x, z, z');
      } else {
        ReachAcross(es, e, x, z, z');
      }
    }
  }

  /** A hop inside `es` keeps reachability. */
  lemma ReachStep(es: seq<Edge>, e: Edge, x: Id, z: Id, z': Id)
    requires Reach(es, e, x, z) && Connected(es, z, z')
    ensures Reach(es, e, x, z')
  {
    if Connected(es, x, z) {
      ConnectedTrans(es, x, z, z');
    } else if Connected(es, x, e.v1) && Connected(es, e.v2, z) {
      ConnectedTrans(es, e.v2, z, z');
    } else {
      ConnectedTrans(es, e.v1, z, z');
    }
  }

  /** A hop across the new edge keeps reachability. */
  lemma ReachAcross(es: seq<Edge>, e: Edge, x: Id, z: Id, z': Id)
    requires Reach(es, e, x, z) && e.Connects(z, z')
    ensures Reach(es, e, x, z')
  {
    ConnectedRefl(es, e.v1);
    ConnectedRefl(es, e.v2);
    if z != z' {
      if z == e.v1 {
        assert z' == e.v2;
        if Connected(es, e.v2, z) {
          ConnectedSym(es, e.v2, z);
        }
      } else {
        assert z == e.v2 && z' == e.v1;
        if Connected(es, e.v1, z) {
          ConnectedSym(es, e.v1, z);
        }
      }
    }
  }

  /** Appending an edge whose endpoints are unconnected keeps a forest. */
  lemma ForestAppend(es: seq<Edge>, e: Edge)
    requires Forest(es) && !Connected(es, e.v1, e.v2)
    ensures Forest(es + [e])
  {
    assert (es + [e])[..|es|] == es;
  }
}

=== FILE: wrappers.dfy ===
/** Failure-compatible datatypes shared by every layer of the graph library.
    The library reports failures by throwing one of five Java exceptions; each
    becomes an `Error` value here. */
module Wrappers {

  /** An optional value; stands for a nullable reference. */
  datatype Option<+T> = None | Some(value: T)

  /** The exception kinds thrown by the library.
      - NotFound:      NoSuchElementException (missing vertex or edge)
      - AlreadyExists: IllegalArgumentException (duplicate vertex id or edge)
      - InvalidState:  IllegalStateException (algorithm run before its input is set)
      - Unsupported:   UnsupportedOperationException (structurally refused operation)
      - OutOfBounds:   ArrayIndexOutOfBoundsException (an array read past its end) */
  datatype Error = NotFound | AlreadyExists | InvalidState | Unsupported | OutOfBounds

  /** The outcome of an operation that either completes or throws and leaves
      the object unchanged. */
  datatype Result<+T> = Ok(value: T) | Err(error: Error) {

    predicate IsFailure() {
      Err?
    }

    function PropagateFailure<U>(): Result<U>
      requires Err?
    {
      Err(error)
    }

    function Extract(): T
      requires Ok?
    {
      value
    }
  }

  /** The outcome of a loop over several arguments that stops at the first
      exception: the state reached so far, and the exception, if any. */
  datatype Partial<+T> = Partial(state: T, failure: Option<Error>)
}
